=== FILE: README.md ===
# bioscript readers and record transforms in Dafny

A model of the record-handling core of the bioscript command-line scripts,
with proofs about it. The core has two parts.

- The line-oriented FASTA/FASTQ readers. There are four divergent copies:
  - `allot_base.py`;
  - `plot_read_length.py`;
  - `add_assembly_edge.py`, a copy of `plot_read_length.py`'s readers, identical except that they never close the file;
  - `cut_seq.py`.
- The pure transformations built on the readers:
  - the base-count partitioner of `allot_base.py`;
  - `stat_length` and `n50` of `plot_read_length.py`;
  - the circular-edge duplication of `add_assembly_edge.py`;
  - id normalisation, lookup and slicing in `cut_seq.py`;
  - the single-pass contig recovery and line filter of `filter_gfa.py`;
  - sample extraction and grouping in `merge_bam.py`;
  - the rename/destination computation of `move_file.py`;
  - the read-selection loop of `filter_bam.py`.

Every reader is a pure fold over the lines of a file. A line is a `string`,
already decoded, and keeps its trailing line break as file iteration hands it
over. Each fold has a small state datatype that mirrors the script's buffer
(`seq` as a string or a list). It returns the records yielded and whether the
reader raised part way, because the generators yield records before a later
`split()[0]` raises `IndexError`. Python's `strip()`, `strip(c)`,
`split()[0]`, `split(sep)`, `sep.join`, `str.replace`, `startswith` and
`endswith` are written out in module `Text`. Module `Records` holds:
- the record types;
- the line classification shared by the readers;
- the suffix dispatch `FormatOf`;
- the writers `FastaLines`/`FastqLines`, which the round-trip lemmas read back.

Modules, one per file:

| file | module | models |
|---|---|---|
| text.dfy | `Text` | Python string primitives |
| records.dfy | `Records` | records, line classification, suffix dispatch, writers |
| allot_base.dfy | `AllotBase` | `read_fasta`, `read_fastq`, `allot_base` |
| plot_read_length.dfy | `PlotReadLength` | `read_fasta`, `read_fastq` (also those of add_assembly_edge.py), `stat_length`, `n50` |
| add_assembly_edge.dfy | `AddAssemblyEdge` | `add_assembly_edge` |
| cut_seq.dfy | `CutSeq` | `read_fasta`, `read_fastq`, `read_fp` |
| filter_gfa.dfy | `FilterGfa` | `read_tsv`, `recover_contig`, `filter_gfa` |
| merge_bam.dfy | `MergeBam` | `get_sample`, `sort_file`, `run_merge_bam` |
| move_file.dfy | `MoveFile` | `move_files` |
| filter_bam.dfy | `FilterBam` | `filter_bam` |

Behaviours of the code that are easy to miss:
- **No "non-empty shard" guard.** The partitioner rotates whenever the running total is `>= base` before a write, even when the open shard is empty. So with base 0 the first shard stays empty and every record gets a shard of its own (`AllotBase.PartitionEdgeCases`).
- **A base equal to the total can still give two shards.** A base above the total gives one shard (`AllotBase.PartitionSingle`). A base equal to the total still gives two when the last record is empty (`AllotBase.PartitionAtTotal`).
- **Only cut_seq.py skips `#` lines.** In `allot_base.py` and `plot_read_length.py` a `#` line is body text.
- **The `@` guard exists only in allot_base.py.** There, an `@` line counts as a header only after 0 or at least 4 lines. `plot_read_length.py` takes every later `@` line for a header, a quality line included (`PlotReadLength.ReadFastqQualityHeader`).
- **Only cut_seq.py's FASTQ record count is positional.** The number of records is the number of kept lines divided by four only there.
- **A FASTA header without an id raises.** A `>` (or `@`) line holding nothing but markers raises `IndexError`; the model carries that as `crashed`/`Raised`.
- **cut_seq.py's gzip suffixes are not anchored at a dot.** `read_fasta` accepts any name ending in `fa.gz` or `fasta.gz`.
- **allot_base.py can leave the last shard unreported.** When its reader raises, the last shard stays open and its path is not printed.

## Model

| member | source | states |
|---|---|---|
| Text.StripSpec | allot_base.py:34 | `strip()` gives a trimmed infix of the string with only white space around it |
| Text.PaddedUnique | allot_base.py:34 | there is only one such infix, so `StripSpec` determines `strip()` |
| Text.StripLine | allot_base.py:34 | a trimmed text written with a line break strips back to itself |
| Text.TokenSpec | allot_base.py:43 | `split()[0]` raises exactly when the text is all white space; otherwise it is a word that only white space precedes and white space or the end follows |
| Text.FirstWordUnique | allot_base.py:43 | there is only one such non-empty word, so `TokenSpec` determines `split()[0]` |
| Text.Find | merge_bam.py:94 | the first position where a separator occurs, and none exactly when it does not occur |
| Text.JoinSplit | move_file.py:43 | rejoining the pieces of `split(sep)` with `sep` restores the string |
| Text.SplitPieces | move_file.py:43 | no piece of `split(sep)` holds the separator |
| Text.ReplaceFront | move_file.py:46 | `replace` of a non-empty pattern standing at the front puts the replacement there and goes on with the rest |
| Records.FormatOf | plot_read_length.py:105-110 | fastq/fq names (optionally `.gz`) select FASTQ, fasta/fa names FASTA, anything else raises |
| Records.FastaLinesRead | allot_base.py:143 | the `>id\nseq\n` lines written for records form a line stream whose lines classify as header, then body, record by record |
| Records.FastqLinesRead | allot_base.py:65-72 | the four lines written per FASTQ entry form a line stream and classify as the readers see them |
| AllotBase.ReadFastaCrash | allot_base.py:38-45 | reading raises exactly when some `>` line has no id |
| AllotBase.ReadFastaCount | allot_base.py:38-50 | without a raise, one record per `>` line |
| AllotBase.ReadFastaDropsHeaderless | allot_base.py:39-41 | lines before the first header are discarded: reading is unchanged without them |
| AllotBase.ReadFastaBlock | allot_base.py:36-50 | a header and the lines after it give one record: the header's first token and the lines concatenated without separator |
| AllotBase.ReadFastaSplit | allot_base.py:38-44 | reading splits at every header: the records of the part before it, then those of the part from it |
| AllotBase.ReadFastaSkipsBlank | allot_base.py:36-37 | a blank line anywhere changes nothing |
| AllotBase.ReadFastaRoundTrip | allot_base.py:20-51 | records written as FASTA, empty sequences included, read back unchanged |
| AllotBase.ReadFastqRoundTrip | allot_base.py:54-85 | four-line entries read back as their ids and sequences, even when a data line starts with `@` |
| AllotBase.ShortScan | allot_base.py:72-81 | inside a group of one to three lines every line, `@` or not, is appended as data |
| AllotBase.ReadFastqDropsShortTail | allot_base.py:83-84 | a trailing group of one to three lines is dropped without error |
| AllotBase.FastqStepYields | allot_base.py:72-81 | one line yields a record only when it is a header arriving at a group of exactly four lines, and the record is that group's first two lines |
| AllotBase.OverlongDropped | allot_base.py:72-75 | a header arriving at a group of five lines or more drops the group and starts a new one from the header's id |
| AllotBase.ReadFastqDropsOverlong | allot_base.py:72-84 | an entry with one data line too many (the extra line not an `@` line) yields nothing, and the entries after it are read as usual |
| AllotBase.ReadFastqAnonymousHeader | allot_base.py:72-74 | a leading header that is only `@` raises before anything is yielded |
| AllotBase.PartitionIsPartition | allot_base.py:134-146 | the shards hold every record once, in order, and obey the rotation rule |
| AllotBase.PartitionUnique | allot_base.py:134-146 | any list of shards obeying the rotation rule over the records is the one the loop builds |
| AllotBase.PartitionExample | allot_base.py:135-146 | lengths 3, 4, 3 with base 5 give shards [r1, r2] and [r3] |
| AllotBase.PartitionEdgeCases | allot_base.py:122-146 | no records give one empty shard for every base; a base of 0 or below leaves the first shard empty and puts every record in a shard of its own |
| AllotBase.PartitionSingle | allot_base.py:135-146 | a base above the total of the records gives a single shard with all of them |
| AllotBase.PartitionAtTotal | allot_base.py:135-146 | a base equal to the total is not enough when the last record is empty |
| AllotBase.ShardNames | allot_base.py:124-141 | the reported names are `name.1.fa` up to `name.k.fa`, consecutive |
| AllotBase.AllotSpec | allot_base.py:119-150 | an unknown suffix raises after `name.1.fa` is opened; otherwise the records read are partitioned under the rule and every shard is reported, except the open one when the reader raised |
| AllotBase.ShardsReadBack | allot_base.py:143 | each shard file, read with the same reader, gives back its records |
| PlotReadLength.ScanFastaEmpty | plot_read_length.py:41-45 | the reader stays empty exactly while it has seen only blank lines |
| PlotReadLength.ReadFastaBlank | plot_read_length.py:56-58 | input of blank lines only yields nothing |
| PlotReadLength.ReadFastaBlock | plot_read_length.py:43-58 | the first non-blank line is the header even without `>`; the rest, `#` lines included, form the sequence |
| PlotReadLength.ReadFastaSplit | plot_read_length.py:46-52 | after the first line, each `>` line with an id ends a record and starts the next |
| PlotReadLength.ReadFastaAnonymousLoses | plot_read_length.py:46-50 | a `>` line without an id raises before the record in progress is yielded |
| PlotReadLength.ScanFastaAlike | plot_read_length.py:36-54 | the reader depends on each line only through its kind, its id and its text |
| PlotReadLength.ReadFastaRoundTrip | plot_read_length.py:24-59 | records written as FASTA read back unchanged |
| PlotReadLength.ReadFastqBlock | plot_read_length.py:81-96 | at the end a group is yielded only if exactly three lines follow its header |
| PlotReadLength.ReadFastqBlockThen | plot_read_length.py:84-90 | a later header with an id yields the group in progress, whatever its size, with its first data line as sequence |
| PlotReadLength.ReadFastqRoundTrip | plot_read_length.py:62-98 | four-line entries read back when no data line starts with `@` |
| PlotReadLength.ReadFastqQualityHeader | plot_read_length.py:84-90 | a quality line starting with `@` is taken for a header, adding a spurious record with an empty sequence |
| PlotReadLength.StatLengthFasta | plot_read_length.py:101-115 | for written FASTA records under a FASTA name, their sequence lengths |
| PlotReadLength.StatLengthFastq | plot_read_length.py:101-115 | for written FASTQ entries under a FASTQ name, their sequence lengths |
| PlotReadLength.SortDesc | plot_read_length.py:124 | `sorted(reverse=True)` is a permutation |
| PlotReadLength.SortDescending | plot_read_length.py:124 | and is in descending order |
| PlotReadLength.N50 | plot_read_length.py:118-130 | 0 for no lengths; otherwise an input length at which the lengths at least as large make up half the total, and (for a positive total) the larger ones less than half |
| PlotReadLength.HalfPointUnique | plot_read_length.py:118-130 | that half point is unique, so the result does not depend on how it is found |
| AddAssemblyEdge.Circularise | add_assembly_edge.py:102 | the printed sequence is the sequence followed by its first `min(len, 5500)` bases, and the header is the id with the topology tag |
| AddAssemblyEdge.RestoreCircularise | add_assembly_edge.py:102 | dropping the tag and the repeated bases gives the record back |
| AddAssemblyEdge.CirculariseRestore | add_assembly_edge.py:102 | everything the inverse accepts is a printed record |
| AddAssemblyEdge.AddAssemblyEdge | add_assembly_edge.py:92-104 | an unknown suffix raises with nothing printed; otherwise record `i` read is printed as lines `2i` and `2i+1`: `>id` with the topology tag, then `seq + seq[:5500]`; a raise exactly when the reader raises |
| AddAssemblyEdge.PrintedReadBack | add_assembly_edge.py:101-102 | the printed output, read with the same FASTA reader, gives each record under its id with the edge added |
| AddAssemblyEdge.AddAssemblyEdgeFasta | add_assembly_edge.py:18-104 | for a FASTA genome of written records the run does not raise and its output reads back as the records with the edge added |
| CutSeq.ReadFastaSkips | cut_seq.py:35-36 | a blank or `#` line anywhere changes nothing |
| CutSeq.ReadFastaHeaderless | cut_seq.py:37-45 | text before the first header is yielded as a single piece |
| CutSeq.ReadFastaRoundTrip | cut_seq.py:19-46 | written records come back as `[raw header line, sequence]` |
| CutSeq.ReadFastqCount | cut_seq.py:58-73 | the number of pairs is the number of kept lines divided by four |
| CutSeq.ReadFastqGroup | cut_seq.py:65-72 | any four kept lines yield their first two, with no `@` check |
| CutSeq.ReadFastqRoundTrip | cut_seq.py:49-74 | written entries come back as `[raw header line, sequence]` |
| CutSeq.ReplaceDeletes | cut_seq.py:87 | `replace(c, '')` deletes every `c` |
| CutSeq.Normalise | cut_seq.py:87 | the normalised id is the first word of the id with every `>` and `@` deleted, and the normalisation raises when nothing else is left |
| CutSeq.NormaliseBare | cut_seq.py:87 | a normalised id holds no `>` or `@` |
| CutSeq.NormaliseHeader | cut_seq.py:87 | a header line `>id description` or `@id description` is filed under `id` |
| CutSeq.LookupLast | cut_seq.py:86-88 | the lookup finds the last entry with the id, and nothing only when there is none |
| CutSeq.IndexLookup | cut_seq.py:86-88 | the dictionary holds, for every id, the sequence of its last entry |
| CutSeq.Bound | cut_seq.py:95 | Python slice bounds: negative ones count from the end; a bound past the end clamps to the length and one before the start to 0 |
| CutSeq.Slice | cut_seq.py:95 | `s[i:j]` is the plain slice between the clamped bounds when they do not cross, and empty when they do |
| CutSeq.CutRecord | cut_seq.py:91-96 | `end <= 1` means the whole length; the piece is `seq[start-1:end]`, running to the end of the sequence when `end` is past it and empty when `start` is past it; the header is `name_start_end` |
| CutSeq.CutWhole | cut_seq.py:91-93 | from position one with `end <= 1` the whole sequence is printed |
| CutSeq.CutFromEnd | cut_seq.py:95 | a start of zero or below counts from the end |
| CutSeq.Items | cut_seq.py:81-84 | fastq/fq names go to `read_fastq`, others to `read_fasta`, which raises unless the name ends in a FASTA suffix; every name the other scripts read as FASTA reaches `read_fasta` |
| CutSeq.Entries | cut_seq.py:86-87 | the entries of all lists, or a raise when any list does not unpack or normalise |
| CutSeq.ReadFp | cut_seq.py:77-98 | raises when reading or unpacking raises; otherwise a missing id only logs, and a found one prints the cut of its last record |
| CutSeq.ReadFpFasta | cut_seq.py:77-98 | for a FASTA file of written records, the cut of the last record with the id, or nothing |
| CutSeq.ReadFpHeaderless | cut_seq.py:37-45 | text before the first header makes `read_fp` raise |
| CutSeq.ReadFpFastq | cut_seq.py:77-98 | for a FASTQ file of written entries, the cut of the last entry with the id, or nothing |
| FilterGfa.ReadTsv | filter_gfa.py:18-28 | every row has a first column and no cell holds a tab (lines are split at every tab) |
| FilterGfa.ReadTsvLines | filter_gfa.py:22-28 | the rows, rejoined with tabs, are the stripped non-blank non-`#` lines in order |
| FilterGfa.RecoverStep | filter_gfa.py:55-66 | a row fails exactly when it lacks a column its type is read at; the set only grows |
| FilterGfa.RecoverRaises | filter_gfa.py:55-66 | the pass raises exactly when some row lacks a column its type is read at |
| FilterGfa.RecoverSources | filter_gfa.py:52-68 | every member names a long segment or is an endpoint of a link |
| FilterGfa.RecoverLong | filter_gfa.py:58-61 | every long segment's name is in the result |
| FilterGfa.RecoverLink | filter_gfa.py:62-66 | a link adds both endpoints when one is already in the set built before it, and nothing otherwise |
| FilterGfa.RecoverOrderMatters | filter_gfa.py:52-68 | a link before the long segment it names adds nothing; after it, it adds its other endpoint |
| FilterGfa.FilterChosen | filter_gfa.py:75-86 | the printed lines are exactly the kept rows, in input order: `S` rows named in the set, `L` rows with an endpoint in it, all other rows |
| FilterGfa.FilterGfaRun | filter_gfa.py:71-87 | the run raises exactly when some row lacks a column its type is read at |
| FilterGfa.FilterGfaLines | filter_gfa.py:71-87 | every printed line is a stripped input line, in input order |
| MergeBam.GetSampleSpec | merge_bam.py:90-99 | with `--` in the last component, the sample is the text after the first `--` up to the first following `--` or `.bam`; without, the text before the first dot |
| MergeBam.FirstCutUnique | merge_bam.py:94-97 | the text up to the first stop is unique, so `GetSampleSpec` determines the sample |
| MergeBam.SampleOfName | merge_bam.py:92 | only the last path component counts |
| MergeBam.SamplePlain | merge_bam.py:96-97 | without `--` the sample is the text before the first dot |
| MergeBam.SampleDashed | merge_bam.py:94-95 | `p--m.bam...` gives sample `m` when the first `--` follows `p` and `m` holds neither `--` nor `.bam` |
| MergeBam.SortFileSpec | merge_bam.py:102-113 | one non-empty group per sample; the samples are `FirstSeen` of the files' samples, so groups come in order of first appearance; each group holds exactly the files of its sample, in input order |
| MergeBam.FirstSeenOrder | merge_bam.py:107-109 | dict insertion order: `FirstSeen` keeps every sample once, ordered by the index of its first file |
| MergeBam.SortFileExample | merge_bam.py:102-113 | files `b.x` then `a.x` give the group of `b` first, whatever the letters' order |
| MergeBam.ExactlyOneGroup | merge_bam.py:102-113 | every file lies in exactly one group, that of its own sample |
| MergeBam.RunMergeBamSpec | merge_bam.py:133-150 | each target is `sample.bam`; one file is copied, more are merged in input order; the raise is unreachable |
| MoveFile.Components | move_file.py:43 | the split of a path has at least one component |
| MoveFile.ComponentsJoin | move_file.py:43-44 | the components rejoin to the stripped path and hold no `/` |
| MoveFile.OldPrefix | move_file.py:45 | the old prefix is the name up to its first dot |
| MoveFile.PathJoin | move_file.py:54 | `os.path.join` is the name alone when it is absolute; otherwise the directory, one `/` added unless it is empty or already ends in `/`, then the name |
| MoveFile.MoveFilesSpec | move_file.py:40-58 | files are moved in order, each to its own destination in an existing directory, up to the first whose directory is missing |
| MoveFile.MoveFilesAppend | move_file.py:42-56 | each file's destination is computed independently of the files before it |
| MoveFile.DirectoryInPlace | move_file.py:48-49 | with no `--path` a file `d/n` stays in `d` |
| MoveFile.DirectoryBare | move_file.py:48-49 | with no `--path` a file without `/` stays in the working directory |
| MoveFile.DestinationInPlace | move_file.py:48-54 | with no `--path`, `d/n` moves to `d/` and the new name |
| MoveFile.DestinationName | move_file.py:53-54 | the destination's last component is the new name |
| MoveFile.RenameFront | move_file.py:45-46 | `p.r` with `p` nowhere in `r` becomes `q.r` |
| MoveFile.RenameBack | move_file.py:45-46 | renaming to `q` and back to `p` restores such a name |
| MoveFile.RenameWhole | move_file.py:45-46 | a name without a dot is replaced by the prefix outright |
| MoveFile.RenameHidden | move_file.py:45-46 | a name starting with a dot has an empty old prefix, and `replace("", q)` puts `q` around every character |
| FilterBam.Passing | filter_bam.py:75-76 | the kept reads meet both thresholds and come from the input, and every read that passes is kept |
| FilterBam.PassingAppend | filter_bam.py:74-78 | the filter keeps input order: the passing reads of `a + b` are those of `a` followed by those of `b` |
| FilterBam.KeepSelected | filter_bam.py:74-81 | the fold writes a prefix of the passing reads: all of them, or one that reaches the budget when no shorter one does |
| FilterBam.SelectedUnique | filter_bam.py:74-81 | that description determines the output |
| FilterBam.KeepAll | filter_bam.py:80 | with `tbase` 0 every passing read is written |
| FilterBam.Scan | filter_bam.py:74-81 | the loop writes what the fold describes, and `n` counts its bases |
| FilterBam.Select | filter_bam.py:74-81 | the loop's output is the selection, every read in it passes, and `n` is its base count |
| FilterBam.SelectedPasses | filter_bam.py:75-78 | every written read passes both thresholds and comes from the input |
| FilterBam.FilterBam | filter_bam.py:59-84 | a name ending in neither `.bam` nor `.sam` raises before anything is written; otherwise the selection is written |

## Left out

- File I/O is not modelled. Opening files, gzip decompression and UTF-8 decoding are replaced by an already-decoded list of lines. Closing files is not modelled either.
- Lines are assumed to come from file iteration: a line holds a line break only as its last character (`IsLineStream`). The readers rebuild records with `split('\n')`, which depends on this.
- `gmk2pb` and `is_number` are not modelled; they parse and scale floats. `allot_base`, `filter_gfa` and `filter_bam` take the threshold as an already-resolved integer.
- Plotting (matplotlib in `plot_read_length`) is not modelled.
- pysam is not modelled. `filter_bam` reads are an abstract `(length, quality)` datatype; a missing `rq` tag or a missing sequence is not represented. Opening and writing BAM/SAM files, and `merge_bam`'s own body, are not modelled.
- File-system side effects are not modelled: `check_path`, `os.path.abspath`, `shutil.copy`/`shutil.move`, symlinks, and the force/overwrite branches of `copy`. In `move_files`, the existence check becomes a set `existing` of directories that exist, and `abspath` is left out. In `allot_base`, a shard file is always taken to exist when it is reported.
- Printing, logging, argparse and `main` are not modelled. What a function prints is returned as its result.
- `n50` compares `accu >= sum * 0.5` in floating point. The model compares `2 * accu >= sum` exactly, which agrees except where floating point loses integer precision.
- `cut_seq.py` applies `int()` to `start` and `end`, and argparse already gives integers, so the model takes them as `int`. `start` is printed in decimal.
- The `add_assembly_edge.py` readers are the `plot_read_length.py` readers without the `fp.close()` calls (plot_read_length.py:59, :98), which the model leaves out anyway, so they are not modelled a second time.
- `cut_seq.py`'s `read_fastq` suffix check is not modelled, because `read_fp` only calls that reader for the names it accepts.

=== FILE: add_assembly_edge.dfy ===
/**
 add_assembly_edge.py: every record of a circular assembly is printed as
 FASTA with a topology tag on its header and its first 5500 bases appended
 again, so that reads spanning the origin map onto one contig.
 */
module AddAssemblyEdge {
  import opened Text
  import opened Records
  import Prl = PlotReadLength

  /** How many leading bases are repeated after the sequence: `seq[:5500]`. */
  const Overlap: nat := 5500

  const Tag: string := " [topology=circular] [completeness=complete]"

  function Min(a: nat, b: nat): nat {
    if a <= b then a else b
  }

  /** The printed record: header `id [topology=circular] [completeness=complete]`, sequence `seq + seq[:5500]`. */
  function Circularise(r: Record): (c: Record)
    ensures |c.sequence| == |r.sequence| + Min(|r.sequence|, Overlap)
    ensures c.sequence[..|r.sequence|] == r.sequence
    ensures c.sequence[|r.sequence|..] == r.sequence[..Min(|r.sequence|, Overlap)]
    ensures |c.id| == |r.id| + |Tag| && EndsWith(c.id, Tag) && c.id[..|r.id|] == r.id
  {
    var c := Record(r.id + Tag, r.sequence + r.sequence[..Min(|r.sequence|, Overlap)]);
    assert c.id[|c.id| - |Tag|..] == Tag;
    c
  }

  /** The length a circularised sequence of length `n` came from, if any. */
  function OriginalLength(n: nat): Option<nat> {
    if n <= 2 * Overlap then (if n % 2 == 0 then Some(n / 2) else None)
    else Some(n - Overlap)
  }

  /** Undoes `Circularise`: drops the tag and the repeated bases, provided they are there. */
  function Restore(c: Record): (r: Option<Record>)
    ensures r.Some? ==> |r.value.sequence| <= |c.sequence| && |r.value.id| + |Tag| == |c.id|
  {
    match OriginalLength(|c.sequence|)
    case None => None
    case Some(n) =>
      var k := Min(n, Overlap);
      if EndsWith(c.id, Tag) && c.sequence[n..] == c.sequence[..k] then
        Some(Record(c.id[..|c.id| - |Tag|], c.sequence[..n]))
      else None
  }

  lemma {:induction false} RestoreCircularise(r: Record)
    ensures Restore(Circularise(r)) == Some(r)
  {
    var c := Circularise(r);
    var n := |r.sequence|;
    assert OriginalLength(|c.sequence|) == Some(n);
    assert c.sequence[..n] == r.sequence;
    assert c.id[..|c.id| - |Tag|] == r.id;
  }

  /** Whatever `Restore` accepts is a circularised record, so the two are inverse on it. */
  lemma {:induction false} CirculariseRestore(c: Record)
    requires Restore(c).Some?
    ensures Circularise(Restore(c).value) == c
  {
    var r := Restore(c).value;
    var n := |r.sequence|;
    assert c.sequence == c.sequence[..n] + c.sequence[n..];
    assert c.id == c.id[..|c.id| - |Tag|] + c.id[|c.id| - |Tag|..];
  }

  function CirculariseAll(rs: seq<Record>): (cs: seq<Record>)
    ensures |cs| == |rs|
    ensures forall i :: 0 <= i < |rs| ==> cs[i] == Circularise(rs[i])
  {
    if |rs| == 0 then [] else [Circularise(rs[0])] + CirculariseAll(rs[1..])
  }

  /** What `add_assembly_edge` prints (one FASTA record per record read), and whether it raised. */
  datatype EdgeRun = EdgeRun(printed: seq<string>, failed: bool)

  /**
   `add_assembly_edge`: an unknown suffix raises before anything is printed;
   otherwise each record is printed as it is read, up to the reader raising.
   The readers are plot_read_length.py's; the copy differs only in never closing the file.
   */
  function AddAssemblyEdge(genome: string, raw: seq<string>): (run: EdgeRun)
    requires IsLineStream(raw)
    ensures FormatOf(genome).None? ==> run.printed == [] && run.failed
    ensures FormatOf(genome).Some? ==> |run.printed| == 2 * |Prl.Source(genome, raw).records|
    ensures FormatOf(genome).Some? ==> run.failed == Prl.Source(genome, raw).crashed
    ensures FormatOf(genome).Some? ==> var rs := Prl.Source(genome, raw).records;
      forall i :: 0 <= i < |rs| ==>
        && run.printed[2 * i] == ">" + rs[i].id + Tag + "\n"
        && run.printed[2 * i + 1] == rs[i].sequence + rs[i].sequence[..Min(|rs[i].sequence|, Overlap)] + "\n"
  {
    if FormatOf(genome).None? then EdgeRun([], true)
    else
      var p := Prl.Source(genome, raw);
      PrintedAt(p.records);
      EdgeRun(FastaLines(CirculariseAll(p.records)), p.crashed)
  }

  /** Record `i` is printed as lines `2i` and `2i + 1`: its tagged header, then its sequence with the repeated bases. */
  lemma {:induction false} PrintedAt(rs: seq<Record>)
    ensures |FastaLines(CirculariseAll(rs))| == 2 * |rs|
    ensures forall i :: 0 <= i < |rs| ==>
      && FastaLines(CirculariseAll(rs))[2 * i] == ">" + rs[i].id + Tag + "\n"
      && FastaLines(CirculariseAll(rs))[2 * i + 1] == rs[i].sequence + rs[i].sequence[..Min(|rs[i].sequence|, Overlap)] + "\n"
  {
    var cs := CirculariseAll(rs);
    FastaLinesAt(cs);
    forall i | 0 <= i < |rs|
      ensures FastaLines(cs)[2 * i] == ">" + rs[i].id + Tag + "\n"
    {
      assert ">" + cs[i].id + "\n" == ">" + (rs[i].id + Tag) + "\n";
    }
  }

  /** A record as the FASTA readers see the printed one: the tag is not part of the first token. */
  function ReadBack(r: Record): Record {
    Record(r.id, Circularise(r).sequence)
  }

  function ReadBackAll(rs: seq<Record>): (bs: seq<Record>)
    ensures |bs| == |rs|
    ensures forall i :: 0 <= i < |rs| ==> bs[i] == ReadBack(rs[i])
  {
    if |rs| == 0 then [] else [ReadBack(rs[0])] + ReadBackAll(rs[1..])
  }

  /** Records with well-formed ids and sequences without any white space. */
  predicate Plain(rs: seq<Record>) {
    WellFormedFasta(rs) && forall i :: 0 <= i < |rs| ==> NoSpace(rs[i].sequence)
  }

  lemma {:induction false} PlainReadBack(rs: seq<Record>)
    requires Plain(rs)
    ensures WellFormedFasta(ReadBackAll(rs))
  {
    forall i | 0 <= i < |rs|
      ensures BodyText(ReadBackAll(rs)[i].sequence) && Unmarked(ReadBackAll(rs)[i].sequence, '>')
    {
      var s := rs[i].sequence;
      var c := Circularise(rs[i]).sequence;
      assert forall j :: 0 <= j < |c| ==> !IsSpace(c[j]) by {
        forall j | 0 <= j < |c| ensures !IsSpace(c[j]) {
          if j < |s| { assert c[j] == s[j]; } else { assert c[j] == s[j - |s|]; }
        }
      }
      assert '\n' in Whitespace;
      if c != "" { assert c[0] == s[0]; }
    }
  }

  /** The tagged header line is read as a header whose id is the record's id. */
  lemma {:induction false} TaggedHeader(id: string)
    requires WellFormedId(id, '>')
    ensures Classify(">" + id + Tag + "\n", '>') == Text(">" + id + Tag, true)
    ensures IdOf(">" + id + Tag, '>') == Some(id)
    ensures IsLine(">" + id + Tag + "\n")
  {
    TaggedStrip(id);
    TaggedId(id);
    TaggedLine(id);
  }

  lemma {:induction false} TaggedStrip(id: string)
    requires WellFormedId(id, '>')
    ensures Classify(">" + id + Tag + "\n", '>') == Text(">" + id + Tag, true)
  {
    var t := ">" + id + Tag;
    assert t[|t| - 1] == ']' && t[0] == '>';
    StripLine(t);
  }

  lemma {:induction false} TaggedId(id: string)
    requires WellFormedId(id, '>')
    ensures IdOf(">" + id + Tag, '>') == Some(id)
  {
    var t := id + Tag;
    assert ">" + id + Tag == ['>'] + t;
    assert t[|t| - 1] == ']' && t[0] == id[0];
    StripCharMarker('>', t);
    assert Tag[0] == ' ';
    FirstTokenPrefix(id, Tag);
  }

  lemma {:induction false} TaggedLine(id: string)
    requires WellFormedId(id, '>')
    ensures IsLine(">" + id + Tag + "\n")
  {
    var t := ">" + id + Tag;
    assert forall j :: 0 <= j < |Tag| ==> Tag[j] != '\n';
    forall j | 0 <= j < |t| ensures t[j] != '\n' {
      if j == 0 {
      } else if j <= |id| {
        assert t[j] == id[j - 1];
        assert !IsSpace(id[j - 1]);
      } else {
        assert t[j] == Tag[j - 1 - |id|];
      }
    }
    assert (t + "\n")[..|t|] == t;
  }

  lemma {:induction false} PairAlike(a: Line, b: Line, s: Line)
    requires Prl.Alike(a, b)
    ensures Prl.AllAlike([a, s], [b, s])
  {
  }

  lemma {:induction false} PrintedLines(r: Record)
    ensures RecordLines(Circularise(r)) == [">" + r.id + Tag + "\n", ReadBack(r).sequence + "\n"]
  {
    var c := Circularise(r);
    assert c.id == r.id + Tag;
    assert ">" + c.id + "\n" == ">" + r.id + Tag + "\n";
  }

  /** The printed lines of one record are read like the plainly written read-back record. */
  lemma {:induction false} RecordAlike(r: Record)
    requires Plain([r])
    ensures IsLineStream(RecordLines(Circularise(r)))
    ensures Prl.AllAlike(Lines(RecordLines(Circularise(r)), '>'), Lines(RecordLines(ReadBack(r)), '>'))
  {
    assert [r][0] == r;
    PlainReadBack([r]);
    assert ReadBackAll([r])[0] == ReadBack(r);
    var b := ReadBack(r);
    var h := ">" + r.id + Tag + "\n";
    TaggedHeader(r.id);
    PrintedLines(r);
    BodyLineRead(b.sequence, '>');
    LinesPair(h, b.sequence + "\n", '>');
    RecordRead(b);
    Prl.RecordHeaderId(r);
    PairAlike(Text(">" + r.id + Tag, true), Text(">" + r.id, true), Kind(b.sequence, '>'));
  }

  lemma {:induction false} PrintedAlike(rs: seq<Record>)
    requires Plain(rs)
    ensures IsLineStream(FastaLines(CirculariseAll(rs)))
    ensures Prl.AllAlike(Lines(FastaLines(CirculariseAll(rs)), '>'), Lines(FastaLines(ReadBackAll(rs)), '>'))
    decreases |rs|
  {
    if |rs| > 0 {
      var r, tail := rs[0], rs[1..];
      WellFormedFastaSplit(rs);
      assert Plain([r]) && Plain(tail);
      PrintedAlike(tail);
      RecordAlike(r);
      assert CirculariseAll(rs) == [Circularise(r)] + CirculariseAll(tail);
      assert ReadBackAll(rs) == [ReadBack(r)] + ReadBackAll(tail);
      LinesAppend(RecordLines(Circularise(r)), FastaLines(CirculariseAll(tail)), '>');
      LinesAppend(RecordLines(ReadBack(r)), FastaLines(ReadBackAll(tail)), '>');
      LineStreamAppend(RecordLines(Circularise(r)), FastaLines(CirculariseAll(tail)));
      Prl.AllAlikeAppend(
        Lines(RecordLines(Circularise(r)), '>'), Lines(RecordLines(ReadBack(r)), '>'),
        Lines(FastaLines(CirculariseAll(tail)), '>'), Lines(FastaLines(ReadBackAll(tail)), '>'));
    }
  }

  /**
   Reading the printed output back with the same FASTA reader gives one
   record per input record, in order, under its original id and with the
   first bases repeated at the end.
   */
  lemma {:induction false} PrintedReadBack(rs: seq<Record>)
    requires Plain(rs)
    ensures IsLineStream(FastaLines(CirculariseAll(rs)))
    ensures Prl.ReadFasta(FastaLines(CirculariseAll(rs))) == Parse(ReadBackAll(rs), false)
  {
    PrintedAlike(rs);
    PlainReadBack(rs);
    Prl.ReadFastaRoundTrip(ReadBackAll(rs));
    Prl.ScanFastaAlike(Prl.Empty, Lines(FastaLines(CirculariseAll(rs)), '>'), Lines(FastaLines(ReadBackAll(rs)), '>'));
  }

  /** For a FASTA genome file: what is printed reads back as the records, each with its edge added. */
  lemma {:induction false} AddAssemblyEdgeFasta(genome: string, rs: seq<Record>)
    requires IsFastaName(genome) && !IsFastqName(genome) && Plain(rs)
    ensures IsLineStream(FastaLines(rs))
    ensures var run := AddAssemblyEdge(genome, FastaLines(rs));
      && !run.failed
      && IsLineStream(run.printed)
      && Prl.ReadFasta(run.printed) == Parse(ReadBackAll(rs), false)
  {
    Prl.ReadFastaRoundTrip(rs);
    PrintedReadBack(rs);
  }
}

=== FILE: allot_base.dfy ===
/**
 allot_base.py: its own FASTA and FASTQ readers, and the partitioner that
 spreads the records over shards `name.1.fa`, `name.2.fa`, ... of roughly
 `base` bases each.
 */
module AllotBase {
  import opened Text
  import opened Records

  // ----- read_fasta -----

  /**
   The text accumulated so far: nothing but header-less text (never yielded),
   a record in progress, or `Raised` once `split()[0]` failed on a header.
   */
  datatype FastaState = Headerless | Open(id: string, body: string) | Raised

  /** `seq.split('\n')` has two parts exactly when a header was seen. */
  function FastaFlush(st: FastaState): seq<Record> {
    if st.Open? then [Record(st.id, st.body)] else []
  }

  /** One stripped line. On a header the record in progress is yielded before the new id is taken. */
  function FastaStep(st: FastaState, l: Line): (seq<Record>, FastaState) {
    if st.Raised? || l.Blank? then ([], st)
    else if l.header then
      match IdOf(l.text, '>')
      case None => (FastaFlush(st), Raised)
      case Some(id) => (FastaFlush(st), Open(id, ""))
    else if st.Open? then ([], Open(st.id, st.body + l.text))
    else ([], st)
  }

  /** Runs the reader over the lines from state `st`: the records yielded, and the state it ends in. */
  function ScanFasta(st: FastaState, ls: seq<Line>): (seq<Record>, FastaState)
    decreases |ls|
  {
    if |ls| == 0 then ([], st)
    else
      var first := FastaStep(st, ls[0]);
      var rest := ScanFasta(first.1, ls[1..]);
      (first.0 + rest.0, rest.1)
  }

  function FastaEnd(run: (seq<Record>, FastaState)): Parse {
    if run.1.Raised? then Parse(run.0, true) else Parse(run.0 + FastaFlush(run.1), false)
  }

  function ReadFasta(raw: seq<string>): Parse
    requires IsLineStream(raw)
  {
    FastaEnd(ScanFasta(Headerless, Lines(raw, '>')))
  }

  lemma {:induction false} ScanFastaCons(st: FastaState, l: Line, rest: seq<Line>)
    ensures ScanFasta(st, [l] + rest).0 == FastaStep(st, l).0 + ScanFasta(FastaStep(st, l).1, rest).0
    ensures ScanFasta(st, [l] + rest).1 == ScanFasta(FastaStep(st, l).1, rest).1
  {
    assert ([l] + rest)[1..] == rest;
  }

  /** Reading `a + b` is reading `a`, then reading `b` from where `a` left the reader. */
  lemma {:induction false} ScanFastaAppend(st: FastaState, a: seq<Line>, b: seq<Line>)
    ensures ScanFasta(st, a + b).0 == ScanFasta(st, a).0 + ScanFasta(ScanFasta(st, a).1, b).0
    ensures ScanFasta(st, a + b).1 == ScanFasta(ScanFasta(st, a).1, b).1
    decreases |a|
  {
    if |a| > 0 {
      assert (a + b)[0] == a[0];
      assert (a + b)[1..] == a[1..] + b;
      ScanFastaAppend(FastaStep(st, a[0]).1, a[1..], b);
    } else {
      assert a + b == b;
    }
  }

  /** Once raised, the reader yields nothing more. */
  lemma {:induction false} ScanFastaRaised(ls: seq<Line>)
    ensures ScanFasta(Raised, ls).0 == [] && ScanFasta(Raised, ls).1 == Raised
    decreases |ls|
  {
    if |ls| > 0 {
      ScanFastaRaised(ls[1..]);
    }
  }

  /** The reader raises exactly when some header has no id. */
  lemma {:induction false} ScanFastaCrash(st: FastaState, ls: seq<Line>)
    ensures ScanFasta(st, ls).1.Raised? <==> st.Raised? || exists i :: 0 <= i < |ls| && Anonymous(ls[i], '>')
    decreases |ls|
  {
    if |ls| > 0 {
      var next := FastaStep(st, ls[0]).1;
      ScanFastaCrash(next, ls[1..]);
      if exists i :: 0 <= i < |ls[1..]| && Anonymous(ls[1..][i], '>') {
        var i :| 0 <= i < |ls[1..]| && Anonymous(ls[1..][i], '>');
        assert ls[1..][i] == ls[i + 1];
      }
      if exists i :: 0 <= i < |ls| && Anonymous(ls[i], '>') {
        var i :| 0 <= i < |ls| && Anonymous(ls[i], '>');
        if i > 0 { assert ls[1..][i - 1] == ls[i]; }
      }
    }
  }

  /** Without a crash, one record per header: nothing for header-less text, and no header lost. */
  lemma {:induction false} ScanFastaCount(st: FastaState, ls: seq<Line>)
    requires !ScanFasta(st, ls).1.Raised?
    ensures |ScanFasta(st, ls).0| + |FastaFlush(ScanFasta(st, ls).1)| == |FastaFlush(st)| + CountHeaders(ls)
    decreases |ls|
  {
    if |ls| > 0 {
      var next := FastaStep(st, ls[0]).1;
      if next.Raised? {
        ScanFastaRaised(ls[1..]);
      } else {
        ScanFastaCount(next, ls[1..]);
      }
    }
  }

  lemma {:induction false} HeaderlessScan(ls: seq<Line>)
    requires CountHeaders(ls) == 0
    ensures ScanFasta(Headerless, ls).0 == [] && ScanFasta(Headerless, ls).1 == Headerless
    decreases |ls|
  {
    if |ls| > 0 {
      HeaderlessScan(ls[1..]);
    }
  }

  lemma {:induction false} BodyScan(id: string, acc: string, ls: seq<Line>)
    requires CountHeaders(ls) == 0
    ensures ScanFasta(Open(id, acc), ls).0 == []
    ensures ScanFasta(Open(id, acc), ls).1 == Open(id, acc + Body(ls))
    decreases |ls|
  {
    if |ls| > 0 {
      var t := if ls[0].Text? then ls[0].text else "";
      assert FastaStep(Open(id, acc), ls[0]).1 == Open(id, acc + t) by {
        if ls[0].Blank? { assert acc + t == acc; }
      }
      BodyScan(id, acc + t, ls[1..]);
      assert acc + t + Body(ls[1..]) == acc + (t + Body(ls[1..]));
    } else {
      assert acc + Body(ls) == acc;
    }
  }

  /** From a header on, the reader's output no longer depends on its state, apart from flushing it. */
  lemma {:induction false} FastaHeaderScan(st: FastaState, ls: seq<Line>)
    requires |ls| > 0 && IsHeader(ls[0]) && !st.Raised?
    ensures ScanFasta(st, ls).0 == FastaFlush(st) + ScanFasta(Headerless, ls).0
    ensures ScanFasta(st, ls).1 == ScanFasta(Headerless, ls).1
  {
    assert FastaStep(st, ls[0]).1 == FastaStep(Headerless, ls[0]).1;
  }

  /** Whole-file reading raises exactly when some `>` line carries nothing but markers and white space. */
  lemma {:induction false} ReadFastaCrash(raw: seq<string>)
    requires IsLineStream(raw)
    ensures ReadFasta(raw).crashed <==> exists i :: 0 <= i < |raw| && Anonymous(Classify(raw[i], '>'), '>')
  {
    var ls := Lines(raw, '>');
    ScanFastaCrash(Headerless, ls);
    if exists i :: 0 <= i < |raw| && Anonymous(Classify(raw[i], '>'), '>') {
      var i :| 0 <= i < |raw| && Anonymous(Classify(raw[i], '>'), '>');
      assert ls[i] == Classify(raw[i], '>');
    }
  }

  /** One record per `>` line when reading succeeds. */
  lemma {:induction false} ReadFastaCount(raw: seq<string>)
    requires IsLineStream(raw) && !ReadFasta(raw).crashed
    ensures |ReadFasta(raw).records| == CountHeaders(Lines(raw, '>'))
  {
    ScanFastaCount(Headerless, Lines(raw, '>'));
  }

  /** Lines before the first `>` header are silently discarded. */
  lemma {:induction false} ReadFastaDropsHeaderless(pre: seq<string>, raw: seq<string>)
    requires IsLineStream(pre + raw)
    requires CountHeaders(Lines(pre, '>')) == 0
    ensures IsLineStream(raw)
    ensures ReadFasta(pre + raw) == ReadFasta(raw)
  {
    LineStreamAppend(pre, raw);
    LinesAppend(pre, raw, '>');
    HeaderlessPrefix(Lines(pre, '>'), Lines(raw, '>'));
  }

  lemma {:induction false} HeaderlessPrefix(pre: seq<Line>, ls: seq<Line>)
    requires CountHeaders(pre) == 0
    ensures FastaEnd(ScanFasta(Headerless, pre + ls)) == FastaEnd(ScanFasta(Headerless, ls))
  {
    ScanFastaAppend(Headerless, pre, ls);
    HeaderlessScan(pre);
  }

  /** A header followed by header-less lines is one record: the header's first token, and the text lines concatenated without separator. */
  lemma {:induction false} ReadFastaBlock(h: string, body: seq<string>, id: string)
    requires IsLineStream([h] + body)
    requires IsHeader(Classify(h, '>')) && IdOf(Classify(h, '>').text, '>') == Some(id)
    requires CountHeaders(Lines(body, '>')) == 0
    ensures ReadFasta([h] + body) == Parse([Record(id, Body(Lines(body, '>')))], false)
  {
    var ls := Lines(body, '>');
    LinesAppend([h], body, '>');
    assert Lines([h] + body, '>') == [Classify(h, '>')] + ls;
    ScanFastaCons(Headerless, Classify(h, '>'), ls);
    BodyScan(id, "", ls);
    assert "" + Body(ls) == Body(ls);
  }

  lemma {:induction false} SplitScan(la: seq<Line>, lb: seq<Line>)
    requires |lb| > 0 && IsHeader(lb[0])
    ensures FastaEnd(ScanFasta(Headerless, la + lb))
         == Then(FastaEnd(ScanFasta(Headerless, la)), FastaEnd(ScanFasta(Headerless, lb)))
  {
    ScanFastaAppend(Headerless, la, lb);
    var ra, rb := ScanFasta(Headerless, la), ScanFasta(Headerless, lb);
    if ra.1.Raised? {
      ScanFastaRaised(lb);
    } else {
      FastaHeaderScan(ra.1, lb);
      EndThen(ra, rb, ScanFasta(Headerless, la + lb));
    }
  }

  lemma {:induction false} EndThen(ra: (seq<Record>, FastaState), rb: (seq<Record>, FastaState), whole: (seq<Record>, FastaState))
    requires !ra.1.Raised?
    requires whole.0 == ra.0 + (FastaFlush(ra.1) + rb.0) && whole.1 == rb.1
    ensures FastaEnd(whole) == Then(FastaEnd(ra), FastaEnd(rb))
  {
  }

  /** A record ends where the next header starts: reading splits at every header line. */
  lemma {:induction false} ReadFastaSplit(a: seq<string>, b: seq<string>)
    requires IsLineStream(a + b)
    requires |b| > 0 && IsHeader(Classify(b[0], '>'))
    ensures IsLineStream(a) && IsLineStream(b)
    ensures ReadFasta(a + b) == Then(ReadFasta(a), ReadFasta(b))
  {
    LineStreamAppend(a, b);
    LinesAppend(a, b, '>');
    SplitScan(Lines(a, '>'), Lines(b, '>'));
  }

  lemma {:induction false} BlankScan(la: seq<Line>, lb: seq<Line>)
    ensures ScanFasta(Headerless, la + [Blank] + lb).0 == ScanFasta(Headerless, la + lb).0
    ensures ScanFasta(Headerless, la + [Blank] + lb).1 == ScanFasta(Headerless, la + lb).1
  {
    ScanFastaAppend(Headerless, la + [Blank], lb);
    ScanFastaAppend(Headerless, la, [Blank]);
    ScanFastaAppend(Headerless, la, lb);
  }

  /** Blank lines are skipped wherever they occur. */
  lemma {:induction false} ReadFastaSkipsBlank(a: seq<string>, x: string, b: seq<string>)
    requires IsLineStream(a + [x] + b)
    requires Strip(x) == ""
    ensures IsLineStream(a + b)
    ensures ReadFasta(a + [x] + b) == ReadFasta(a + b)
  {
    LineStreamAppend(a + [x], b);
    LineStreamAppend(a, [x]);
    LineStreamAppend(a, b);
    LinesAppend(a + [x], b, '>');
    LinesAppend(a, [x], '>');
    LinesAppend(a, b, '>');
    assert Lines([x], '>') == [Blank];
    BlankScan(Lines(a, '>'), Lines(b, '>'));
  }

  lemma {:induction false} RecordScan(st: FastaState, r: Record)
    requires WellFormedFasta([r]) && !st.Raised?
    ensures ScanFasta(st, RecordView(r)).0 == FastaFlush(st)
    ensures ScanFasta(st, RecordView(r)).1 == Open(r.id, r.sequence)
  {
    assert [r][0] == r;
    RecordHeaderId(r);
    var hd := RecordView(r);
    var s1 := FastaStep(st, hd[0]);
    assert s1.0 == FastaFlush(st) && s1.1 == Open(r.id, "");
    var s2 := FastaStep(s1.1, hd[1]);
    assert s2.0 == [] && s2.1 == Open(r.id, r.sequence) by {
      assert "" + r.sequence == r.sequence;
    }
    assert hd[1..] == [hd[1]];
    assert hd[1..][1..] == [];
    assert ScanFasta(s1.1, hd[1..]).0 == [] && ScanFasta(s1.1, hd[1..]).1 == s2.1;
  }

  lemma {:induction false} ScanFastaView(st: FastaState, rs: seq<Record>)
    requires WellFormedFasta(rs) && !st.Raised?
    ensures ScanFasta(st, FastaView(rs)).1.Open? == (|rs| > 0 || st.Open?)
    ensures FastaEnd(ScanFasta(st, FastaView(rs))) == Parse(FastaFlush(st) + rs, false)
    decreases |rs|
  {
    if |rs| > 0 {
      var r := rs[0];
      WellFormedFastaSplit(rs);
      var next := Open(r.id, r.sequence);
      RecordScan(st, r);
      ScanFastaAppend(st, RecordView(r), FastaView(rs[1..]));
      ScanFastaView(next, rs[1..]);
      assert [r] + rs[1..] == rs;
      EndPrefix(FastaFlush(st), ScanFasta(next, FastaView(rs[1..])), ScanFasta(st, FastaView(rs)));
    } else {
      assert FastaView(rs) == [];
    }
  }

  lemma {:induction false} EndPrefix(pre: seq<Record>, x: (seq<Record>, FastaState), whole: (seq<Record>, FastaState))
    requires !x.1.Raised? && whole.0 == pre + x.0 && whole.1 == x.1
    ensures FastaEnd(whole) == Parse(pre + FastaEnd(x).records, false)
  {
  }

  lemma {:induction false} RecordHeaderId(r: Record)
    requires WellFormedFasta([r])
    ensures IdOf(">" + r.id, '>') == Some(r.id)
  {
    assert [r][0] == r;
    HeaderLineRead(r.id, '>');
    assert ">" + r.id == ['>'] + r.id;
  }

  /** Records written as `>id` and sequence lines, including empty sequences, read back unchanged. */
  lemma {:induction false} ReadFastaRoundTrip(rs: seq<Record>)
    requires WellFormedFasta(rs)
    ensures IsLineStream(FastaLines(rs))
    ensures ReadFasta(FastaLines(rs)) == Parse(rs, false)
  {
    FastaLinesRead(rs);
    ScanFastaView(Headerless, rs);
  }

  // ----- read_fastq -----

  /** The list of lines of the group in progress; `Crashed` once `split()[0]` raised on a header. */
  datatype FastqState = Group(lines: seq<string>) | Crashed

  /** A header opens a new group holding its id. */
  function StartGroup(text: string): FastqState {
    match IdOf(text, '@')
    case None => Crashed
    case Some(id) => Group([id])
  }

  /** Only a group of exactly four lines is yielded, as (first line, second line). */
  function FastqFlush(st: FastqState): seq<Record> {
    if st.Group? && |st.lines| == 4 then [Record(st.lines[0], st.lines[1])] else []
  }

  /**
   One stripped line. An `@` line starts a group only when the group in
   progress is empty, complete (four lines) or overlong; inside a group of one
   to three lines it is data, like any other line.
   */
  function FastqStep(st: FastqState, l: Line): (seq<Record>, FastqState) {
    if st.Crashed? || l.Blank? then ([], st)
    else if l.header && (|st.lines| == 0 || |st.lines| >= 5) then ([], StartGroup(l.text))
    else if l.header && |st.lines| == 4 then (FastqFlush(st), StartGroup(l.text))
    else ([], Group(st.lines + [l.text]))
  }

  /** A line yields a record only when it is a header arriving at a group of exactly four lines, and the record is that group's first two lines. */
  lemma {:induction false} FastqStepYields(st: FastqState, l: Line)
    ensures |FastqStep(st, l).0| > 0 <==> st.Group? && |st.lines| == 4 && l.Text? && l.header
    ensures |FastqStep(st, l).0| > 0 ==> FastqStep(st, l).0 == [Record(st.lines[0], st.lines[1])]
  {
  }

  function ScanFastq(st: FastqState, ls: seq<Line>): (seq<Record>, FastqState)
    decreases |ls|
  {
    if |ls| == 0 then ([], st)
    else
      var first := FastqStep(st, ls[0]);
      var rest := ScanFastq(first.1, ls[1..]);
      (first.0 + rest.0, rest.1)
  }

  function FastqEnd(run: (seq<Record>, FastqState)): Parse {
    if run.1.Crashed? then Parse(run.0, true) else Parse(run.0 + FastqFlush(run.1), false)
  }

  function ReadFastq(raw: seq<string>): Parse {
    FastqEnd(ScanFastq(Group([]), Lines(raw, '@')))
  }

  lemma {:induction false} ScanFastqAppend(st: FastqState, a: seq<Line>, b: seq<Line>)
    ensures ScanFastq(st, a + b).0 == ScanFastq(st, a).0 + ScanFastq(ScanFastq(st, a).1, b).0
    ensures ScanFastq(st, a + b).1 == ScanFastq(ScanFastq(st, a).1, b).1
    decreases |a|
  {
    if |a| > 0 {
      assert (a + b)[0] == a[0];
      assert (a + b)[1..] == a[1..] + b;
      ScanFastqAppend(FastqStep(st, a[0]).1, a[1..], b);
    } else {
      assert a + b == b;
    }
  }

  lemma {:induction false} EntryHeaderId(e: FastqEntry)
    requires WellFormedFastq([e])
    ensures IdOf("@" + e.id, '@') == Some(e.id)
  {
    assert [e][0] == e;
    HeaderLineRead(e.id, '@');
    assert "@" + e.id == ['@'] + e.id;
  }

  /** Inside a group of one to three lines every non-blank line is data, `@` or not. */
  lemma {:induction false} ShortScan(g: seq<string>, ls: seq<Line>)
    requires 1 <= |g| && |g| + |ls| <= 4
    requires forall i :: 0 <= i < |ls| ==> ls[i].Text?
    ensures ScanFastq(Group(g), ls).0 == []
    ensures ScanFastq(Group(g), ls).1 == Group(g + Texts(ls))
    decreases |ls|
  {
    if |ls| > 0 {
      ShortScan(g + [ls[0].text], ls[1..]);
      assert g + [ls[0].text] + Texts(ls[1..]) == g + Texts(ls);
    } else {
      assert g + Texts(ls) == g;
    }
  }

  lemma {:induction false} EntryData(e: FastqEntry)
    requires WellFormedFastq([e])
    ensures forall i :: 0 <= i < 3 ==> EntryView(e)[1..][i].Text?
    ensures Texts(EntryView(e)[1..]) == [e.sequence, "+", e.quality]
  {
    assert [e][0] == e;
    var data := EntryView(e)[1..];
    assert data == [Kind(e.sequence, '@'), Kind("+", '@'), Kind(e.quality, '@')];
    assert data[1..] == [Kind("+", '@'), Kind(e.quality, '@')];
    assert data[1..][1..] == [Kind(e.quality, '@')];
    assert data[1..][1..][1..] == [];
    assert Texts(data[1..][1..]) == [e.quality];
    assert Texts(data[1..]) == ["+", e.quality];
  }

  /** The four lines of one entry, read from an empty or a complete group. */
  lemma {:induction false} EntryScan(g: seq<string>, e: FastqEntry)
    requires |g| == 0 || |g| >= 4
    requires WellFormedFastq([e])
    ensures ScanFastq(Group(g), EntryView(e)).0 == FastqFlush(Group(g))
    ensures ScanFastq(Group(g), EntryView(e)).1 == Group([e.id, e.sequence, "+", e.quality])
  {
    EntryHeaderId(e);
    EntryData(e);
    var v := EntryView(e);
    assert FastqStep(Group(g), v[0]).0 == FastqFlush(Group(g));
    assert FastqStep(Group(g), v[0]).1 == Group([e.id]);
    ShortScan([e.id], v[1..]);
    assert [e.id] + [e.sequence, "+", e.quality] == [e.id, e.sequence, "+", e.quality];
    assert v == [v[0]] + v[1..];
  }

  lemma {:induction false} ScanFastqView(g: seq<string>, es: seq<FastqEntry>)
    requires |g| == 0 || |g| >= 4
    requires WellFormedFastq(es)
    ensures ScanFastq(Group(g), FastqView(es)).1.Group?
    ensures |ScanFastq(Group(g), FastqView(es)).1.lines| == (if |es| > 0 then 4 else |g|)
    ensures FastqEnd(ScanFastq(Group(g), FastqView(es))) == Parse(FastqFlush(Group(g)) + FastqRecords(es), false)
    decreases |es|
  {
    if |es| > 0 {
      var e, tail := es[0], es[1..];
      WellFormedFastqSplit(es);
      var g4 := [e.id, e.sequence, "+", e.quality];
      EntryScan(g, e);
      ScanFastqAppend(Group(g), EntryView(e), FastqView(tail));
      ScanFastqView(g4, tail);
      assert FastqRecords(es) == [Record(e.id, e.sequence)] + FastqRecords(tail);
      assert FastqFlush(Group(g4)) == [Record(e.id, e.sequence)];
      FastqEndPrefix(FastqFlush(Group(g)), ScanFastq(Group(g4), FastqView(tail)), ScanFastq(Group(g), FastqView(es)));
    } else {
      assert FastqView(es) == [];
    }
  }

  lemma {:induction false} FastqEndPrefix(pre: seq<Record>, x: (seq<Record>, FastqState), whole: (seq<Record>, FastqState))
    requires !x.1.Crashed? && whole.0 == pre + x.0 && whole.1 == x.1
    ensures FastqEnd(whole) == Parse(pre + FastqEnd(x).records, false)
  {
  }

  /** Four-line entries read back as their ids and sequences, even when a sequence or quality line starts with `@`. */
  lemma {:induction false} ReadFastqRoundTrip(es: seq<FastqEntry>)
    requires WellFormedFastq(es)
    ensures ReadFastq(FastqLines(es)) == Parse(FastqRecords(es), false)
  {
    FastqLinesRead(es);
    ScanFastqView([], es);
  }

  /** A header read after zero or more complete entries, followed by at most two data lines. */
  lemma {:induction false} HeaderThenShort(st: FastqState, hdr: string, id: string, lt: seq<Line>)
    requires st.Group? && (|st.lines| == 0 || |st.lines| == 4)
    requires IdOf(hdr, '@') == Some(id)
    requires |lt| <= 2 && forall i :: 0 <= i < |lt| ==> lt[i].Text?
    ensures ScanFastq(st, [Text(hdr, true)] + lt).0 == FastqFlush(st)
    ensures ScanFastq(st, [Text(hdr, true)] + lt).1 == Group([id] + Texts(lt))
  {
    var ls := [Text(hdr, true)] + lt;
    assert ls[0] == Text(hdr, true) && ls[1..] == lt;
    assert FastqStep(st, ls[0]) == (FastqFlush(st), Group([id]));
    ShortScan([id], lt);
  }

  /** Closing a scan whose last group is shorter than four lines adds nothing. */
  lemma {:induction false} ShortEnd(x: (seq<Record>, FastqState), whole: (seq<Record>, FastqState))
    requires x.1.Group? && whole.1.Group? && |whole.1.lines| < 4
    requires whole.0 == x.0 + FastqFlush(x.1)
    ensures FastqEnd(whole) == FastqEnd(x)
  {
  }

  lemma {:induction false} ShortTailScan(es: seq<FastqEntry>, hdr: string, id: string, lt: seq<Line>)
    requires WellFormedFastq(es) && IdOf(hdr, '@') == Some(id)
    requires |lt| <= 2 && forall i :: 0 <= i < |lt| ==> lt[i].Text?
    ensures FastqEnd(ScanFastq(Group([]), FastqView(es) + ([Text(hdr, true)] + lt))) == Parse(FastqRecords(es), false)
  {
    ScanFastqView([], es);
    var x := ScanFastq(Group([]), FastqView(es));
    ScanFastqAppend(Group([]), FastqView(es), [Text(hdr, true)] + lt);
    HeaderThenShort(x.1, hdr, id, lt);
    ShortEnd(x, ScanFastq(Group([]), FastqView(es) + ([Text(hdr, true)] + lt)));
  }

  /** A trailing group of one to three lines (header included) is dropped without error. */
  lemma {:induction false} ReadFastqDropsShortTail(es: seq<FastqEntry>, id: string, t: seq<string>)
    requires WellFormedFastq(es) && WellFormedId(id, '@')
    requires |t| <= 2 && forall i :: 0 <= i < |t| ==> Strip(t[i]) != ""
    ensures ReadFastq(FastqLines(es) + ["@" + id + "\n"] + t) == Parse(FastqRecords(es), false)
  {
    var h := "@" + id + "\n";
    FastqLinesRead(es);
    LinesAppend(FastqLines(es), [h] + t, '@');
    LinesAppend([h], t, '@');
    HeaderOnly(id);
    NonBlankLines(t);
    ShortTailScan(es, "@" + id, id, Lines(t, '@'));
    assert FastqLines(es) + [h] + t == FastqLines(es) + ([h] + t);
  }

  lemma {:induction false} HeaderOnly(id: string)
    requires WellFormedId(id, '@')
    ensures Lines(["@" + id + "\n"], '@') == [Text("@" + id, true)]
    ensures IdOf("@" + id, '@') == Some(id)
  {
    HeaderLineRead(id, '@');
    assert "@" + id + "\n" == ['@'] + id + "\n";
    assert "@" + id == ['@'] + id;
  }

  lemma {:induction false} NonBlankLines(t: seq<string>)
    requires forall i :: 0 <= i < |t| ==> Strip(t[i]) != ""
    ensures forall i :: 0 <= i < |t| ==> Lines(t, '@')[i].Text?
  {
  }

  /** A header arriving at a group that grew to five lines or more drops the group and starts afresh. */
  lemma {:induction false} OverlongDropped(g: seq<string>, hdr: string, id: string, ls: seq<Line>)
    requires |g| >= 5 && IdOf(hdr, '@') == Some(id)
    ensures ScanFastq(Group(g), [Text(hdr, true)] + ls) == ScanFastq(Group([id]), ls)
  {
    var l := [Text(hdr, true)] + ls;
    assert l[0] == Text(hdr, true) && l[1..] == ls;
    assert FastqStep(Group(g), l[0]) == ([], Group([id]));
    var rest := ScanFastq(Group([id]), ls);
    assert ScanFastq(Group(g), l) == ([] + rest.0, rest.1);
    assert [] + rest.0 == rest.0;
  }

  /** A header and four more data lines, the last of them not an `@` line, grow a group of five. */
  lemma {:induction false} OverlongGroup(st: FastqState, hdr: string, id: string, m: seq<Line>)
    requires st.Group? && (|st.lines| == 0 || |st.lines| == 4)
    requires IdOf(hdr, '@') == Some(id)
    requires |m| == 4 && (forall i :: 0 <= i < 4 ==> m[i].Text?) && !m[3].header
    ensures ScanFastq(st, [Text(hdr, true)] + m).0 == FastqFlush(st)
    ensures ScanFastq(st, [Text(hdr, true)] + m).1.Group?
    ensures |ScanFastq(st, [Text(hdr, true)] + m).1.lines| == 5
  {
    var l := [Text(hdr, true)] + m;
    assert l[0] == Text(hdr, true) && l[1..] == m;
    assert FastqStep(st, l[0]) == (FastqFlush(st), Group([id]));
    ShortScan([id], m[..3]);
    var g4 := ScanFastq(Group([id]), m[..3]).1;
    assert |g4.lines| == 4;
    assert m == m[..3] + [m[3]];
    ScanFastqAppend(Group([id]), m[..3], [m[3]]);
    ScanOne(g4, m[3]);
  }

  /** Scanning a single line is one step. */
  lemma {:induction false} ScanOne(st: FastqState, l: Line)
    ensures ScanFastq(st, [l]) == FastqStep(st, l)
  {
    assert [l][0] == l && [l][1..] == [];
    assert FastqStep(st, l).0 + [] == FastqStep(st, l).0;
  }

  /**
   An entry with one data line too many yields nothing: its group grows past
   four lines and is dropped at the next header (or at the end), and reading
   goes on with the entries after it.
   */
  lemma {:induction false} ReadFastqDropsOverlong(es: seq<FastqEntry>, id: string, d: seq<string>, es2: seq<FastqEntry>)
    requires WellFormedFastq(es) && WellFormedId(id, '@') && WellFormedFastq(es2)
    requires |d| == 4 && forall i :: 0 <= i < 4 ==> Strip(d[i]) != ""
    requires Strip(d[3])[0] != '@'
    ensures ReadFastq(FastqLines(es) + ["@" + id + "\n"] + d + FastqLines(es2))
      == Parse(FastqRecords(es) + FastqRecords(es2), false)
  {
    var h := "@" + id + "\n";
    FastqLinesRead(es);
    FastqLinesRead(es2);
    HeaderOnly(id);
    NonBlankLines(d);
    var m := Lines(d, '@');
    LinesAppend([h], d, '@');
    LinesAppend([h] + d, FastqLines(es2), '@');
    LinesAppend(FastqLines(es), [h] + d + FastqLines(es2), '@');
    assert FastqLines(es) + [h] + d + FastqLines(es2) == FastqLines(es) + ([h] + d + FastqLines(es2));
    OverlongLines(es, "@" + id, id, m, es2);
  }

  /** `ReadFastqDropsOverlong` on classified lines. */
  lemma {:induction false} OverlongLines(es: seq<FastqEntry>, hdr: string, id: string, m: seq<Line>, es2: seq<FastqEntry>)
    requires WellFormedFastq(es) && WellFormedFastq(es2) && IdOf(hdr, '@') == Some(id)
    requires |m| == 4 && (forall i :: 0 <= i < 4 ==> m[i].Text?) && !m[3].header
    ensures FastqEnd(ScanFastq(Group([]), FastqView(es) + ([Text(hdr, true)] + m + FastqView(es2))))
      == Parse(FastqRecords(es) + FastqRecords(es2), false)
  {
    var l1, l2, l3 := FastqView(es), [Text(hdr, true)] + m, FastqView(es2);
    assert l1 + (l2 + l3) == (l1 + l2) + l3;
    OverlongAfter(es, hdr, id, m);
    var y := ScanFastq(Group([]), l1 + l2);
    ScanFastqAppend(Group([]), l1 + l2, l3);
    var g5 := y.1.lines;
    assert y.1 == Group(g5) && FastqFlush(Group(g5)) == [];
    ScanFastqView(g5, es2);
    var w := ScanFastq(Group(g5), l3);
    assert FastqEnd(w).records == FastqRecords(es2) && !w.1.Crashed?;
    var whole := ScanFastq(Group([]), (l1 + l2) + l3);
    assert whole.0 == FastqRecords(es) + w.0 && whole.1 == w.1;
    FastqEndPrefix(FastqRecords(es), w, whole);
  }

  /** Entries read in full, then an overlong group: the entries' records, and a group of five lines pending. */
  lemma {:induction false} OverlongAfter(es: seq<FastqEntry>, hdr: string, id: string, m: seq<Line>)
    requires WellFormedFastq(es) && IdOf(hdr, '@') == Some(id)
    requires |m| == 4 && (forall i :: 0 <= i < 4 ==> m[i].Text?) && !m[3].header
    ensures ScanFastq(Group([]), FastqView(es) + ([Text(hdr, true)] + m)).0 == FastqRecords(es)
    ensures ScanFastq(Group([]), FastqView(es) + ([Text(hdr, true)] + m)).1.Group?
    ensures |ScanFastq(Group([]), FastqView(es) + ([Text(hdr, true)] + m)).1.lines| == 5
  {
    var l1, l2 := FastqView(es), [Text(hdr, true)] + m;
    ScanFastqView([], es);
    var x := ScanFastq(Group([]), l1);
    assert x.0 + FastqFlush(x.1) == FastqRecords(es);
    ScanFastqAppend(Group([]), l1, l2);
    OverlongGroup(x.1, hdr, id, m);
  }

  /** A header that is nothing but `@` at the start of the file raises before any record is yielded. */
  lemma {:induction false} ReadFastqAnonymousHeader(rest: seq<string>)
    ensures ReadFastq(["@\n"] + rest) == Parse([], true)
  {
    var ls := Lines(rest, '@');
    LinesAppend(["@\n"], rest, '@');
    assert Strip("@\n") == "@" by { StripLine("@"); }
    assert Lines(["@\n"], '@') == [Text("@", true)];
    assert StripChar("@", '@') == "";
    assert IdOf("@", '@') == None;
    assert FastqStep(Group([]), Text("@", true)) == ([], Crashed);
    ScanFastqCrashed(ls);
    assert ([Text("@", true)] + ls)[1..] == ls;
  }

  lemma {:induction false} ScanFastqCrashed(ls: seq<Line>)
    ensures ScanFastq(Crashed, ls).0 == [] && ScanFastq(Crashed, ls).1 == Crashed
    decreases |ls|
  {
    if |ls| > 0 {
      ScanFastqCrashed(ls[1..]);
    }
  }

  // ----- allot_base: the shard rotation -----

  /** The number of bases in a list of records. */
  function Total(rs: seq<Record>): nat {
    if |rs| == 0 then 0 else |rs[0].sequence| + Total(rs[1..])
  }

  function Flatten(shards: seq<seq<Record>>): seq<Record> {
    if |shards| == 0 then [] else shards[0] + Flatten(shards[1..])
  }

  /**
   The loop of allot_base: `current` is the open shard and `n` its running total.
   When `n >= base` before a write, the open shard is closed and the record
   opens the next one, seeding `n` with its length; otherwise it is appended.
   */
  function Fill(current: seq<Record>, n: int, rs: seq<Record>, base: int): (shards: seq<seq<Record>>)
    ensures |shards| >= 1
    decreases |rs|
  {
    if |rs| == 0 then [current]
    else if n >= base then [current] + Fill([rs[0]], |rs[0].sequence|, rs[1..], base)
    else Fill(current + [rs[0]], n + |rs[0].sequence|, rs[1..], base)
  }

  function Partition(rs: seq<Record>, base: int): seq<seq<Record>> {
    Fill([], 0, rs, base)
  }

  /** The shortest prefix length whose total must stay below `base` inside shard `i`. */
  function Lower(i: int, first: bool): nat {
    if i == 0 && first then 0 else 1
  }

  /**
   The rotation rule stated on the finished shards: every shard but the last
   reached `base`; every shard after the first is non-empty; and a record was
   only appended to a shard whose total before it was below `base` (for the
   very first shard the check is made even before its first record).
   */
  predicate ShardsOk(shards: seq<seq<Record>>, base: int, first: bool) {
    && (forall i :: 0 <= i < |shards| - 1 ==> Total(shards[i]) >= base)
    && (forall i :: 1 <= i < |shards| ==> |shards[i]| > 0)
    && (forall i, k :: 0 <= i < |shards| && Lower(i, first) <= k < |shards[i]| ==> Total(shards[i][..k]) < base)
  }

  predicate IsPartition(rs: seq<Record>, base: int, shards: seq<seq<Record>>) {
    |shards| >= 1 && Flatten(shards) == rs && ShardsOk(shards, base, true)
  }

  lemma {:induction false} TotalSnoc(rs: seq<Record>, r: Record)
    ensures Total(rs + [r]) == Total(rs) + |r.sequence|
  {
    if |rs| > 0 {
      assert (rs + [r])[1..] == rs[1..] + [r];
      TotalSnoc(rs[1..], r);
    } else {
      assert [] + [r] == [r];
      assert [r][1..] == [];
    }
  }

  lemma {:induction false} ShardsOkTail(shards: seq<seq<Record>>, base: int, first: bool)
    requires |shards| >= 1 && ShardsOk(shards, base, first)
    ensures ShardsOk(shards[1..], base, false)
  {
    var t := shards[1..];
    forall i, k | 0 <= i < |t| && Lower(i, false) <= k < |t[i]| ensures Total(t[i][..k]) < base {
      assert t[i] == shards[i + 1];
      assert Lower(i + 1, first) == 1;
    }
    forall i | 0 <= i < |t| - 1 ensures Total(t[i]) >= base {
      assert t[i] == shards[i + 1];
    }
    forall i | 1 <= i < |t| ensures |t[i]| > 0 {
      assert t[i] == shards[i + 1];
    }
  }

  lemma {:induction false} ShardsOkCons(cur: seq<Record>, rest: seq<seq<Record>>, base: int, first: bool)
    requires ShardsOk(rest, base, false)
    requires |rest| >= 1 ==> |rest[0]| > 0 && Total(cur) >= base
    requires forall k :: Lower(0, first) <= k < |cur| ==> Total(cur[..k]) < base
    ensures ShardsOk([cur] + rest, base, first)
  {
    var s := [cur] + rest;
    forall i, k | 0 <= i < |s| && Lower(i, first) <= k < |s[i]| ensures Total(s[i][..k]) < base {
      if i > 0 {
        assert s[i] == rest[i - 1];
        assert Lower(i - 1, false) == 1;
      }
    }
    forall i | 0 <= i < |s| - 1 ensures Total(s[i]) >= base {
      if i > 0 { assert s[i] == rest[i - 1]; }
    }
    forall i | 1 <= i < |s| ensures |s[i]| > 0 {
      assert s[i] == rest[i - 1];
    }
  }

  /** The totals of the proper prefixes of the open shard that the loop has checked against `base`. */
  predicate PrefixesBelow(cur: seq<Record>, base: int, first: bool) {
    forall k :: Lower(0, first) <= k < |cur| ==> Total(cur[..k]) < base
  }

  /** Appending a record to a shard whose total is below `base` keeps every checked prefix below it. */
  lemma {:induction false} AppendBelow(cur: seq<Record>, r: Record, base: int, first: bool)
    requires PrefixesBelow(cur, base, first) && Total(cur) < base
    ensures PrefixesBelow(cur + [r], base, first)
    ensures Total(cur + [r]) == Total(cur) + |r.sequence|
  {
    TotalSnoc(cur, r);
    forall k | Lower(0, first) <= k < |cur + [r]| ensures Total((cur + [r])[..k]) < base {
      if k < |cur| {
        assert (cur + [r])[..k] == cur[..k];
      } else {
        assert (cur + [r])[..k] == cur;
      }
    }
  }

  /** A lone record is a valid start of a later shard. */
  lemma {:induction false} SeedBelow(r: Record, base: int)
    ensures PrefixesBelow([r], base, false)
    ensures Total([r]) == |r.sequence|
  {
    TotalSnoc([], r);
    assert [] + [r] == [r];
  }

  /** Closing a full shard in front of valid later shards that start with the next record. */
  lemma {:induction false} RotateValid(cur: seq<Record>, r: Record, rs: seq<Record>, rest: seq<seq<Record>>, base: int, first: bool)
    requires PrefixesBelow(cur, base, first) && Total(cur) >= base
    requires |rest| >= 1 && Flatten(rest) == [r] + rs && |rest[0]| >= 1
    requires ShardsOk(rest, base, false)
    ensures Flatten([cur] + rest) == cur + ([r] + rs)
    ensures ([cur] + rest)[0] == cur
    ensures ShardsOk([cur] + rest, base, first)
  {
    assert ([cur] + rest)[1..] == rest;
    ShardsOkCons(cur, rest, base, first);
  }

  /** What the loop builds from an open shard `cur` and the records `rs` still to come. */
  predicate Filled(cur: seq<Record>, rs: seq<Record>, base: int, first: bool, shards: seq<seq<Record>>) {
    && |shards| >= 1
    && Flatten(shards) == cur + rs
    && |cur| <= |shards[0]| && shards[0][..|cur|] == cur
    && ShardsOk(shards, base, first)
  }

  lemma {:induction false} FillValid(cur: seq<Record>, rs: seq<Record>, base: int, first: bool)
    requires PrefixesBelow(cur, base, first)
    requires !first ==> |cur| >= 1
    ensures Filled(cur, rs, base, first, Fill(cur, Total(cur), rs, base))
    decreases |rs|, 1
  {
    if |rs| == 0 {
      assert Flatten([cur]) == cur + Flatten([]);
      ShardsOkCons(cur, [], base, first);
      assert [cur] + [] == [cur];
    } else if Total(cur) >= base {
      FillRotateValid(cur, rs, base, first);
    } else {
      FillAppendValid(cur, rs, base, first);
    }
  }

  /** A full open shard is closed and the next record seeds a new one. */
  lemma {:induction false} FillRotateValid(cur: seq<Record>, rs: seq<Record>, base: int, first: bool)
    requires PrefixesBelow(cur, base, first) && |rs| > 0 && Total(cur) >= base
    ensures Filled(cur, rs, base, first, Fill(cur, Total(cur), rs, base))
    decreases |rs|, 0
  {
    var r := rs[0];
    SeedBelow(r, base);
    FillValid([r], rs[1..], base, false);
    var rest := Fill([r], Total([r]), rs[1..], base);
    RotateValid(cur, r, rs[1..], rest, base, first);
    assert [r] + rs[1..] == rs;
  }

  /** A record appended to an open shard below the budget. */
  lemma {:induction false} FillAppendValid(cur: seq<Record>, rs: seq<Record>, base: int, first: bool)
    requires PrefixesBelow(cur, base, first) && |rs| > 0 && Total(cur) < base
    ensures Filled(cur, rs, base, first, Fill(cur, Total(cur), rs, base))
    decreases |rs|, 0
  {
    var r := rs[0];
    AppendBelow(cur, r, base, first);
    FillValid(cur + [r], rs[1..], base, first);
    var shards := Fill(cur + [r], Total(cur + [r]), rs[1..], base);
    assert (cur + [r]) + rs[1..] == cur + rs;
    assert shards[0][..|cur|] == shards[0][..|cur + [r]|][..|cur|];
  }

  /** The shards the loop produces satisfy the rotation rule and hold every record once, in input order. */
  lemma {:induction false} PartitionIsPartition(rs: seq<Record>, base: int)
    ensures IsPartition(rs, base, Partition(rs, base))
  {
    FillValid([], rs, base, true);
    assert Total([]) == 0;
  }

  lemma {:induction false} FlattenHead(shards: seq<seq<Record>>)
    requires |shards| >= 1
    ensures Flatten(shards) == shards[0] + Flatten(shards[1..])
  {
  }

  lemma {:induction false} FlattenEmpty(shards: seq<seq<Record>>)
    requires forall i :: 0 <= i < |shards| ==> |shards[i]| > 0
    ensures |shards| > 0 ==> |Flatten(shards)| > 0
  {
  }

  lemma {:induction false} Cancel(a: seq<Record>, x: seq<Record>, y: seq<Record>)
    requires a + x == a + y
    ensures x == y
  {
    assert x == (a + x)[|a|..];
    assert y == (a + y)[|a|..];
  }

  /** Once `cur` has reached the budget, the first shard ends with it. */
  lemma {:induction false} FirstShardFull(cur: seq<Record>, rs: seq<Record>, base: int, first: bool, shards: seq<seq<Record>>)
    requires |shards| >= 1 && Flatten(shards) == cur + rs && ShardsOk(shards, base, first)
    requires |cur| <= |shards[0]| && shards[0][..|cur|] == cur
    requires !first ==> |cur| >= 1
    requires Total(cur) >= base
    ensures |shards[0]| == |cur|
  {
    var head := shards[0];
    assert |head| > |cur| ==> head[..|cur|] == cur && Lower(0, first) <= |cur|;
  }

  /** While `cur` is below the budget and records remain, the first shard goes on past it. */
  lemma {:induction false} FirstShardOpen(cur: seq<Record>, rs: seq<Record>, base: int, first: bool, shards: seq<seq<Record>>)
    requires |shards| >= 1 && Flatten(shards) == cur + rs && ShardsOk(shards, base, first)
    requires |cur| <= |shards[0]| && shards[0][..|cur|] == cur
    requires |rs| > 0 && Total(cur) < base
    ensures |shards[0]| > |cur|
  {
    FlattenHead(shards);
    var head := shards[0];
    var rest := shards[1..];
    assert |head| == |cur| ==> head == cur;
    assert |rest| == 0 ==> Flatten(shards) == head + [];
    assert |rest| > 0 ==> Total(head) >= base;
  }

  lemma {:induction false} FillUnique(cur: seq<Record>, rs: seq<Record>, base: int, first: bool, shards: seq<seq<Record>>)
    requires Filled(cur, rs, base, first, shards)
    requires !first ==> |cur| >= 1
    ensures Fill(cur, Total(cur), rs, base) == shards
    decreases |rs|, 1
  {
    if |rs| == 0 {
      FillUniqueEnd(cur, base, first, shards);
    } else if Total(cur) >= base {
      FillUniqueRotate(cur, rs, base, first, shards);
    } else {
      FillUniqueAppend(cur, rs, base, first, shards);
    }
  }

  /** With no records left, the open shard is the only one. */
  lemma {:induction false} FillUniqueEnd(cur: seq<Record>, base: int, first: bool, shards: seq<seq<Record>>)
    requires Filled(cur, [], base, first, shards)
    ensures shards == [cur]
  {
    FlattenHead(shards);
    var rest := shards[1..];
    TailNonEmpty(shards, base, first);
    FlattenEmpty(rest);
    assert shards[0] == cur;
    assert |rest| == 0;
  }

  /** Every shard after the first is non-empty, stated on the tail. */
  lemma {:induction false} TailNonEmpty(shards: seq<seq<Record>>, base: int, first: bool)
    requires |shards| >= 1 && ShardsOk(shards, base, first)
    ensures forall i :: 0 <= i < |shards[1..]| ==> |shards[1..][i]| > 0
  {
    forall i | 0 <= i < |shards[1..]| ensures |shards[1..][i]| > 0 {
      assert shards[1..][i] == shards[i + 1];
    }
  }

  /** A full open shard ends the first shard, and the next record starts the second. */
  lemma {:induction false} FillUniqueRotate(cur: seq<Record>, rs: seq<Record>, base: int, first: bool, shards: seq<seq<Record>>)
    requires Filled(cur, rs, base, first, shards)
    requires !first ==> |cur| >= 1
    requires |rs| > 0 && Total(cur) >= base
    ensures Fill(cur, Total(cur), rs, base) == shards
    decreases |rs|, 0
  {
    FlattenHead(shards);
    var rest := shards[1..];
    ShardsOkTail(shards, base, first);
    var r := rs[0];
    FirstShardFull(cur, rs, base, first, shards);
    assert shards[0] == cur;
    Cancel(cur, Flatten(rest), rs);
    assert |rest| >= 1;
    FlattenHead(rest);
    assert |rest[0]| > 0 by {
      assert rest[0] == shards[1];
    }
    assert rest[0][..1] == [r];
    assert Total([r]) == |r.sequence| by { TotalSnoc([], r); }
    FillUnique([r], rs[1..], base, false, rest);
    assert shards == [cur] + rest;
  }

  /** An open shard below the budget takes the next record. */
  lemma {:induction false} FillUniqueAppend(cur: seq<Record>, rs: seq<Record>, base: int, first: bool, shards: seq<seq<Record>>)
    requires Filled(cur, rs, base, first, shards)
    requires !first ==> |cur| >= 1
    requires |rs| > 0 && Total(cur) < base
    ensures Fill(cur, Total(cur), rs, base) == shards
    decreases |rs|, 0
  {
    var r := rs[0];
    FirstShardOpen(cur, rs, base, first, shards);
    assert shards[0][|cur|] == (cur + rs)[|cur|] == r;
    assert shards[0][..|cur + [r]|] == cur + [r];
    TotalSnoc(cur, r);
    assert (cur + [r]) + rs[1..] == cur + rs;
    FillUnique(cur + [r], rs[1..], base, first, shards);
  }

  /** The rotation rule determines the shards: any partition obeying it is the one the loop computes. */
  lemma {:induction false} PartitionUnique(rs: seq<Record>, base: int, shards: seq<seq<Record>>)
    requires IsPartition(rs, base, shards)
    ensures shards == Partition(rs, base)
  {
    assert Total([]) == 0;
    FillUnique([], rs, base, true, shards);
  }

  /** Lengths 3, 4, 3 with base 5: the record that finds the total at 7 opens the second shard. */
  lemma {:induction false} PartitionExample()
    ensures var a, b, c := Record("a", "AAA"), Record("b", "BBBB"), Record("c", "CCC");
      Partition([a, b, c], 5) == [[a, b], [c]]
  {
    var a, b, c := Record("a", "AAA"), Record("b", "BBBB"), Record("c", "CCC");
    assert [a, b, c][1..] == [b, c] && [b, c][1..] == [c] && [c][1..] == [];
    assert [] + [a] == [a] && [a] + [b] == [a, b];
    assert Fill([c], 3, [], 5) == [[c]];
    assert Fill([a, b], 7, [c], 5) == [[a, b]] + Fill([c], 3, [], 5);
    assert Fill([a], 3, [b, c], 5) == Fill([a, b], 7, [c], 5);
    assert Fill([], 0, [a, b, c], 5) == Fill([a], 3, [b, c], 5);
  }

  /**
   Edge cases of the rotation. No records give one empty shard whatever the
   base. With a base of 0 or below the loop rotates before every write, so
   the first shard stays empty and every record gets a shard of its own.
   */
  lemma {:induction false} PartitionEdgeCases(rs: seq<Record>, base: int)
    ensures Partition([], base) == [[]]
    ensures base <= 0 ==> |Partition(rs, base)| == |rs| + 1 && Partition(rs, base)[0] == []
    ensures base <= 0 ==> forall i :: 0 <= i < |rs| ==> Partition(rs, base)[i + 1] == [rs[i]]
  {
    if base <= 0 {
      FillEach([], 0, rs, base);
    }
  }

  /** Once the running total is at or over a base of 0 or below, each record opens its own shard. */
  lemma {:induction false} FillEach(current: seq<Record>, n: int, rs: seq<Record>, base: int)
    requires base <= 0 && n >= base
    ensures |Fill(current, n, rs, base)| == |rs| + 1 && Fill(current, n, rs, base)[0] == current
    ensures forall i :: 0 <= i < |rs| ==> Fill(current, n, rs, base)[i + 1] == [rs[i]]
    decreases |rs|
  {
    if |rs| > 0 {
      var tail := Fill([rs[0]], |rs[0].sequence|, rs[1..], base);
      FillEach([rs[0]], |rs[0].sequence|, rs[1..], base);
      assert Fill(current, n, rs, base) == [current] + tail;
      forall i | 0 <= i < |rs| ensures Fill(current, n, rs, base)[i + 1] == [rs[i]] {
        if i > 0 {
          assert tail[i] == [rs[1..][i - 1]];
        }
      }
    }
  }

  lemma {:induction false} TotalAppend(a: seq<Record>, b: seq<Record>)
    ensures Total(a + b) == Total(a) + Total(b)
    decreases |a|
  {
    if |a| > 0 {
      assert (a + b)[1..] == a[1..] + b;
      TotalAppend(a[1..], b);
    } else {
      assert a + b == b;
    }
  }

  /** A base above the total of all records gives one shard holding them all. */
  lemma {:induction false} PartitionSingle(rs: seq<Record>, base: int)
    requires Total(rs) < base
    ensures Partition(rs, base) == [rs]
  {
    forall k | 0 <= k < |rs|
      ensures Total(rs[..k]) < base
    {
      assert rs == rs[..k] + rs[k..];
      TotalAppend(rs[..k], rs[k..]);
    }
    assert Flatten([rs]) == rs by {
      assert [rs][1..] == [];
    }
    PartitionUnique(rs, base, [rs]);
  }

  /** A base equal to the total is not enough: a trailing empty record still opens a second shard. */
  lemma {:induction false} PartitionAtTotal()
    ensures var a, b := Record("a", "AAA"), Record("b", "");
      Total([a, b]) == 3 && Partition([a, b], 3) == [[a], [b]]
  {
    var a, b := Record("a", "AAA"), Record("b", "");
    assert [a, b][1..] == [b] && [b][1..] == [];
    assert Total([b]) == 0;
    assert [] + [a] == [a];
    assert Fill([b], 0, [], 3) == [[b]];
    assert Fill([a], 3, [b], 3) == [[a]] + Fill([b], 0, [], 3);
    assert Fill([], 0, [a, b], 3) == Fill([a], 3, [b], 3);
  }

  // ----- allot_base: the whole run -----

  /** `"%s.%s.fa" % (name, lable)`. */
  function ShardName(name: string, index: nat): string {
    name + "." + Decimal(index) + ".fa"
  }

  /** The reported shard names `name.1.fa` .. `name.count.fa`, in creation order. */
  function ShardNames(name: string, count: nat): (names: seq<string>)
    ensures |names| == count
    ensures forall i :: 0 <= i < count ==> names[i] == ShardName(name, i + 1)
  {
    if count == 0 then [] else ShardNames(name, count - 1) + [ShardName(name, count)]
  }

  /** The shards written (each shard file holds `FastaLines` of its records), the paths printed, and the error raised if any. */
  datatype Allotment = Allotment(shards: seq<seq<Record>>, reported: seq<string>, failure: Option<string>)

  /** Writes the records of a parse into shards; a reader that raised leaves the last shard open and unreported. */
  function Distribute(p: Parse, name: string, base: int): (a: Allotment) {
    var shards := Partition(p.records, base);
    if p.crashed then Allotment(shards, ShardNames(name, |shards| - 1), Some("list index out of range"))
    else Allotment(shards, ShardNames(name, |shards|), None)
  }

  function Allot(file: string, raw: seq<string>, name: string, base: int): (a: Allotment)
    requires IsLineStream(raw)
  {
    match FormatOf(file)
    case None =>
      // `name.1.fa` is opened before the suffix is examined
      Allotment([[]], [], Some("file format error"))
    case Some(Fasta) => Distribute(ReadFasta(raw), name, base)
    case Some(Fastq) => Distribute(ReadFastq(raw), name, base)
  }

  /** The parse the suffix selects. */
  function Source(file: string, raw: seq<string>): Parse
    requires IsLineStream(raw) && FormatOf(file).Some?
  {
    if FormatOf(file) == Some(Fasta) then ReadFasta(raw) else ReadFastq(raw)
  }

  /**
   For a readable file every record read lands in exactly one shard, in order,
   under the rotation rule; every shard's path is reported unless the reader
   raised, in which case the last, still open shard is not.
   */
  lemma {:induction false} AllotSpec(file: string, raw: seq<string>, name: string, base: int)
    requires IsLineStream(raw)
    ensures var a := Allot(file, raw, name, base);
      && (FormatOf(file) == None ==> a.shards == [[]] && a.reported == [] && a.failure.Some?)
      && (FormatOf(file).Some? ==>
            && IsPartition(Source(file, raw).records, base, a.shards)
            && (a.failure == None <==> !Source(file, raw).crashed)
            && a.reported == ShardNames(name, |a.shards| - (if Source(file, raw).crashed then 1 else 0)))
  {
    if FormatOf(file).Some? {
      PartitionIsPartition(Source(file, raw).records, base);
    }
  }

  /** Reading the shard files back gives their records. */
  lemma {:induction false} ShardsReadBack(shards: seq<seq<Record>>)
    requires WellFormedFasta(Flatten(shards))
    ensures forall i :: 0 <= i < |shards| ==> WellFormedFasta(shards[i])
    ensures forall i :: 0 <= i < |shards| ==> IsLineStream(FastaLines(shards[i]))
    ensures forall i :: 0 <= i < |shards| ==> ReadFasta(FastaLines(shards[i])) == Parse(shards[i], false)
  {
    if |shards| > 0 {
      var f := Flatten(shards);
      assert f == shards[0] + Flatten(shards[1..]);
      assert WellFormedFasta(shards[0]) by {
        forall i | 0 <= i < |shards[0]| ensures shards[0][i] == f[i] { }
      }
      assert WellFormedFasta(Flatten(shards[1..])) by {
        var t := Flatten(shards[1..]);
        forall i | 0 <= i < |t| ensures t[i] == f[|shards[0]| + i] { }
      }
      ShardsReadBack(shards[1..]);
      ReadFastaRoundTrip(shards[0]);
      forall i | 0 <= i < |shards|
        ensures WellFormedFasta(shards[i]) && IsLineStream(FastaLines(shards[i]))
        ensures ReadFasta(FastaLines(shards[i])) == Parse(shards[i], false)
      {
        if i > 0 { assert shards[i] == shards[1..][i - 1]; }
      }
    }
  }
}

=== FILE: cut_seq.dfy ===
/**
 cut_seq.py: reads a FASTA or FASTQ file into a dictionary from normalised
 id to sequence and prints the piece `seq[start-1:end]` of one sequence as
 a FASTA record named `name_start_end`.
 */
module CutSeq {
  import opened Text
  import opened Records

  /** Lines both readers pass over: blank ones and `#` comment lines. */
  predicate Skipped(l: Line) {
    l.Blank? || (|l.text| > 0 && l.text[0] == '#')
  }

  /** The number of lines that are not skipped. */
  function KeptCount(ls: seq<Line>): nat {
    if |ls| == 0 then 0 else (if Skipped(ls[0]) then 0 else 1) + KeptCount(ls[1..])
  }

  // ----- read_fasta -----

  /**
   The buffer `seq`: empty, text read before any header, or a raw header
   line (marker and description kept) with the body read after it. Stripped
   lines hold no line break, so `seq.split('\n')` gives back these parts.
   */
  datatype FastaState = Empty | Loose(text: string) | Headed(header: string, body: string)

  /** `seq.split('\n')` of the buffer: one piece without a header, two with one. */
  function Pieces(st: FastaState): seq<string> {
    match st
    case Empty => []
    case Loose(t) => [t]
    case Headed(h, b) => [h, b]
  }

  /** A non-empty buffer is yielded as its pieces. */
  function FastaFlush(st: FastaState): seq<seq<string>> {
    if st.Empty? then [] else [Pieces(st)]
  }

  /** One stripped line. A `>` line yields the buffer and starts a new one with the whole line. */
  function FastaStep(st: FastaState, l: Line): (seq<seq<string>>, FastaState) {
    if Skipped(l) then ([], st)
    else if l.header then (FastaFlush(st), Headed(l.text, ""))
    else
      match st
      case Empty => ([], Loose(l.text))
      case Loose(t) => ([], Loose(t + l.text))
      case Headed(h, b) => ([], Headed(h, b + l.text))
  }

  function ScanFasta(st: FastaState, ls: seq<Line>): (seq<seq<string>>, FastaState)
    decreases |ls|
  {
    if |ls| == 0 then ([], st)
    else
      var first := FastaStep(st, ls[0]);
      var rest := ScanFasta(first.1, ls[1..]);
      (first.0 + rest.0, rest.1)
  }

  function FastaEnd(run: (seq<seq<string>>, FastaState)): seq<seq<string>> {
    run.0 + FastaFlush(run.1)
  }

  /** The lists `read_fasta` yields. */
  function ReadFasta(raw: seq<string>): seq<seq<string>>
    requires IsLineStream(raw)
  {
    FastaEnd(ScanFasta(Empty, Lines(raw, '>')))
  }

  lemma {:induction false} ScanFastaAppend(st: FastaState, a: seq<Line>, b: seq<Line>)
    ensures ScanFasta(st, a + b).0 == ScanFasta(st, a).0 + ScanFasta(ScanFasta(st, a).1, b).0
    ensures ScanFasta(st, a + b).1 == ScanFasta(ScanFasta(st, a).1, b).1
    decreases |a|
  {
    if |a| > 0 {
      assert (a + b)[0] == a[0];
      assert (a + b)[1..] == a[1..] + b;
      ScanFastaAppend(FastaStep(st, a[0]).1, a[1..], b);
    } else {
      assert a + b == b;
    }
  }

  lemma {:induction false} SkipLine(st: FastaState, l: Line, ls: seq<Line>)
    requires Skipped(l)
    ensures ScanFasta(st, [l] + ls) == ScanFasta(st, ls)
  {
    assert ([l] + ls)[0] == l && ([l] + ls)[1..] == ls;
    var r := ScanFasta(st, ls);
    assert [] + r.0 == r.0;
  }

  lemma {:induction false} SkipAt(la: seq<Line>, l: Line, lb: seq<Line>)
    requires Skipped(l)
    ensures FastaEnd(ScanFasta(Empty, la + [l] + lb)) == FastaEnd(ScanFasta(Empty, la + lb))
  {
    assert la + [l] + lb == la + ([l] + lb);
    ScanFastaAppend(Empty, la, [l] + lb);
    ScanFastaAppend(Empty, la, lb);
    SkipLine(ScanFasta(Empty, la).1, l, lb);
  }

  /** Removing a blank or `#` line changes nothing that is yielded. */
  lemma {:induction false} ReadFastaSkips(a: seq<string>, x: string, b: seq<string>)
    requires IsLineStream(a + [x] + b) && Skipped(Classify(x, '>'))
    ensures IsLineStream(a + b)
    ensures ReadFasta(a + [x] + b) == ReadFasta(a + b)
  {
    LineStreamAppend(a + [x], b);
    LineStreamAppend(a, [x]);
    LineStreamAppend(a, b);
    LinesAppend(a + [x], b, '>');
    LinesAppend(a, [x], '>');
    LinesAppend(a, b, '>');
    assert Lines([x], '>') == [Classify(x, '>')];
    SkipAt(Lines(a, '>'), Classify(x, '>'), Lines(b, '>'));
  }

  /** From text without a header on, the first thing yielded, if anything, is a single piece. */
  lemma {:induction false} LooseScan(t: string, ls: seq<Line>)
    ensures var run := ScanFasta(Loose(t), ls);
      if |run.0| == 0 then run.1.Loose? else |run.0[0]| == 1
    decreases |ls|
  {
    if |ls| > 0 {
      var first := FastaStep(Loose(t), ls[0]);
      if first.0 == [] {
        assert first.1.Loose?;
        LooseScan(first.1.text, ls[1..]);
      }
    }
  }

  /**
   Text before the first header: the first list yielded has a single piece,
   which `for id, seq in fh` cannot unpack.
   */
  lemma {:induction false} ReadFastaHeaderless(x: string, rest: seq<string>)
    requires IsLineStream([x] + rest)
    requires var l := Classify(x, '>'); !Skipped(l) && !l.header
    ensures |ReadFasta([x] + rest)| > 0 && |ReadFasta([x] + rest)[0]| == 1
  {
    var l := Classify(x, '>');
    LinesAppend([x], rest, '>');
    var ls := Lines([x] + rest, '>');
    assert ls[0] == l;
    assert ls[1..] == Lines(rest, '>');
    LooseScan(l.text, ls[1..]);
  }

  /** Records the reader takes back: well formed, with no sequence taken for a comment. */
  predicate PlainFasta(rs: seq<Record>) {
    WellFormedFasta(rs) && forall i :: 0 <= i < |rs| ==> Unmarked(rs[i].sequence, '#')
  }

  lemma {:induction false} PlainFastaSplit(rs: seq<Record>)
    requires |rs| > 0 && PlainFasta(rs)
    ensures PlainFasta([rs[0]]) && PlainFasta(rs[1..])
  {
    WellFormedFastaSplit(rs);
    assert [rs[0]][0] == rs[0];
    forall i | 0 <= i < |rs| - 1 ensures rs[1..][i] == rs[i + 1] { }
  }

  /** What the reader yields for written records: the raw header line and the sequence. */
  function FastaItems(rs: seq<Record>): (items: seq<seq<string>>)
    ensures |items| == |rs|
  {
    if |rs| == 0 then [] else [[">" + rs[0].id, rs[0].sequence]] + FastaItems(rs[1..])
  }

  lemma {:induction false} RecordScan(st: FastaState, r: Record)
    requires PlainFasta([r])
    ensures ScanFasta(st, RecordView(r)) == (FastaFlush(st), Headed(">" + r.id, r.sequence))
  {
    assert [r][0] == r;
    var h := Text(">" + r.id, true);
    assert !Skipped(h);
    var s1 := FastaStep(st, h);
    assert s1 == (FastaFlush(st), Headed(">" + r.id, ""));
    var s2 := FastaStep(s1.1, Kind(r.sequence, '>'));
    if r.sequence == "" {
      assert s2 == ([], Headed(">" + r.id, ""));
    } else {
      assert r.sequence[0] != '>' && r.sequence[0] != '#';
      assert s2 == ([], Headed(">" + r.id, "" + r.sequence));
      assert "" + r.sequence == r.sequence;
    }
    ScanFastaPair(st, h, Kind(r.sequence, '>'));
    assert s1.0 + s2.0 == s1.0;
  }

  lemma {:induction false} ScanFastaPair(st: FastaState, a: Line, b: Line)
    ensures var s1 := FastaStep(st, a); var s2 := FastaStep(s1.1, b);
      ScanFasta(st, [a, b]) == (s1.0 + s2.0, s2.1)
  {
    assert [a, b][0] == a && [a, b][1..] == [b] && [b][1..] == [];
    var s1 := FastaStep(st, a);
    var s2 := FastaStep(s1.1, b);
    assert ScanFasta(s2.1, []) == ([], s2.1);
    assert s2.0 + [] == s2.0;
    assert ScanFasta(s1.1, [b]) == (s2.0, s2.1);
  }

  lemma {:induction false} EndPrefix(pre: seq<seq<string>>, x: (seq<seq<string>>, FastaState), whole: (seq<seq<string>>, FastaState))
    requires whole.0 == pre + x.0 && whole.1 == x.1
    ensures FastaEnd(whole) == pre + FastaEnd(x)
  {
  }

  lemma {:induction false} ScanFastaView(st: FastaState, rs: seq<Record>)
    requires PlainFasta(rs)
    ensures FastaEnd(ScanFasta(st, FastaView(rs))) == FastaFlush(st) + FastaItems(rs)
    decreases |rs|
  {
    if |rs| > 0 {
      var r := rs[0];
      PlainFastaSplit(rs);
      var next := Headed(">" + r.id, r.sequence);
      RecordScan(st, r);
      ScanFastaAppend(st, RecordView(r), FastaView(rs[1..]));
      ScanFastaView(next, rs[1..]);
      EndPrefix(FastaFlush(st), ScanFasta(next, FastaView(rs[1..])), ScanFasta(st, FastaView(rs)));
    } else {
      assert FastaView(rs) == [];
    }
  }

  /** Written records come back as `[raw header line, sequence]`, one list per record. */
  lemma {:induction false} ReadFastaRoundTrip(rs: seq<Record>)
    requires PlainFasta(rs)
    ensures IsLineStream(FastaLines(rs))
    ensures ReadFasta(FastaLines(rs)) == FastaItems(rs)
  {
    FastaLinesRead(rs);
    ScanFastaView(Empty, rs);
  }

  // ----- read_fastq -----

  /** One kept line: the group grows, and its fourth line yields `(first line, second line)`. */
  function FastqStep(g: seq<string>, l: Line): (seq<seq<string>>, seq<string>) {
    if Skipped(l) then ([], g)
    else
      var h := g + [l.text];
      if |h| == 4 then ([[h[0], h[1]]], []) else ([], h)
  }

  function ScanFastq(g: seq<string>, ls: seq<Line>): (seq<seq<string>>, seq<string>)
    decreases |ls|
  {
    if |ls| == 0 then ([], g)
    else
      var first := FastqStep(g, ls[0]);
      var rest := ScanFastq(first.1, ls[1..]);
      (first.0 + rest.0, rest.1)
  }

  /** The pairs `read_fastq` yields; a last group of fewer than four lines is never yielded. */
  function ReadFastq(raw: seq<string>): seq<seq<string>>
    requires IsLineStream(raw)
  {
    ScanFastq([], Lines(raw, '@')).0
  }

  lemma {:induction false} ScanFastqAppend(g: seq<string>, a: seq<Line>, b: seq<Line>)
    ensures ScanFastq(g, a + b).0 == ScanFastq(g, a).0 + ScanFastq(ScanFastq(g, a).1, b).0
    ensures ScanFastq(g, a + b).1 == ScanFastq(ScanFastq(g, a).1, b).1
    decreases |a|
  {
    if |a| > 0 {
      assert (a + b)[0] == a[0];
      assert (a + b)[1..] == a[1..] + b;
      ScanFastqAppend(FastqStep(g, a[0]).1, a[1..], b);
    } else {
      assert a + b == b;
    }
  }

  /** Every four kept lines make one pair; what is left over stays in the group. */
  lemma {:induction false} ScanFastqCount(g: seq<string>, ls: seq<Line>)
    requires |g| < 4
    ensures |ScanFastq(g, ls).0| == (|g| + KeptCount(ls)) / 4
    ensures |ScanFastq(g, ls).1| == (|g| + KeptCount(ls)) % 4
    decreases |ls|
  {
    if |ls| > 0 {
      ScanFastqCount(FastqStep(g, ls[0]).1, ls[1..]);
    }
  }

  /** Grouping is purely positional: the number of pairs is the number of kept lines divided by four. */
  lemma {:induction false} ReadFastqCount(raw: seq<string>)
    requires IsLineStream(raw)
    ensures |ReadFastq(raw)| == KeptCount(Lines(raw, '@')) / 4
  {
    ScanFastqCount([], Lines(raw, '@'));
  }

  /** Any four kept lines yield their first two texts, whether or not the first starts with `@`. */
  lemma {:induction false} ReadFastqGroup(a: string, b: string, c: string, d: string, rest: seq<string>)
    requires IsLineStream([a, b, c, d] + rest)
    requires !Skipped(Classify(a, '@')) && !Skipped(Classify(b, '@'))
    requires !Skipped(Classify(c, '@')) && !Skipped(Classify(d, '@'))
    ensures IsLineStream(rest)
    ensures ReadFastq([a, b, c, d] + rest) == [[Strip(a), Strip(b)]] + ReadFastq(rest)
  {
    LineStreamAppend([a, b, c, d], rest);
    LinesAppend([a, b, c, d], rest, '@');
    var four := Lines([a, b, c, d], '@');
    assert four == [Classify(a, '@'), Classify(b, '@'), Classify(c, '@'), Classify(d, '@')];
    ScanFastqAppend([], four, Lines(rest, '@'));
    FourScan(four[0], four[1], four[2], four[3]);
  }

  /** Four kept lines from an empty group: one pair, and the group is empty again. */
  lemma {:induction false} FourScan(l1: Line, l2: Line, l3: Line, l4: Line)
    requires !Skipped(l1) && !Skipped(l2) && !Skipped(l3) && !Skipped(l4)
    ensures ScanFastq([], [l1, l2, l3, l4]) == ([[l1.text, l2.text]], [])
  {
    var t1, t2, t3 := l1.text, l2.text, l3.text;
    assert [l1, l2, l3, l4][1..] == [l2, l3, l4];
    assert [l2, l3, l4][1..] == [l3, l4];
    assert [l3, l4][1..] == [l4];
    assert [l4][1..] == [];
    var h := [t1, t2, t3] + [l4.text];
    assert |h| == 4 && h[0] == t1 && h[1] == t2;
    assert FastqStep([t1, t2, t3], l4) == ([[t1, t2]], []);
    assert ScanFastq([t1, t2, t3], [l4]) == ([[t1, t2]] + [], []);
    assert [[t1, t2]] + [] == [[t1, t2]];
    assert [t1, t2] + [t3] == [t1, t2, t3] && [t1] + [t2] == [t1, t2] && [] + [t1] == [t1];
    assert FastqStep([t1, t2], l3) == ([], [t1, t2, t3]);
    assert FastqStep([t1], l2) == ([], [t1, t2]);
    assert FastqStep([], l1) == ([], [t1]);
    var out: seq<seq<string>> := [[t1, t2]];
    assert [] + out == out;
    assert ScanFastq([t1, t2], [l3, l4]) == ([[t1, t2]], []);
    assert ScanFastq([t1], [l2, l3, l4]) == ([[t1, t2]], []);
  }

  /** Entries the reader takes back: well formed, with no sequence or quality taken for a comment. */
  predicate PlainFastq(es: seq<FastqEntry>) {
    && WellFormedFastq(es)
    && forall i :: 0 <= i < |es| ==> Unmarked(es[i].sequence, '#') && Unmarked(es[i].quality, '#')
  }

  lemma {:induction false} PlainFastqSplit(es: seq<FastqEntry>)
    requires |es| > 0 && PlainFastq(es)
    ensures PlainFastq([es[0]]) && PlainFastq(es[1..])
  {
    WellFormedFastqSplit(es);
    assert [es[0]][0] == es[0];
    forall i | 0 <= i < |es| - 1 ensures es[1..][i] == es[i + 1] { }
  }

  function FastqItems(es: seq<FastqEntry>): (items: seq<seq<string>>)
    ensures |items| == |es|
  {
    if |es| == 0 then [] else [["@" + es[0].id, es[0].sequence]] + FastqItems(es[1..])
  }

  lemma {:induction false} EntryScan(e: FastqEntry)
    requires PlainFastq([e])
    ensures ScanFastq([], EntryView(e)) == ([["@" + e.id, e.sequence]], [])
  {
    assert [e][0] == e;
    var v := EntryView(e);
    assert v == [v[0], v[1], v[2], v[3]];
    FourScan(v[0], v[1], v[2], v[3]);
  }

  lemma {:induction false} ScanFastqView(es: seq<FastqEntry>)
    requires PlainFastq(es)
    ensures ScanFastq([], FastqView(es)) == (FastqItems(es), [])
    decreases |es|
  {
    if |es| > 0 {
      PlainFastqSplit(es);
      EntryScan(es[0]);
      ScanFastqAppend([], EntryView(es[0]), FastqView(es[1..]));
      ScanFastqView(es[1..]);
    } else {
      assert FastqView(es) == [];
    }
  }

  /** Written entries come back as `[raw header line, sequence]`, one pair per entry. */
  lemma {:induction false} ReadFastqRoundTrip(es: seq<FastqEntry>)
    requires PlainFastq(es)
    ensures IsLineStream(FastqLines(es))
    ensures ReadFastq(FastqLines(es)) == FastqItems(es)
  {
    FastqLinesRead(es);
    ScanFastqView(es);
  }

  // ----- read_fp: id normalisation -----

  /** `s` with every `c` removed. */
  function Delete(s: string, c: char): (r: string)
    ensures |r| <= |s|
    ensures forall k :: 0 <= k < |r| ==> r[k] != c
  {
    if |s| == 0 then "" else (if s[0] == c then "" else [s[0]]) + Delete(s[1..], c)
  }

  lemma {:induction false} DeleteAppend(a: string, b: string, c: char)
    ensures Delete(a + b, c) == Delete(a, c) + Delete(b, c)
    decreases |a|
  {
    if |a| == 0 {
      assert a + b == b;
    } else {
      assert (a + b)[0] == a[0];
      assert (a + b)[1..] == a[1..] + b;
      DeleteAppend(a[1..], b, c);
    }
  }

  /** Every character `Delete` keeps comes from its argument. */
  lemma {:induction false} DeleteFrom(s: string, c: char)
    ensures forall k :: 0 <= k < |Delete(s, c)| ==> Delete(s, c)[k] in s
    decreases |s|
  {
    if |s| > 0 {
      DeleteFrom(s[1..], c);
      var t := Delete(s[1..], c);
      assert forall k :: 0 <= k < |t| ==> t[k] in s by {
        forall k | 0 <= k < |t| ensures t[k] in s {
          var j :| 0 <= j < |s[1..]| && s[1..][j] == t[k];
          assert s[j + 1] == t[k];
        }
      }
    }
  }

  /** Joining with the empty separator puts one more character in front when the first piece has it. */
  lemma {:induction false} JoinFront(x: char, p: string, ps: seq<string>)
    ensures Join([[x] + p] + ps, "") == [x] + Join([p] + ps, "")
  {
    var l, r := [[x] + p] + ps, [p] + ps;
    if |ps| > 0 {
      assert l[1..] == ps && r[1..] == ps;
    }
  }

  /** Where `c` first occurs in `[x] + t` for `x != c`: one past where it first occurs in `t`. */
  lemma {:induction false} FindShift(x: char, t: string, c: char)
    requires x != c
    ensures Find([x] + t, [c]) == (match Find(t, [c]) case None => None case Some(i) => Some(i + 1))
  {
    var s := [x] + t;
    match Find(t, [c])
    case None =>
      if Contains(s, [c]) {
        var j :| 0 <= j <= |s| && OccursAt(s, [c], j);
        assert j > 0 && s[j] == c;
        assert OccursAt(t, [c], j - 1);
      }
    case Some(i) =>
      assert s[i + 1..i + 2] == t[i..i + 1];
      assert OccursAt(s, [c], i + 1);
      var v := Find(s, [c]).value;
      assert v > 0 by { assert s[v] == c; }
      assert t[v - 1..v] == s[v..v + 1];
      assert OccursAt(t, [c], v - 1);
  }

  lemma {:induction false} ReplaceOther(x: char, t: string, c: char)
    requires x != c
    ensures Replace([x] + t, [c], "") == [x] + Replace(t, [c], "")
  {
    var s := [x] + t;
    FindShift(x, t, c);
    match Find(t, [c])
    case None =>
    case Some(i) =>
      var rest := t[i + 1..];
      assert s[..i + 1] == [x] + t[..i];
      assert s[i + 2..] == rest;
      assert Split(s, [c]) == [[x] + t[..i]] + Split(rest, [c]);
      assert Split(t, [c]) == [t[..i]] + Split(rest, [c]);
      JoinFront(x, t[..i], Split(rest, [c]));
  }

  /** `s.replace(c, '')` for one character `c` deletes every `c`. */
  lemma {:induction false} ReplaceDeletes(s: string, c: char)
    ensures Replace(s, [c], "") == Delete(s, c)
    decreases |s|
  {
    if |s| > 0 {
      ReplaceDeletes(s[1..], c);
      assert s == [s[0]] + s[1..];
      if s[0] == c {
        ReplaceFront([c], s[1..], "");
      } else {
        ReplaceOther(s[0], s[1..], c);
      }
    } else {
      assert Split(s, [c]) == [s];
    }
  }

  /** `id.replace('>','').replace('@','').split()[0]`, or `None` where that raises `IndexError`. */
  function Normalise(id: string): (r: Option<string>)
    ensures r == Token(Delete(Delete(id, '>'), '@'))
    ensures r.Some? ==> r.value != "" && NoSpace(r.value)
  {
    ReplaceDeletes(id, '>');
    ReplaceDeletes(Delete(id, '>'), '@');
    Token(Replace(Replace(id, ">", ""), "@", ""))
  }

  /** An id without any `>` or `@`. */
  predicate Bare(id: string) {
    forall k :: 0 <= k < |id| ==> id[k] != '>' && id[k] != '@'
  }

  /** Every character `FirstToken` keeps comes from its argument. */
  lemma {:induction false} TokenFrom(s: string)
    ensures forall k :: 0 <= k < |FirstToken(s)| ==> FirstToken(s)[k] in s
  {
    TrimLeftSuffix(s);
    var t := TrimLeft(s);
    var w := FirstToken(s);
    forall k | 0 <= k < |w| ensures w[k] in s {
      assert w[k] == t[k];
      assert t[k] == s[|s| - |t| + k];
    }
  }

  /** A normalised id has no `>` or `@` left in it. */
  lemma {:induction false} NormaliseBare(id: string)
    requires Normalise(id).Some?
    ensures Bare(Normalise(id).value)
  {
    ReplaceDeletes(id, '>');
    var a := Delete(id, '>');
    ReplaceDeletes(a, '@');
    var b := Delete(a, '@');
    DeleteFrom(a, '@');
    TokenFrom(b);
  }

  /** `Delete` keeps a string that does not hold the character. */
  lemma {:induction false} DeleteAbsent(s: string, c: char)
    requires forall k :: 0 <= k < |s| ==> s[k] != c
    ensures Delete(s, c) == s
    decreases |s|
  {
    if |s| > 0 {
      DeleteAbsent(s[1..], c);
    }
  }

  lemma {:induction false} DeleteCons(x: char, t: string, c: char)
    ensures Delete([x] + t, c) == (if x == c then "" else [x]) + Delete(t, c)
  {
    assert ([x] + t)[0] == x && ([x] + t)[1..] == t;
  }

  /** Deleting both markers from a marker followed by a bare id leaves the id in front. */
  lemma {:induction false} DeleteMarkers(m: char, id: string, rest: string)
    requires m == '>' || m == '@'
    requires Bare(id)
    ensures Delete(Delete([m] + id + rest, '>'), '@') == id + Delete(Delete(rest, '>'), '@')
  {
    var r1 := Delete(rest, '>');
    var p: string := if m == '>' then "" else [m];
    assert [m] + id + rest == [m] + (id + rest);
    DeleteCons(m, id + rest, '>');
    DeleteAppend(id, rest, '>');
    DeleteAbsent(id, '>');
    assert Delete([m] + id + rest, '>') == p + (id + r1);
    DeleteAppend(p, id + r1, '@');
    assert Delete(p, '@') == "" by {
      if m == '@' {
        assert p == [m] + "";
        DeleteCons(m, "", '@');
      }
    }
    DeleteAppend(id, r1, '@');
    DeleteAbsent(id, '@');
    assert "" + (id + Delete(r1, '@')) == id + Delete(r1, '@');
  }

  /** A description that starts with white space still does after the markers are deleted. */
  lemma {:induction false} DeleteKeepsSpace(rest: string)
    requires rest == "" || IsSpace(rest[0])
    ensures var d := Delete(Delete(rest, '>'), '@'); d == "" || IsSpace(d[0])
  {
    if rest != "" {
      assert '>' !in Whitespace && '@' !in Whitespace;
      assert rest == [rest[0]] + rest[1..];
      DeleteCons(rest[0], rest[1..], '>');
      var r1 := Delete(rest, '>');
      assert r1 == [rest[0]] + Delete(rest[1..], '>');
      DeleteCons(rest[0], Delete(rest[1..], '>'), '@');
    }
  }

  /** A raw header line `>id description` or `@id description` is filed under `id`. */
  lemma {:induction false} NormaliseHeader(m: char, id: string, rest: string)
    requires m == '>' || m == '@'
    requires id != "" && NoSpace(id) && Bare(id) && (rest == "" || IsSpace(rest[0]))
    ensures Normalise([m] + id + rest) == Some(id)
  {
    var s := [m] + id + rest;
    ReplaceDeletes(s, '>');
    ReplaceDeletes(Delete(s, '>'), '@');
    DeleteMarkers(m, id, rest);
    DeleteKeepsSpace(rest);
    var tail := Delete(Delete(rest, '>'), '@');
    if tail == "" {
      assert id + tail == id;
      FirstTokenWord(id);
    } else {
      FirstTokenPrefix(id, tail);
    }
  }

  // ----- read_fp: the dictionary and the cut -----

  /** `seq_dict[id] = seq` for each entry in turn, starting from `d`. */
  function Index(d: map<string, string>, es: seq<(string, string)>): (m: map<string, string>)
    ensures d.Keys <= m.Keys
    decreases |es|
  {
    if |es| == 0 then d else Index(d[es[0].0 := es[0].1], es[1..])
  }

  /** The sequence of the last entry with id `name`. */
  function Lookup(es: seq<(string, string)>, name: string): Option<string>
    decreases |es|
  {
    if |es| == 0 then None
    else match Lookup(es[1..], name)
      case Some(v) => Some(v)
      case None => if es[0].0 == name then Some(es[0].1) else None
  }

  /** `Lookup` finds the last entry with that id, and finds nothing only when there is none. */
  lemma {:induction false} LookupLast(es: seq<(string, string)>, name: string)
    ensures Lookup(es, name).None? <==> forall i :: 0 <= i < |es| ==> es[i].0 != name
    ensures Lookup(es, name).Some? ==> exists i :: (0 <= i < |es| && es[i] == (name, Lookup(es, name).value)
      && forall j :: i < j < |es| ==> es[j].0 != name)
    decreases |es|
  {
    if |es| > 0 {
      var tail := es[1..];
      LookupLast(tail, name);
      assert forall i :: 0 < i < |es| ==> es[i] == tail[i - 1];
      match Lookup(tail, name)
      case Some(v) =>
        var i :| 0 <= i < |tail| && tail[i] == (name, v) && forall j :: i < j < |tail| ==> tail[j].0 != name;
        assert es[i + 1] == (name, v);
      case None =>
        if es[0].0 == name {
          assert es[0] == (name, es[0].1);
        }
    }
  }

  /** The dictionary built in one pass holds, for every id, the sequence of its last entry. */
  lemma {:induction false} IndexLookup(d: map<string, string>, es: seq<(string, string)>, name: string)
    ensures name in Index(d, es) <==> Lookup(es, name).Some? || name in d
    ensures Lookup(es, name).Some? ==> Index(d, es)[name] == Lookup(es, name).value
    ensures Lookup(es, name).None? && name in d ==> Index(d, es)[name] == d[name]
    decreases |es|
  {
    if |es| > 0 {
      IndexLookup(d[es[0].0 := es[0].1], es[1..], name);
    }
  }

  /** Where Python puts a slice bound `i` on a sequence of length `n`: negative bounds count from the end, and bounds are clamped. */
  function Bound(i: int, n: nat): (b: nat)
    ensures b <= n
    ensures 0 <= i <= n ==> b == i
    ensures -(n as int) <= i < 0 ==> b as int == n as int + i
    ensures i > n ==> b == n
    ensures i < -(n as int) ==> b == 0
  {
    if i < 0 then (if n + i < 0 then 0 else n + i)
    else if i > n then n
    else i
  }

  /** Python `s[i:j]`. */
  function Slice(s: string, i: int, j: int): (r: string)
    ensures |r| <= |s|
    ensures 0 <= i <= j <= |s| ==> r == s[i..j]
    ensures Bound(i, |s|) < Bound(j, |s|) ==> r == s[Bound(i, |s|)..Bound(j, |s|)]
    ensures Bound(j, |s|) <= Bound(i, |s|) ==> r == ""
  {
    var a, b := Bound(i, |s|), Bound(j, |s|);
    if a < b then s[a..b] else ""
  }

  /**
   The printed record for the sequence `s` found under `name`: `end <= 1`
   stands for the whole length, and the piece is `s[start-1:end]`.
   */
  function CutRecord(name: string, s: string, start: int, end: int): (r: Record)
    ensures |r.sequence| <= |s|
    ensures 1 <= start <= end && 1 < end <= |s| ==> r.sequence == s[start - 1..end] && |r.sequence| == end - start + 1
    ensures 1 <= start <= |s| + 1 && end <= 1 ==> r.sequence == s[start - 1..]
    ensures 1 <= start <= |s| < end ==> r.sequence == s[start - 1..]
    ensures 1 < end && |s| < start ==> r.sequence == ""
    ensures 1 < end < start ==> r.sequence == ""
    ensures r.id == name + "_" + Decimal(start) + "_" + Decimal(if end <= 1 then |s| else end)
  {
    var e := if end <= 1 then |s| else end;
    Record(name + "_" + Decimal(start) + "_" + Decimal(e), Slice(s, start - 1, e))
  }

  /** `end <= 1` cuts to the end: from position one, that is the whole sequence. */
  lemma {:induction false} CutWhole(name: string, s: string, end: int)
    requires end <= 1
    ensures CutRecord(name, s, 1, end) == Record(name + "_1_" + Decimal(|s|), s)
  {
    assert Decimal(1) == "1";
    assert s[0..|s|] == s;
  }

  /** A start of zero or below counts from the end, as Python slicing does. */
  lemma {:induction false} CutFromEnd(name: string, s: string, start: int, end: int)
    requires -|s| < start <= 0 && end <= 1
    ensures CutRecord(name, s, start, end).sequence == s[|s| + start - 1..]
  {
  }

  /** What `read_fp` does: raise, log that the id is missing, or print one record. */
  datatype Outcome = Raised | Missing | Cut(record: Record)

  /** The suffixes `read_fasta` accepts; the first two are not anchored at a dot. */
  predicate IsCutFastaName(file: string) {
    EndsWith(file, "fa.gz") || EndsWith(file, "fasta.gz") || EndsWith(file, ".fasta") || EndsWith(file, ".fa")
  }

  /**
   The lists the chosen reader yields, or `None` when `read_fasta` rejects
   the suffix. `read_fastq` is only reached for names it accepts.
   */
  function Items(file: string, raw: seq<string>): (r: Option<seq<seq<string>>>)
    requires IsLineStream(raw)
    ensures r.None? <==> !IsFastqName(file) && !IsCutFastaName(file)
    ensures IsFastqName(file) ==> r == Some(ReadFastq(raw))
    ensures !IsFastqName(file) && IsCutFastaName(file) ==> r == Some(ReadFasta(raw))
    ensures FormatOf(file) == Some(Fasta) ==> r == Some(ReadFasta(raw))
  {
    assert EndsWith(file, ".fasta.gz") ==> file[|file| - 8..] == file[|file| - 9..][1..];
    assert EndsWith(file, ".fa.gz") ==> file[|file| - 5..] == file[|file| - 6..][1..];
    if IsFastqName(file) then Some(ReadFastq(raw))
    else if IsCutFastaName(file) then Some(ReadFasta(raw))
    else None
  }

  /** `id, seq = item` and the normalised id, or `None` where either raises. */
  function Entry(item: seq<string>): (r: Option<(string, string)>)
    ensures r.Some? <==> |item| == 2 && Normalise(item[0]).Some?
    ensures r.Some? ==> r.value.1 == item[1] && Bare(r.value.0)
  {
    if |item| != 2 then None
    else match Normalise(item[0])
      case None => None
      case Some(id) =>
        NormaliseBare(item[0]);
        Some((id, item[1]))
  }

  /** The entries of all lists, or `None` when any of them raises. */
  function Entries(items: seq<seq<string>>): (r: Option<seq<(string, string)>>)
    ensures r.Some? <==> forall i :: 0 <= i < |items| ==> Entry(items[i]).Some?
    ensures r.Some? ==> |r.value| == |items|
    ensures r.Some? ==> forall i :: 0 <= i < |items| ==> r.value[i] == Entry(items[i]).value
  {
    if |items| == 0 then Some([])
    else
      var e := Entry(items[0]);
      var es := Entries(items[1..]);
      if e.Some? && es.Some? then Some([e.value] + es.value)
      else
        assert e.None? || exists i :: 1 <= i < |items| && Entry(items[i]).None? by {
          if e.Some? {
            var i :| 0 <= i < |items[1..]| && Entry(items[1..][i]).None?;
            assert items[i + 1] == items[1..][i];
          }
        }
        None
  }

  /**
   `read_fp`: every list yielded goes into the dictionary; if `name` is
   there its cut is printed, otherwise only a log line is written.
   */
  function ReadFp(file: string, raw: seq<string>, name: string, start: int, end: int): (r: Outcome)
    requires IsLineStream(raw)
    ensures r.Raised? <==> Items(file, raw).None? || Entries(Items(file, raw).value).None?
    ensures !r.Raised? ==> var v := Lookup(Entries(Items(file, raw).value).value, name);
      && (r.Missing? <==> v.None?)
      && (r.Cut? ==> r.record == CutRecord(name, v.value, start, end))
  {
    match Items(file, raw)
    case None => Raised
    case Some(items) =>
      match Entries(items)
      case None => Raised
      case Some(es) =>
        var d := Index(map[], es);
        IndexLookup(map[], es, name);
        if name in d then Cut(CutRecord(name, d[name], start, end)) else Missing
  }

  /** The output lines of a cut: `print('>%s\n%s' % (seq_id, seq))`. */
  function Printed(o: Outcome): seq<string> {
    if o.Cut? then RecordLines(o.record) else []
  }

  // ----- read_fp end to end -----

  /** Records with ids that survive normalisation: no `>` or `@` in them. */
  predicate BareIds(rs: seq<Record>) {
    forall i :: 0 <= i < |rs| ==> Bare(rs[i].id)
  }

  function Pairs(rs: seq<Record>): (ps: seq<(string, string)>)
    ensures |ps| == |rs|
    ensures forall i :: 0 <= i < |rs| ==> ps[i] == (rs[i].id, rs[i].sequence)
  {
    if |rs| == 0 then [] else [(rs[0].id, rs[0].sequence)] + Pairs(rs[1..])
  }

  /** One written FASTA record is filed under its id. */
  lemma {:induction false} HeaderEntry(m: char, id: string, body: string)
    requires m == '>' || m == '@'
    requires WellFormedId(id, m) && Bare(id)
    ensures Entry([[m] + id, body]) == Some((id, body))
  {
    assert [m] + id == [m] + id + "";
    NormaliseHeader(m, id, "");
  }

  lemma {:induction false} EntriesAll(items: seq<seq<string>>, ps: seq<(string, string)>)
    requires |items| == |ps| && forall i :: 0 <= i < |items| ==> Entry(items[i]) == Some(ps[i])
    ensures Entries(items) == Some(ps)
  {
    var r := Entries(items);
    assert r.Some?;
    assert r.value == ps by {
      forall i | 0 <= i < |ps| ensures r.value[i] == ps[i] {
        assert Entry(items[i]) == Some(ps[i]);
      }
    }
  }

  lemma {:induction false} FastaEntries(rs: seq<Record>)
    requires WellFormedFasta(rs) && BareIds(rs)
    ensures Entries(FastaItems(rs)) == Some(Pairs(rs))
  {
    var items := FastaItems(rs);
    FastaItemsAt(rs);
    forall i | 0 <= i < |rs| ensures Entry(items[i]) == Some(Pairs(rs)[i]) {
      assert ">" + rs[i].id == ['>'] + rs[i].id;
      HeaderEntry('>', rs[i].id, rs[i].sequence);
    }
    EntriesAll(items, Pairs(rs));
  }

  lemma {:induction false} FastaItemsAt(rs: seq<Record>)
    ensures forall i :: 0 <= i < |rs| ==> FastaItems(rs)[i] == [">" + rs[i].id, rs[i].sequence]
    decreases |rs|
  {
    if |rs| > 0 {
      FastaItemsAt(rs[1..]);
    }
  }

  /**
   Cutting from a FASTA file of written records: the piece of the last
   record filed under `name`, or nothing when no record has that id.
   */
  lemma {:induction false} ReadFpFasta(file: string, rs: seq<Record>, name: string, start: int, end: int)
    requires IsCutFastaName(file) && !IsFastqName(file) && PlainFasta(rs) && BareIds(rs)
    ensures IsLineStream(FastaLines(rs))
    ensures ReadFp(file, FastaLines(rs), name, start, end)
      == match Lookup(Pairs(rs), name)
         case None => Missing
         case Some(s) => Cut(CutRecord(name, s, start, end))
  {
    ReadFastaRoundTrip(rs);
    FastaEntries(rs);
  }

  /** Text before the first header makes `read_fp` raise instead of printing anything. */
  lemma {:induction false} ReadFpHeaderless(file: string, x: string, rest: seq<string>, name: string, start: int, end: int)
    requires IsCutFastaName(file) && !IsFastqName(file) && IsLineStream([x] + rest)
    requires var l := Classify(x, '>'); !Skipped(l) && !l.header
    ensures ReadFp(file, [x] + rest, name, start, end) == Raised
  {
    ReadFastaHeaderless(x, rest);
  }

  lemma {:induction false} FastqItemsAt(es: seq<FastqEntry>)
    ensures forall i :: 0 <= i < |es| ==> FastqItems(es)[i] == ["@" + es[i].id, es[i].sequence]
    decreases |es|
  {
    if |es| > 0 {
      FastqItemsAt(es[1..]);
    }
  }

  lemma {:induction false} FastqEntries(es: seq<FastqEntry>)
    requires WellFormedFastq(es) && forall i :: 0 <= i < |es| ==> Bare(es[i].id)
    ensures Entries(FastqItems(es)) == Some(Pairs(FastqRecords(es)))
  {
    var items := FastqItems(es);
    FastqItemsAt(es);
    var rs := FastqRecords(es);
    forall i | 0 <= i < |es| ensures Entry(items[i]) == Some(Pairs(rs)[i]) {
      assert "@" + es[i].id == ['@'] + es[i].id;
      HeaderEntry('@', es[i].id, es[i].sequence);
    }
    EntriesAll(items, Pairs(rs));
  }

  /** Cutting from a FASTQ file of written entries: the piece of the last entry filed under `name`. */
  lemma {:induction false} ReadFpFastq(file: string, es: seq<FastqEntry>, name: string, start: int, end: int)
    requires IsFastqName(file) && PlainFastq(es) && forall i :: 0 <= i < |es| ==> Bare(es[i].id)
    ensures IsLineStream(FastqLines(es))
    ensures ReadFp(file, FastqLines(es), name, start, end)
      == match Lookup(Pairs(FastqRecords(es)), name)
         case None => Missing
         case Some(s) => Cut(CutRecord(name, s, start, end))
  {
    ReadFastqRoundTrip(es);
    FastqEntries(es);
  }
}

=== FILE: filter_bam.dfy ===
/**
 filter_bam.py: reads below a length or quality threshold are dropped, and
 the passing reads are written in order until their bases reach a budget.
 */
module FilterBam {
  import opened Text

  /** A BAM record as the filter sees it: the length of its sequence and its `rq` tag. */
  datatype Read = Read(length: nat, quality: real)

  /** A read is skipped when its quality is below `minqv` or its length below `minlen`. */
  predicate Passes(r: Read, minlen: int, minqv: real) {
    !(r.quality < minqv || r.length < minlen)
  }

  /** The number of bases of some reads. */
  function Total(rs: seq<Read>): nat {
    if |rs| == 0 then 0 else rs[0].length + Total(rs[1..])
  }

  /** `tbase and n >= tbase`: the budget is switched off by 0. */
  predicate Reached(n: int, tbase: int) {
    tbase != 0 && n >= tbase
  }

  /** The reads that pass both thresholds, in input order. */
  function Passing(rs: seq<Read>, minlen: int, minqv: real): (ps: seq<Read>)
    ensures |ps| <= |rs|
    ensures forall k :: 0 <= k < |ps| ==> Passes(ps[k], minlen, minqv) && ps[k] in rs
    ensures forall i :: 0 <= i < |rs| && Passes(rs[i], minlen, minqv) ==> rs[i] in ps
  {
    if |rs| == 0 then []
    else if Passes(rs[0], minlen, minqv) then [rs[0]] + Passing(rs[1..], minlen, minqv)
    else Passing(rs[1..], minlen, minqv)
  }

  /**
   Filtering keeps input order: the passing reads of `a + b` are those of
   `a` followed by those of `b`. With `PassingOne` this determines the
   filter.
   */
  lemma {:induction false} PassingAppend(a: seq<Read>, b: seq<Read>, minlen: int, minqv: real)
    ensures Passing(a + b, minlen, minqv) == Passing(a, minlen, minqv) + Passing(b, minlen, minqv)
    decreases |a|
  {
    if |a| == 0 {
      assert a + b == b;
    } else {
      assert (a + b)[0] == a[0];
      assert (a + b)[1..] == a[1..] + b;
      PassingAppend(a[1..], b, minlen, minqv);
    }
  }

  /** One read is kept exactly when it passes. */
  lemma {:induction false} PassingOne(r: Read, minlen: int, minqv: real)
    ensures Passing([r], minlen, minqv) == (if Passes(r, minlen, minqv) then [r] else [])
  {
    assert [r][1..] == [];
  }

  /**
   The selection the loop makes, as a fold: after `n` bases so far, a
   passing read is written, and the fold stops right after a write that
   reaches the budget.
   */
  function Keep(rs: seq<Read>, minlen: int, minqv: real, tbase: int, n: int): seq<Read> {
    if |rs| == 0 then []
    else if !Passes(rs[0], minlen, minqv) then Keep(rs[1..], minlen, minqv, tbase, n)
    else if Reached(n + rs[0].length, tbase) then [rs[0]]
    else [rs[0]] + Keep(rs[1..], minlen, minqv, tbase, n + rs[0].length)
  }

  /**
   What the output is, independently of how it is computed: a prefix of the
   passing reads that is all of them, or else is non-empty and reaches the
   budget, while none of its shorter non-empty prefixes does.
   */
  predicate Selected(input: seq<Read>, kept: seq<Read>, minlen: int, minqv: real, tbase: int) {
    var ps := Passing(input, minlen, minqv);
    |kept| <= |ps| && kept == ps[..|kept|]
    && (kept == ps || (|kept| > 0 && Reached(Total(kept), tbase)))
    && forall k :: 0 < k < |kept| ==> !Reached(Total(kept[..k]), tbase)
  }

  lemma {:induction false} TotalCons(r: Read, rs: seq<Read>, k: nat)
    requires 0 < k <= |rs| + 1
    ensures Total(([r] + rs)[..k]) == r.length + Total(rs[..k - 1])
  {
    assert ([r] + rs)[..k] == [r] + rs[..k - 1];
  }

  /** The shape `Selected` describes, for a prefix `kept` of `ps` after `n` bases. */
  predicate Shaped(kept: seq<Read>, ps: seq<Read>, tbase: int, n: int) {
    |kept| <= |ps| && kept == ps[..|kept|]
    && (kept == ps || (|kept| > 0 && Reached(n + Total(kept), tbase)))
    && forall k :: 0 < k < |kept| ==> !Reached(n + Total(kept[..k]), tbase)
  }

  /** Writing one more read that does not reach the budget keeps the shape. */
  lemma {:induction false} ShapedCons(r: Read, rest: seq<Read>, pt: seq<Read>, tbase: int, n: int)
    requires !Reached(n + r.length, tbase) && Shaped(rest, pt, tbase, n + r.length)
    ensures Shaped([r] + rest, [r] + pt, tbase, n)
  {
    var m := n + r.length;
    var kept := [r] + rest;
    assert Total(kept) == r.length + Total(rest);
    forall k | 0 < k < |kept| ensures !Reached(n + Total(kept[..k]), tbase) {
      TotalCons(r, rest, k);
      if k > 1 {
        assert !Reached(m + Total(rest[..k - 1]), tbase);
      } else {
        assert rest[..0] == [];
      }
    }
  }

  lemma {:induction false} KeepCons(r: Read, t: seq<Read>, minlen: int, minqv: real, tbase: int, n: int)
    ensures Keep([r] + t, minlen, minqv, tbase, n) ==
      if !Passes(r, minlen, minqv) then Keep(t, minlen, minqv, tbase, n)
      else if Reached(n + r.length, tbase) then [r]
      else [r] + Keep(t, minlen, minqv, tbase, n + r.length)
    ensures Passing([r] + t, minlen, minqv) ==
      if Passes(r, minlen, minqv) then [r] + Passing(t, minlen, minqv) else Passing(t, minlen, minqv)
  {
    assert ([r] + t)[0] == r && ([r] + t)[1..] == t;
  }

  /** `Keep` started after `n` bases has the shape `Selected` describes, counting those bases. */
  lemma {:induction false} KeepShape(rs: seq<Read>, minlen: int, minqv: real, tbase: int, n: int)
    ensures Shaped(Keep(rs, minlen, minqv, tbase, n), Passing(rs, minlen, minqv), tbase, n)
    decreases |rs|
  {
    if |rs| > 0 {
      var r := rs[0];
      var tail := rs[1..];
      assert rs == [r] + tail;
      KeepCons(r, tail, minlen, minqv, tbase, n);
      if !Passes(r, minlen, minqv) {
        KeepShape(tail, minlen, minqv, tbase, n);
      } else if !Reached(n + r.length, tbase) {
        KeepShape(tail, minlen, minqv, tbase, n + r.length);
        ShapedCons(r, Keep(tail, minlen, minqv, tbase, n + r.length), Passing(tail, minlen, minqv), tbase, n);
      } else {
        assert Total([r]) == r.length + Total([]);
      }
    }
  }

  /** The fold from nothing written makes a selection. */
  lemma {:induction false} KeepSelected(input: seq<Read>, minlen: int, minqv: real, tbase: int)
    ensures Selected(input, Keep(input, minlen, minqv, tbase, 0), minlen, minqv, tbase)
  {
    KeepShape(input, minlen, minqv, tbase, 0);
  }

  /** `Selected` pins the output down: two selections from the same input are the same. */
  lemma {:induction false} SelectedUnique(input: seq<Read>, a: seq<Read>, b: seq<Read>, minlen: int, minqv: real, tbase: int)
    requires Selected(input, a, minlen, minqv, tbase) && Selected(input, b, minlen, minqv, tbase)
    ensures a == b
  {
    if |a| <= |b| {
      SelectedPrefix(input, a, b, minlen, minqv, tbase);
    } else {
      SelectedPrefix(input, b, a, minlen, minqv, tbase);
    }
  }

  /** Of two selections, the shorter is a prefix of the longer. */
  lemma {:induction false} SelectedPrefix(input: seq<Read>, a: seq<Read>, b: seq<Read>, minlen: int, minqv: real, tbase: int)
    requires Selected(input, a, minlen, minqv, tbase) && Selected(input, b, minlen, minqv, tbase)
    requires |a| <= |b|
    ensures a == b[..|a|]
  {
    var ps := Passing(input, minlen, minqv);
    assert b[..|a|] == ps[..|a|];
  }

  /** With the budget switched off, every passing read is written. */
  lemma {:induction false} KeepAll(input: seq<Read>, minlen: int, minqv: real)
    ensures Keep(input, minlen, minqv, 0, 0) == Passing(input, minlen, minqv)
  {
    KeepShape(input, minlen, minqv, 0, 0);
  }

  /**
   The loop of `filter_bam`: skips the reads that fail a threshold, writes
   the others while counting their bases in `n`, and breaks right after the
   write that brings `n` to a non-zero `tbase`. What it writes is the fold.
   */
  method Scan(input: seq<Read>, minlen: int, minqv: real, tbase: int) returns (kept: seq<Read>, n: int)
    ensures kept == Keep(input, minlen, minqv, tbase, 0)
    ensures n == Total(kept)
  {
    ghost var goal := Keep(input, minlen, minqv, tbase, 0);
    kept := [];
    n := 0;
    var i := 0;
    while i < |input|
      invariant 0 <= i <= |input|
      invariant kept + Keep(input[i..], minlen, minqv, tbase, n) == goal
      invariant n == Total(kept)
      decreases |input| - i
    {
      var r := input[i];
      var t := input[i + 1..];
      assert input[i..] == [r] + t;
      if !(r.quality < minqv || r.length < minlen) {
        TotalSnoc(kept, r);
        var m := n + r.length;
        if tbase != 0 && m >= tbase {
          ScanStop(kept, r, t, minlen, minqv, tbase, n);
          n := m;
          kept := kept + [r];
          break;
        }
        ScanWrite(kept, r, t, minlen, minqv, tbase, n);
        n := m;
        kept := kept + [r];
      } else {
        ScanSkip(kept, r, t, minlen, minqv, tbase, n);
      }
      i := i + 1;
    }
    assert kept == goal by {
      if i == |input| {
        assert Keep(input[i..], minlen, minqv, tbase, n) == [];
        assert kept + [] == kept;
      }
    }
  }

  /** A read that fails a threshold is skipped. */
  lemma {:induction false} ScanSkip(kept: seq<Read>, r: Read, t: seq<Read>, minlen: int, minqv: real, tbase: int, n: int)
    requires !Passes(r, minlen, minqv)
    ensures kept + Keep([r] + t, minlen, minqv, tbase, n) == kept + Keep(t, minlen, minqv, tbase, n)
  {
    KeepCons(r, t, minlen, minqv, tbase, n);
  }

  /** A passing read that reaches the budget is the last one written. */
  lemma {:induction false} ScanStop(kept: seq<Read>, r: Read, t: seq<Read>, minlen: int, minqv: real, tbase: int, n: int)
    requires Passes(r, minlen, minqv) && Reached(n + r.length, tbase)
    ensures kept + Keep([r] + t, minlen, minqv, tbase, n) == kept + [r]
  {
    KeepCons(r, t, minlen, minqv, tbase, n);
  }

  /** A passing read below the budget is written and the fold goes on with its bases counted. */
  lemma {:induction false} ScanWrite(kept: seq<Read>, r: Read, t: seq<Read>, minlen: int, minqv: real, tbase: int, n: int)
    requires Passes(r, minlen, minqv) && !Reached(n + r.length, tbase)
    ensures kept + Keep([r] + t, minlen, minqv, tbase, n) == (kept + [r]) + Keep(t, minlen, minqv, tbase, n + r.length)
  {
    KeepCons(r, t, minlen, minqv, tbase, n);
    assert (kept + [r]) + Keep(t, minlen, minqv, tbase, n + r.length) == kept + ([r] + Keep(t, minlen, minqv, tbase, n + r.length));
  }

  /**
   The loop's output is a selection, each of its reads passes both
   thresholds, and `n` counts the bases written.
   */
  method Select(input: seq<Read>, minlen: int, minqv: real, tbase: int) returns (kept: seq<Read>, n: int)
    ensures Selected(input, kept, minlen, minqv, tbase)
    ensures n == Total(kept)
    ensures forall k :: 0 <= k < |kept| ==> Passes(kept[k], minlen, minqv)
  {
    kept, n := Scan(input, minlen, minqv, tbase);
    KeepSelected(input, minlen, minqv, tbase);
    SelectedPasses(input, kept, minlen, minqv, tbase);
  }

  /** Every read of a selection passes both thresholds. */
  lemma {:induction false} SelectedPasses(input: seq<Read>, kept: seq<Read>, minlen: int, minqv: real, tbase: int)
    requires Selected(input, kept, minlen, minqv, tbase)
    ensures forall k :: 0 <= k < |kept| ==> Passes(kept[k], minlen, minqv) && kept[k] in input
  {
    var ps := Passing(input, minlen, minqv);
    forall k | 0 <= k < |kept| ensures Passes(kept[k], minlen, minqv) && kept[k] in input {
      assert kept[k] == ps[k];
    }
  }

  lemma {:induction false} TotalSnoc(rs: seq<Read>, r: Read)
    ensures Total(rs + [r]) == Total(rs) + r.length
    decreases |rs|
  {
    if |rs| == 0 {
      assert [] + [r] == [r];
      assert Total([r]) == r.length + Total([]);
    } else {
      assert (rs + [r])[1..] == rs[1..] + [r];
      TotalSnoc(rs[1..], r);
    }
  }

  /** The input formats `filter_bam` opens, chosen by suffix. */
  datatype Format = Bam | Sam

  function InputFormat(file: string): Option<Format> {
    if EndsWith(file, ".bam") then Some(Bam)
    else if EndsWith(file, ".sam") then Some(Sam)
    else None
  }

  /**
   `filter_bam`: an input not ending in `.bam` or `.sam` raises before
   anything is written; otherwise the reads selected are written.
   */
  method FilterBam(file: string, input: seq<Read>, minlen: int, minqv: real, tbase: int)
    returns (written: Option<seq<Read>>)
    ensures written.None? <==> !EndsWith(file, ".bam") && !EndsWith(file, ".sam")
    ensures written.Some? ==> Selected(input, written.value, minlen, minqv, tbase)
  {
    if InputFormat(file).None? {
      return None;
    }
    var kept, n := Select(input, minlen, minqv, tbase);
    written := Some(kept);
  }
}

=== FILE: filter_gfa.dfy ===
/**
 filter_gfa.py: collects the segments of a GFA assembly graph that are long
 enough or linked to such a segment in one pass, then prints the lines that
 concern them.
 */
module FilterGfa {
  import opened Text

  /** A stripped line `read_tsv` yields: not blank and not a `#` comment. */
  predicate Kept(t: string) {
    t != "" && t[0] != '#'
  }

  /** Rows as `split` makes them: never without a first column. */
  predicate Rows(rows: seq<seq<string>>) {
    forall i :: 0 <= i < |rows| ==> |rows[i]| >= 1
  }

  /** No cell of any row holds a tab: every row is split all the way. */
  predicate TabFree(rows: seq<seq<string>>) {
    forall i, k :: 0 <= i < |rows| && 0 <= k < |rows[i]| ==> !Contains(rows[i][k], "\t")
  }

  /** `read_tsv(file, '\t')`: every kept stripped line split on tabs. */
  function ReadTsv(raw: seq<string>): (rows: seq<seq<string>>)
    ensures Rows(rows) && TabFree(rows)
  {
    if |raw| == 0 then []
    else
      var t := Strip(raw[0]);
      var head: seq<seq<string>> := if Kept(t) then [Split(t, "\t")] else [];
      SplitPieces(t, "\t");
      var rest := ReadTsv(raw[1..]);
      assert TabFree(head + rest) by {
        forall i, k | 0 <= i < |head + rest| && 0 <= k < |(head + rest)[i]|
          ensures !Contains((head + rest)[i][k], "\t")
        {
          if i >= |head| {
            assert (head + rest)[i] == rest[i - |head|];
          }
        }
      }
      head + rest
  }

  /** The kept lines, stripped. */
  function KeptLines(raw: seq<string>): seq<string> {
    if |raw| == 0 then []
    else (if Kept(Strip(raw[0])) then [Strip(raw[0])] else []) + KeptLines(raw[1..])
  }

  function Joined(rows: seq<seq<string>>): (lines: seq<string>)
    ensures |lines| == |rows|
  {
    if |rows| == 0 then [] else [Join(rows[0], "\t")] + Joined(rows[1..])
  }

  lemma {:induction false} JoinedAppend(a: seq<seq<string>>, b: seq<seq<string>>)
    ensures Joined(a + b) == Joined(a) + Joined(b)
  {
    if |a| > 0 {
      assert (a + b)[0] == a[0];
      assert (a + b)[1..] == a[1..] + b;
      JoinedAppend(a[1..], b);
    } else {
      assert a + b == b;
    }
  }

  /** The rows `read_tsv` yields, joined with tabs again, are the kept stripped lines in order. */
  lemma {:induction false} ReadTsvLines(raw: seq<string>)
    ensures Joined(ReadTsv(raw)) == KeptLines(raw)
    decreases |raw|
  {
    if |raw| > 0 {
      var t := Strip(raw[0]);
      ReadTsvLines(raw[1..]);
      var head: seq<seq<string>> := if Kept(t) then [Split(t, "\t")] else [];
      JoinedAppend(head, ReadTsv(raw[1..]));
      if Kept(t) {
        JoinSplit(t, "\t");
        assert Joined(head) == [t];
      }
    }
  }

  // ----- recover_contig -----

  /** `seqid = set()` */
  const NoIds: set<string> := {}

  /** A row with the columns its record type is read at: `S` lines up to the sequence, `L` lines up to the second segment. */
  predicate Wide(row: seq<string>) {
    && |row| >= 1
    && (row[0] == "S" ==> |row| >= 3)
    && (row[0] == "L" ==> |row| >= 4)
  }

  /** An `S` line whose sequence has at least `minlen` characters. */
  predicate LongSegment(row: seq<string>, minlen: nat) {
    |row| >= 3 && row[0] == "S" && |row[2]| >= minlen
  }

  predicate IsLink(row: seq<string>) {
    |row| >= 4 && row[0] == "L"
  }

  /** One row of the single pass; `None` where a missing column raises `IndexError`. */
  function RecoverStep(ids: set<string>, row: seq<string>, minlen: nat): (r: Option<set<string>>)
    requires |row| >= 1
    ensures r.Some? <==> Wide(row)
    ensures r.Some? ==> ids <= r.value
  {
    if row[0] == "H" then Some(ids)
    else if row[0] == "S" then
      if |row| < 3 then None
      else if |row[2]| >= minlen then Some(ids + {row[1]})
      else Some(ids)
    else if row[0] == "L" then
      if |row| < 4 then None
      else if row[1] in ids || row[3] in ids then Some(ids + {row[1], row[3]})
      else Some(ids)
    else Some(ids)
  }

  /** `recover_contig` from the set `ids` on: the set only ever grows. */
  function Recover(ids: set<string>, rows: seq<seq<string>>, minlen: nat): (r: Option<set<string>>)
    requires Rows(rows)
    ensures r.Some? ==> ids <= r.value
    decreases |rows|
  {
    if |rows| == 0 then Some(ids)
    else
      match RecoverStep(ids, rows[0], minlen)
      case None => None
      case Some(next) => Recover(next, rows[1..], minlen)
  }

  /** The pass over `a + b` is the pass over `a` continued over `b`. */
  lemma {:induction false} RecoverAppend(ids: set<string>, a: seq<seq<string>>, b: seq<seq<string>>, minlen: nat)
    requires Rows(a) && Rows(b)
    ensures Rows(a + b)
    ensures Recover(ids, a + b, minlen)
      == match Recover(ids, a, minlen) case None => None case Some(s) => Recover(s, b, minlen)
    decreases |a|
  {
    assert forall i :: 0 <= i < |a| ==> (a + b)[i] == a[i];
    assert forall i :: 0 <= i < |b| ==> (a + b)[|a| + i] == b[i];
    if |a| > 0 {
      assert (a + b)[1..] == a[1..] + b;
      match RecoverStep(ids, a[0], minlen)
      case None =>
      case Some(next) => RecoverAppend(next, a[1..], b, minlen);
    } else {
      assert a + b == b;
    }
  }

  /** The pass raises exactly when some row lacks a column its type is read at. */
  lemma {:induction false} RecoverRaises(ids: set<string>, rows: seq<seq<string>>, minlen: nat)
    requires Rows(rows)
    ensures Recover(ids, rows, minlen).Some? <==> forall i :: 0 <= i < |rows| ==> Wide(rows[i])
    decreases |rows|
  {
    if |rows| > 0 {
      assert forall i :: 0 < i < |rows| ==> rows[i] == rows[1..][i - 1];
      match RecoverStep(ids, rows[0], minlen)
      case None =>
      case Some(next) =>
        RecoverRaises(next, rows[1..], minlen);
    }
  }

  /** Where a member of the result comes from: `S` line names and link endpoints. */
  predicate Named(row: seq<string>, x: string, minlen: nat) {
    (LongSegment(row, minlen) && row[1] == x) || (IsLink(row) && (row[1] == x || row[3] == x))
  }

  /** Every member was there to begin with, names a long segment, or is an endpoint of a link. */
  lemma {:induction false} RecoverSources(ids: set<string>, rows: seq<seq<string>>, minlen: nat, x: string)
    requires Rows(rows) && Recover(ids, rows, minlen).Some? && x in Recover(ids, rows, minlen).value
    ensures x in ids || exists i :: 0 <= i < |rows| && Named(rows[i], x, minlen)
    decreases |rows|
  {
    if |rows| > 0 {
      var next := RecoverStep(ids, rows[0], minlen).value;
      RecoverSources(next, rows[1..], minlen, x);
      if x !in ids && x in next {
        assert Named(rows[0], x, minlen);
      } else if x !in next {
        var i :| 0 <= i < |rows[1..]| && Named(rows[1..][i], x, minlen);
        assert rows[i + 1] == rows[1..][i];
      }
    }
  }

  /** The name of every long segment is in the result, wherever it stands. */
  lemma {:induction false} RecoverLong(ids: set<string>, rows: seq<seq<string>>, minlen: nat, i: nat)
    requires Rows(rows) && Recover(ids, rows, minlen).Some?
    requires i < |rows| && LongSegment(rows[i], minlen)
    ensures rows[i][1] in Recover(ids, rows, minlen).value
    decreases |rows|
  {
    var next := RecoverStep(ids, rows[0], minlen).value;
    if i > 0 {
      assert rows[1..][i - 1] == rows[i];
      RecoverLong(next, rows[1..], minlen, i - 1);
    }
  }

  /**
   A link puts both its endpoints into the result when one of them is in the
   set built from the rows before it, and adds nothing when neither is: the
   pass is not repeated until nothing changes.
   */
  lemma {:induction false} RecoverLink(ids: set<string>, rows: seq<seq<string>>, minlen: nat, i: nat)
    requires Rows(rows) && Recover(ids, rows, minlen).Some? && i < |rows| && IsLink(rows[i])
    ensures Rows(rows[..i]) && Recover(ids, rows[..i], minlen).Some?
    ensures var before := Recover(ids, rows[..i], minlen).value;
      var result := Recover(ids, rows, minlen).value;
      && ((rows[i][1] in before || rows[i][3] in before) ==> rows[i][1] in result && rows[i][3] in result)
      && (rows[i][1] !in before && rows[i][3] !in before ==> RecoverStep(before, rows[i], minlen) == Some(before))
  {
    RecoverAt(ids, rows, minlen, i);
  }

  lemma {:induction false} RecoverAt(ids: set<string>, rows: seq<seq<string>>, minlen: nat, i: nat)
    requires Rows(rows) && i < |rows| && Recover(ids, rows, minlen).Some?
    ensures Rows(rows[..i]) && Recover(ids, rows[..i], minlen).Some?
    ensures var before := Recover(ids, rows[..i], minlen).value;
      RecoverStep(before, rows[i], minlen).Some?
      && RecoverStep(before, rows[i], minlen).value <= Recover(ids, rows, minlen).value
  {
    var a, b := rows[..i], rows[i..];
    assert rows == a + b;
    assert b == [rows[i]] + b[1..];
    assert Rows(a) && Rows(b) && Rows(b[1..]) by {
      assert forall k :: 0 <= k < |a| ==> a[k] == rows[k];
      assert forall k :: 0 <= k < |b| ==> b[k] == rows[i + k];
    }
    RecoverAppend(ids, a, b, minlen);
  }

  /** A link whose endpoint comes in only later adds nothing: a link first, then the long segment it names. */
  lemma {:induction false} RecoverOrderMatters()
    ensures Recover(NoIds, [["L", "a", "+", "b", "+", "0M"], ["S", "a", "ACGT"]], 4) == Some({"a"})
    ensures Recover(NoIds, [["S", "a", "ACGT"], ["L", "a", "+", "b", "+", "0M"]], 4) == Some({"a", "b"})
  {
    var link, seg := ["L", "a", "+", "b", "+", "0M"], ["S", "a", "ACGT"];
    assert link[0] == "L" && link[1] == "a" && link[3] == "b";
    assert seg[0] == "S" && seg[1] == "a" && |seg[2]| == 4;
    assert "L" != "H" && "L" != "S" by { assert "L"[0] != "H"[0] && "L"[0] != "S"[0]; }
    assert "S" != "H" by { assert "S"[0] != "H"[0]; }
    assert "a" != "b" by { assert "a"[0] != "b"[0]; }
    var none: seq<seq<string>> := [];
    assert [link, seg][1..] == [seg] && [seg][1..] == none;
    assert [seg, link][1..] == [link] && [link][1..] == none;
    assert RecoverStep(NoIds, link, 4) == Some(NoIds);
    var one: set<string> := {"a"};
    assert link[1] in one;
    assert one + {link[1], link[3]} == {"a", "b"};
    assert RecoverStep(one, link, 4) == Some({"a", "b"});
    assert NoIds + {seg[1]} == one;
    assert RecoverStep(NoIds, seg, 4) == Some(one);
    assert Recover(one, [link], 4) == Some({"a", "b"});
    assert Recover(NoIds, [seg], 4) == Some(one);
  }

  // ----- filter_gfa -----

  /** Whether `filter_gfa` prints a row, given the final set. */
  predicate Keep(row: seq<string>, ids: set<string>)
    requires Wide(row)
  {
    if row[0] == "S" then row[1] in ids
    else if row[0] == "L" then row[1] in ids || row[3] in ids
    else true
  }

  predicate AllWide(rows: seq<seq<string>>) {
    forall i :: 0 <= i < |rows| ==> Wide(rows[i])
  }

  /** The printed lines: every kept row joined with tabs again. */
  function Filter(rows: seq<seq<string>>, ids: set<string>): (out: seq<string>)
    requires AllWide(rows)
    ensures |out| <= |rows|
  {
    if |rows| == 0 then []
    else (if Keep(rows[0], ids) then [Join(rows[0], "\t")] else []) + Filter(rows[1..], ids)
  }

  predicate Increasing(idx: seq<nat>) {
    forall k, l :: 0 <= k < l < |idx| ==> idx[k] < idx[l]
  }

  function Shift(xs: seq<nat>): (ys: seq<nat>)
    ensures |ys| == |xs| && forall k :: 0 <= k < |xs| ==> ys[k] == xs[k] + 1
  {
    if |xs| == 0 then [] else [xs[0] + 1] + Shift(xs[1..])
  }

  /** The positions of the rows `filter_gfa` prints, in order. */
  function Chosen(rows: seq<seq<string>>, ids: set<string>): (idx: seq<nat>)
    requires AllWide(rows)
    ensures |idx| <= |rows|
  {
    if |rows| == 0 then []
    else (if Keep(rows[0], ids) then [0] else []) + Shift(Chosen(rows[1..], ids))
  }

  /** Every chosen position holds a row that is printed. */
  lemma {:induction false} ChosenKept(rows: seq<seq<string>>, ids: set<string>)
    requires AllWide(rows)
    ensures forall k :: 0 <= k < |Chosen(rows, ids)| ==>
      Chosen(rows, ids)[k] < |rows| && Keep(rows[Chosen(rows, ids)[k]], ids)
    decreases |rows|
  {
    if |rows| > 0 {
      ChosenKept(rows[1..], ids);
      var tail := Chosen(rows[1..], ids);
      assert forall k :: 0 <= k < |tail| ==> rows[1..][tail[k]] == rows[tail[k] + 1];
    }
  }

  /** The chosen positions are in input order. */
  lemma {:induction false} ChosenIncreasing(rows: seq<seq<string>>, ids: set<string>)
    requires AllWide(rows)
    ensures Increasing(Chosen(rows, ids))
    decreases |rows|
  {
    if |rows| > 0 {
      ChosenIncreasing(rows[1..], ids);
    }
  }

  /** Every printed row is chosen. */
  lemma {:induction false} ChosenComplete(rows: seq<seq<string>>, ids: set<string>, i: nat)
    requires AllWide(rows) && i < |rows| && Keep(rows[i], ids)
    ensures i in Chosen(rows, ids)
    decreases |rows|
  {
    var t := rows[1..];
    AllWideTail(rows);
    var head: seq<nat> := if Keep(rows[0], ids) then [0] else [];
    var tail := Chosen(t, ids);
    assert Chosen(rows, ids) == head + Shift(tail);
    if i > 0 {
      assert t[i - 1] == rows[i];
      ChosenComplete(t, ids, i - 1);
      ShiftIn(tail, i - 1);
      AppendIn(head, Shift(tail), i);
    } else {
      assert head[0] == 0;
      AppendLeft(head, Shift(tail), 0);
    }
  }

  lemma {:induction false} ShiftIn(xs: seq<nat>, x: nat)
    requires x in xs
    ensures x + 1 in Shift(xs)
  {
    var k :| 0 <= k < |xs| && xs[k] == x;
    assert Shift(xs)[k] == x + 1;
  }

  lemma {:induction false} AppendIn<T>(a: seq<T>, b: seq<T>, x: T)
    requires x in b
    ensures x in a + b
  {
    var k :| 0 <= k < |b| && b[k] == x;
    assert (a + b)[|a| + k] == x;
  }

  lemma {:induction false} AppendLeft<T>(a: seq<T>, b: seq<T>, x: T)
    requires x in a
    ensures x in a + b
  {
    var k :| 0 <= k < |a| && a[k] == x;
    assert (a + b)[k] == x;
  }

  lemma {:induction false} AllWideTail(rows: seq<seq<string>>)
    requires |rows| > 0 && AllWide(rows)
    ensures AllWide(rows[1..])
  {
    forall i | 0 <= i < |rows| - 1 ensures Wide(rows[1..][i]) {
      assert rows[1..][i] == rows[i + 1];
    }
  }

  /** `filter_gfa` prints exactly the chosen rows, in input order: an order-preserving subsequence. */
  lemma {:induction false} FilterChosen(rows: seq<seq<string>>, ids: set<string>)
    requires AllWide(rows)
    ensures |Chosen(rows, ids)| <= |rows|
    ensures var idx := Chosen(rows, ids);
      && Increasing(idx)
      && (forall k :: 0 <= k < |idx| ==> idx[k] < |rows| && Keep(rows[idx[k]], ids))
      && (forall i :: 0 <= i < |rows| && Keep(rows[i], ids) ==> i in idx)
      && |Filter(rows, ids)| == |idx|
      && forall k :: 0 <= k < |idx| ==> Filter(rows, ids)[k] == Join(rows[idx[k]], "\t")
  {
    ChosenKept(rows, ids);
    ChosenIncreasing(rows, ids);
    forall i | 0 <= i < |rows| && Keep(rows[i], ids) ensures i in Chosen(rows, ids) {
      ChosenComplete(rows, ids, i);
    }
    FilterAt(rows, ids);
  }

  lemma {:induction false} FilterAt(rows: seq<seq<string>>, ids: set<string>)
    requires AllWide(rows)
    ensures var idx := Chosen(rows, ids);
      |Filter(rows, ids)| == |idx|
      && forall k :: 0 <= k < |idx| ==> idx[k] < |rows| && Filter(rows, ids)[k] == Join(rows[idx[k]], "\t")
    decreases |rows|
  {
    if |rows| > 0 {
      var t := rows[1..];
      AllWideTail(rows);
      FilterAt(t, ids);
      var tail, ft := Chosen(t, ids), Filter(t, ids);
      var head := if Keep(rows[0], ids) then [0] else [];
      var fh := if Keep(rows[0], ids) then [Join(rows[0], "\t")] else [];
      var idx, out := Chosen(rows, ids), Filter(rows, ids);
      assert idx == head + Shift(tail);
      assert out == fh + ft;
      forall k | 0 <= k < |idx| ensures idx[k] < |rows| && out[k] == Join(rows[idx[k]], "\t") {
        if k >= |head| {
          var j := k - |head|;
          assert idx[k] == Shift(tail)[j] == tail[j] + 1;
          assert out[k] == ft[j];
          assert t[tail[j]] == rows[tail[j] + 1];
        }
      }
    }
  }

  /**
   `filter_gfa` with an already resolved minimum length: the set from the
   first pass, then the printed lines of the second; `None` where the first
   pass raises.
   */
  function FilterGfaRun(raw: seq<string>, minlen: nat): (out: Option<seq<string>>)
    ensures out.Some? <==> AllWide(ReadTsv(raw))
  {
    var rows := ReadTsv(raw);
    RecoverRaises(NoIds, rows, minlen);
    match Recover(NoIds, rows, minlen)
    case None => None
    case Some(ids) => Some(Filter(rows, ids))
  }

  /** Every printed line is one of the stripped input lines, and they come in input order. */
  lemma {:induction false} FilterGfaLines(raw: seq<string>, minlen: nat)
    requires FilterGfaRun(raw, minlen).Some?
    ensures var rows := ReadTsv(raw);
      var ids := Recover(NoIds, rows, minlen).value;
      var idx := Chosen(rows, ids);
      var out := FilterGfaRun(raw, minlen).value;
      |out| == |idx| && forall k :: 0 <= k < |idx| ==> idx[k] < |KeptLines(raw)| && out[k] == KeptLines(raw)[idx[k]]
  {
    var rows := ReadTsv(raw);
    var ids := Recover(NoIds, rows, minlen).value;
    FilterChosen(rows, ids);
    ReadTsvLines(raw);
    JoinedAt(rows);
  }

  lemma {:induction false} JoinedAt(rows: seq<seq<string>>)
    ensures forall i :: 0 <= i < |rows| ==> Joined(rows)[i] == Join(rows[i], "\t")
    decreases |rows|
  {
    if |rows| > 0 {
      JoinedAt(rows[1..]);
    }
  }
}

=== FILE: merge_bam.dfy ===
/**
 merge_bam.py: groups alignment files by the sample named in their file
 names and decides, per sample, whether its single file is copied or its
 files are merged into `sample.bam`.
 */
module MergeBam {
  import opened Text

  // ----- get_sample -----

  /**
   `w` is the text of `x` up to the first place where `a` or `b` occurs, or
   all of `x` when neither does.
   */
  predicate FirstCut(x: string, w: string, a: string, b: string) {
    StartsWith(x, w)
    && (forall j :: 0 <= j < |w| ==> !OccursAt(x, a, j) && !OccursAt(x, b, j))
    && (|w| == |x| || OccursAt(x, a, |w|) || OccursAt(x, b, |w|))
  }

  /** The text after the first `--` of a name that holds one. */
  function AfterDashes(name: string): string
    requires Contains(name, "--")
  {
    var k := Find(name, "--").value;
    name[k + 2..]
  }

  /**
   `get_sample(file)`: in the last `/` component, the second `--` piece cut
   at `.bam`, or without `--` the text before the first `.`.
   */
  function GetSample(file: string): (sample: string)
    ensures Contains(LastComponent(file), "--") ==> !Contains(sample, ".bam")
    ensures !Contains(LastComponent(file), "--") ==> !Contains(sample, ".")
  {
    var name := LastComponent(file);
    if Contains(name, "--") then
      var parts := Split(name, "--");
      assert |parts| >= 2;
      SplitPieces(parts[1], ".bam");
      Split(parts[1], ".bam")[0]
    else
      SplitPieces(name, ".");
      Split(name, ".")[0]
  }

  /**
   Which part of the name the sample is: with `--` in the last component,
   the text after the first `--` up to the next `--` or `.bam`; without,
   the text before the first `.`. `FirstCutUnique` makes this determine it.
   */
  lemma {:induction false} GetSampleSpec(file: string)
    ensures var name := LastComponent(file);
      Contains(name, "--") ==> FirstCut(AfterDashes(name), GetSample(file), "--", ".bam")
    ensures var name := LastComponent(file);
      !Contains(name, "--") ==> FirstCut(name, GetSample(file), ".", ".")
  {
    var name := LastComponent(file);
    if Contains(name, "--") {
      var parts := Split(name, "--");
      var x := AfterDashes(name);
      SplitFirst(name, "--", Find(name, "--").value);
      assert parts[1] == Split(x, "--")[0];
      FirstPieceCut(x, "--");
      FirstPieceCut(parts[1], ".bam");
      CutThenCut(x, parts[1], Split(parts[1], ".bam")[0]);
    } else {
      FirstPieceCut(name, ".");
    }
  }

  /** The first piece of a split is the text before the first occurrence of the separator. */
  lemma {:induction false} FirstPieceCut(x: string, sep: string)
    requires |sep| > 0
    ensures FirstCut(x, Split(x, sep)[0], sep, sep)
  {
    match Find(x, sep)
    case None =>
      assert Split(x, sep)[0] == x;
      forall j | 0 <= j < |x| ensures !OccursAt(x, sep, j) {
        assert !Contains(x, sep);
      }
    case Some(i) =>
      assert Split(x, sep)[0] == x[..i];
  }

  /** Cutting at the first `--` and then at the first `.bam` is cutting at whichever comes first. */
  lemma {:induction false} CutThenCut(x: string, piece: string, w: string)
    requires FirstCut(x, piece, "--", "--")
    requires FirstCut(piece, w, ".bam", ".bam")
    ensures FirstCut(x, w, "--", ".bam")
  {
    assert x[..|piece|] == piece;
    assert piece[..|w|] == w;
    assert x[..|w|] == w;
    forall j | 0 <= j < |w| ensures !OccursAt(x, ".bam", j) {
      if j + 4 <= |piece| {
        assert x[j..j + 4] == piece[j..j + 4];
        assert !OccursAt(piece, ".bam", j);
      } else if |piece| < |x| {
        assert x[|piece|] == x[|piece|..|piece| + 2][0] == '-';
        assert j + 4 <= |x| ==> x[j..j + 4][|piece| - j] == '-';
        assert forall k :: 0 <= k < 4 ==> ".bam"[k] != '-';
      }
    }
    if |w| < |piece| {
      assert OccursAt(piece, ".bam", |w|);
      assert x[|w|..|w| + 4] == piece[|w|..|w| + 4];
    }
  }

  /** At most one prefix of `x` stops at the first occurrence of `a` or `b`. */
  lemma {:induction false} FirstCutUnique(x: string, w1: string, w2: string, a: string, b: string)
    requires FirstCut(x, w1, a, b) && FirstCut(x, w2, a, b)
    ensures w1 == w2
  {
    if |w1| < |w2| {
      assert false;
    } else if |w2| < |w1| {
      assert false;
    } else {
      assert w1 == x[..|w1|] == w2;
    }
  }

  /** Only the last path component counts. */
  lemma {:induction false} SampleOfName(d: string, n: string)
    requires NoChar(n, '/')
    ensures GetSample(d + "/" + n) == GetSample(n)
  {
    LastComponentAfter(d, n);
    LastComponentPlain(n);
  }

  /** A name without `--`: the sample is the text before the first dot. */
  lemma {:induction false} SamplePlain(p: string, r: string)
    requires NoChar(p + "." + r, '/') && !Contains(p + "." + r, "--") && NoChar(p, '.')
    ensures GetSample(p + "." + r) == p
  {
    var name := p + "." + r;
    LastComponentPlain(name);
    assert FirstCut(name, p, ".", ".") by {
      assert name[..|p|] == p;
      forall j | 0 <= j < |p| ensures !OccursAt(name, ".", j) {
        assert name[j..j + 1][0] == p[j];
      }
      assert name[|p|..|p| + 1] == ".";
    }
    GetSampleSpec(name);
    FirstCutUnique(name, p, GetSample(name), ".", ".");
  }

  /**
   A name `p--m.bam...` whose first `--` is the one after `p`, with neither
   `--` nor `.bam` in `m`: the sample is `m`.
   */
  lemma {:induction false} SampleDashed(p: string, m: string, r: string)
    requires NoChar(p + "--" + m + ".bam" + r, '/')
    requires !Contains(p + "-", "--") && !Contains(m, "--") && !Contains(m, ".bam")
    ensures GetSample(p + "--" + m + ".bam" + r) == m
  {
    var x := m + ".bam" + r;
    var name := p + "--" + x;
    assert p + "--" + m + ".bam" + r == name;
    LastComponentPlain(name);
    DashesAfter(p, x);
    assert AfterDashes(name) == x;
    StopsAtBam(m, r);
    GetSampleSpec(name);
    FirstCutUnique(x, m, GetSample(name), "--", ".bam");
  }

  /** The first `--` of `p--x` is the one after `p` when `p` followed by a dash holds none. */
  lemma {:induction false} DashesAfter(p: string, x: string)
    requires !Contains(p + "-", "--")
    ensures Contains(p + "--" + x, "--") && Find(p + "--" + x, "--") == Some(|p|)
  {
    var name := p + "--" + x;
    var q := p + "-";
    assert OccursAt(name, "--", |p|) by {
      assert name[|p|..|p| + 2] == "--";
    }
    assert Contains(name, "--");
    var k := Find(name, "--").value;
    if k < |p| {
      assert name[k..k + 2] == q[k..k + 2];
      assert OccursAt(q, "--", k);
      assert false;
    }
  }

  /** In `m.bam...`, with neither `--` nor `.bam` in `m`, the first cut is `m`. */
  lemma {:induction false} StopsAtBam(m: string, r: string)
    requires !Contains(m, "--") && !Contains(m, ".bam")
    ensures FirstCut(m + ".bam" + r, m, "--", ".bam")
  {
    var x := m + ".bam" + r;
    assert x[..|m|] == m;
    assert x[|m|..|m| + 4] == ".bam";
    forall j | 0 <= j < |m| ensures !OccursAt(x, "--", j) && !OccursAt(x, ".bam", j) {
      if j + 2 <= |m| {
        assert x[j..j + 2] == m[j..j + 2];
        assert !OccursAt(m, "--", j);
      } else {
        assert j + 1 == |m| && x[|m|] == '.';
        assert x[j..j + 2][1] == x[|m|];
      }
      if j + 4 <= |m| {
        assert x[j..j + 4] == m[j..j + 4];
        assert !OccursAt(m, ".bam", j);
      } else {
        assert x[j..j + 4][|m| - j] == x[|m|] == '.';
        assert forall k :: 1 <= k < 4 ==> ".bam"[k] != '.';
      }
    }
  }

  // ----- sort_file -----

  /** One entry of `data`: a sample and its files in input order. */
  datatype Group = Group(sample: string, files: seq<string>)

  function Samples(gs: seq<Group>): (ss: seq<string>)
    ensures |ss| == |gs| && forall k :: 0 <= k < |gs| ==> ss[k] == gs[k].sample
  {
    if |gs| == 0 then [] else [gs[0].sample] + Samples(gs[1..])
  }

  predicate Distinct(ss: seq<string>) {
    forall i, j :: 0 <= i < j < |ss| ==> ss[i] != ss[j]
  }

  predicate NonEmpty(gs: seq<Group>) {
    forall k :: 0 <= k < |gs| ==> |gs[k].files| > 0
  }

  /** `data[name].append(file)`, the entry created at the end the first time `name` is seen. */
  function AddFile(gs: seq<Group>, name: string, file: string): (r: seq<Group>)
    ensures |gs| <= |r| <= |gs| + 1
    decreases |gs|
  {
    if |gs| == 0 then [Group(name, [file])]
    else if gs[0].sample == name then [Group(name, gs[0].files + [file])] + gs[1..]
    else [gs[0]] + AddFile(gs[1..], name, file)
  }

  /** `sort_file(files)`: the dictionary in insertion order. */
  function SortFile(files: seq<string>): seq<Group>
    decreases |files|
  {
    if |files| == 0 then []
    else
      var last := files[|files| - 1];
      AddFile(SortFile(files[..|files| - 1]), GetSample(last), last)
  }

  /** The files whose sample is `s`, in input order. */
  function Select(files: seq<string>, s: string): seq<string>
    decreases |files|
  {
    if |files| == 0 then []
    else
      var last := files[|files| - 1];
      Select(files[..|files| - 1], s) + (if GetSample(last) == s then [last] else [])
  }

  /** The files of the first group for `s`, or none. */
  function FilesOf(gs: seq<Group>, s: string): seq<string> {
    if |gs| == 0 then [] else if gs[0].sample == s then gs[0].files else FilesOf(gs[1..], s)
  }

  /** The sample of every file, in input order. */
  function SampleNames(files: seq<string>): (ss: seq<string>)
    ensures |ss| == |files|
    decreases |files|
  {
    if |files| == 0 then [] else SampleNames(files[..|files| - 1]) + [GetSample(files[|files| - 1])]
  }

  /** `ss` without repeats, each value kept where it first occurs. */
  function FirstSeen(ss: seq<string>): seq<string>
    decreases |ss|
  {
    if |ss| == 0 then []
    else
      var seen := FirstSeen(ss[..|ss| - 1]);
      if ss[|ss| - 1] in seen then seen else seen + [ss[|ss| - 1]]
  }

  /** The index of the first occurrence of `x` in `ss`. */
  function FirstIndex(ss: seq<string>, x: string): (i: nat)
    requires x in ss
    ensures i < |ss| && ss[i] == x && x !in ss[..i]
    decreases |ss|
  {
    if ss[0] == x then 0
    else
      assert x in ss[1..] by { var k :| 0 <= k < |ss| && ss[k] == x; assert ss[1..][k - 1] == x; }
      var i := FirstIndex(ss[1..], x);
      assert ss[..i + 1] == [ss[0]] + ss[1..][..i];
      1 + i
  }

  /** The first occurrence is the only one with no occurrence before it. */
  lemma {:induction false} FirstIndexUnique(ss: seq<string>, x: string, i: nat)
    requires i < |ss| && ss[i] == x && x !in ss[..i]
    ensures FirstIndex(ss, x) == i
  {
    var f := FirstIndex(ss, x);
    assert forall k :: 0 <= k < i ==> ss[..i][k] == ss[k];
    assert forall k :: 0 <= k < f ==> ss[..f][k] == ss[k];
  }

  /** Appending a value leaves the first occurrences before it where they were. */
  lemma {:induction false} FirstIndexSnoc(ss: seq<string>, x: string, y: string)
    requires y in ss + [x]
    ensures y in ss ==> FirstIndex(ss + [x], y) == FirstIndex(ss, y)
    ensures y !in ss ==> FirstIndex(ss + [x], y) == |ss|
  {
    var t := ss + [x];
    if y in ss {
      var k := FirstIndex(ss, y);
      assert t[..k] == ss[..k];
      FirstIndexUnique(t, y, k);
    } else {
      assert t[..|ss|] == ss;
      FirstIndexUnique(t, y, |ss|);
    }
  }

  /**
   What `FirstSeen` keeps: every value of `ss` once, the values in the order
   of their first occurrence in `ss`.
   */
  lemma {:induction false} FirstSeenOrder(ss: seq<string>)
    ensures forall x :: x in FirstSeen(ss) <==> x in ss
    ensures forall i, j :: 0 <= i < j < |FirstSeen(ss)| ==>
      FirstSeen(ss)[i] in ss && FirstSeen(ss)[j] in ss
      && FirstIndex(ss, FirstSeen(ss)[i]) < FirstIndex(ss, FirstSeen(ss)[j])
    decreases |ss|
  {
    if |ss| > 0 {
      var init, x := ss[..|ss| - 1], ss[|ss| - 1];
      assert ss == init + [x];
      FirstSeenOrder(init);
      var seen := FirstSeen(init);
      forall y | y in seen ensures FirstIndex(ss, y) == FirstIndex(init, y) {
        FirstIndexSnoc(init, x, y);
      }
      if x !in seen {
        FirstIndexSnoc(init, x, x);
        forall i | 0 <= i < |seen| ensures FirstIndex(init, seen[i]) < |init| {
          assert seen[i] in seen;
        }
      }
    }
  }

  lemma {:induction false} AddFileFiles(gs: seq<Group>, name: string, file: string, s: string)
    ensures FilesOf(AddFile(gs, name, file), s) == FilesOf(gs, s) + (if s == name then [file] else [])
    decreases |gs|
  {
    if |gs| > 0 && gs[0].sample != name {
      AddFileFiles(gs[1..], name, file, s);
    }
  }

  lemma {:induction false} AddFileSamples(gs: seq<Group>, name: string, file: string)
    ensures Samples(AddFile(gs, name, file)) == Samples(gs) + (if name in Samples(gs) then [] else [name])
    ensures NonEmpty(gs) ==> NonEmpty(AddFile(gs, name, file))
    decreases |gs|
  {
    if |gs| > 0 {
      if gs[0].sample != name {
        AddFileSamples(gs[1..], name, file);
        assert Samples(gs) == [gs[0].sample] + Samples(gs[1..]);
        assert NonEmpty(gs) ==> NonEmpty(gs[1..]) by {
          forall k | 0 <= k < |gs| - 1 ensures gs[1..][k] == gs[k + 1] { }
        }
      } else {
        assert Samples(AddFile(gs, name, file)) == [name] + Samples(gs[1..]);
      }
    }
  }

  lemma {:induction false} DistinctSnoc(ss: seq<string>, x: string)
    requires Distinct(ss)
    ensures Distinct(ss + (if x in ss then [] else [x]))
  {
  }

  lemma {:induction false} SamplesFound(gs: seq<Group>, s: string)
    requires NonEmpty(gs)
    ensures s in Samples(gs) <==> FilesOf(gs, s) != []
    decreases |gs|
  {
    if |gs| > 0 {
      assert Samples(gs) == [gs[0].sample] + Samples(gs[1..]);
      assert NonEmpty(gs[1..]) by {
        forall k | 0 <= k < |gs| - 1 ensures gs[1..][k] == gs[k + 1] { }
      }
      SamplesFound(gs[1..], s);
    }
  }

  lemma {:induction false} FilesOfAt(gs: seq<Group>, k: nat)
    requires k < |gs| && Distinct(Samples(gs))
    ensures FilesOf(gs, gs[k].sample) == gs[k].files
    decreases |gs|
  {
    if k > 0 {
      assert Samples(gs)[0] != Samples(gs)[k];
      assert Distinct(Samples(gs[1..])) by {
        assert Samples(gs[1..]) == Samples(gs)[1..];
      }
      FilesOfAt(gs[1..], k - 1);
    }
  }

  /**
   `sort_file` as a whole: one group per sample in order of first
   appearance (`FirstSeen`, with `FirstSeenOrder`), no group empty, and the
   group of `s` holding exactly the files whose sample is `s`, in input
   order.
   */
  lemma {:induction false} SortFileSpec(files: seq<string>)
    ensures Distinct(Samples(SortFile(files))) && NonEmpty(SortFile(files))
    ensures Samples(SortFile(files)) == FirstSeen(SampleNames(files))
    ensures forall s :: FilesOf(SortFile(files), s) == Select(files, s)
    decreases |files|
  {
    if |files| > 0 {
      var init, last := files[..|files| - 1], files[|files| - 1];
      SortFileSpec(init);
      AddFileSamples(SortFile(init), GetSample(last), last);
      DistinctSnoc(Samples(SortFile(init)), GetSample(last));
      var names := SampleNames(files);
      assert names[..|names| - 1] == SampleNames(init);
      forall s ensures FilesOf(SortFile(files), s) == Select(files, s) {
        AddFileFiles(SortFile(init), GetSample(last), last, s);
      }
    }
  }

  /**
   Groups follow the files, not the alphabet: for `b.x` then `a.x` the group
   of `b` comes first, whichever letter sorts first.
   */
  lemma {:induction false} SortFileExample(b: char, a: char)
    requires b != a
    requires b != '/' && b != '.' && b != '-' && a != '/' && a != '.' && a != '-'
    ensures Samples(SortFile([[b] + ".x", [a] + ".x"])) == [[b], [a]]
  {
    var files := [[b] + ".x", [a] + ".x"];
    OneLetterSample(b);
    OneLetterSample(a);
    assert files[..1] == [[b] + ".x"] && files[..1][..0] == [];
    var g := [Group([b], [[b] + ".x"])];
    assert SortFile(files[..1]) == g;
    assert [b] != [a] by { assert [b][0] != [a][0]; }
    assert g[1..] == [];
    assert AddFile(g, [a], [a] + ".x") == [g[0]] + AddFile([], [a], [a] + ".x");
    assert SortFile(files) == [Group([b], [[b] + ".x"]), Group([a], [[a] + ".x"])];
  }

  /** A one-letter stem before `.x` is the sample. */
  lemma {:induction false} OneLetterSample(c: char)
    requires c != '/' && c != '.' && c != '-'
    ensures GetSample([c] + ".x") == [c]
  {
    var name := [c] + ".x";
    assert [c] + "." + "x" == name;
    assert !Contains(name, "--") by {
      forall i | 0 <= i <= |name| ensures !OccursAt(name, "--", i) {
        if i + 2 <= |name| {
          assert name[i..i + 2][0] == name[i] && name[i..i + 2][1] == name[i + 1];
        }
      }
    }
    SamplePlain([c], "x");
  }

  lemma {:induction false} SelectHas(files: seq<string>, s: string, f: string)
    ensures f in Select(files, s) <==> f in files && GetSample(f) == s
    decreases |files|
  {
    if |files| > 0 {
      var init := files[..|files| - 1];
      SelectHas(init, s, f);
      assert f in files <==> f in init || f == files[|files| - 1] by {
        assert files == init + [files[|files| - 1]];
      }
    }
  }

  /** Every file lies in exactly one group: the group of its own sample. */
  lemma {:induction false} ExactlyOneGroup(files: seq<string>, f: string, k: nat)
    requires f in files && k < |SortFile(files)|
    ensures f in SortFile(files)[k].files <==> SortFile(files)[k].sample == GetSample(f)
    ensures GetSample(f) in Samples(SortFile(files))
  {
    var gs := SortFile(files);
    SortFileSpec(files);
    FilesOfAt(gs, k);
    SelectHas(files, gs[k].sample, f);
    SelectHas(files, GetSample(f), f);
    SamplesFound(gs, GetSample(f));
  }

  // ----- run_merge_bam -----

  /** What `run_merge_bam` does for one sample; `Fail` is the `raise` for a sample without files. */
  datatype Action = Copy(source: string, target: string) | Merge(sources: seq<string>, target: string) | Fail(sample: string)

  function Act(g: Group): (a: Action)
    ensures |g.files| > 0 <==> !a.Fail?
  {
    var target := g.sample + ".bam";
    if |g.files| == 1 then Copy(g.files[0], target)
    else if |g.files| > 1 then Merge(g.files, target)
    else Fail(g.sample)
  }

  /** The action for every sample, in the order of the dictionary. */
  function RunMergeBam(files: seq<string>): (acts: seq<Action>)
    ensures |acts| == |SortFile(files)|
    ensures forall k :: 0 <= k < |acts| ==> acts[k] == Act(SortFile(files)[k])
  {
    var gs := SortFile(files);
    seq(|gs|, k requires 0 <= k < |gs| => Act(gs[k]))
  }

  /**
   Each sample's target is `sample.bam`; a sample with one file is copied,
   one with more is merged from all of them in input order, and the `raise`
   is never reached.
   */
  lemma {:induction false} RunMergeBamSpec(files: seq<string>, k: nat)
    requires k < |RunMergeBam(files)|
    ensures var s := SortFile(files)[k].sample;
      var a := RunMergeBam(files)[k];
      && !a.Fail?
      && a.target == s + ".bam"
      && (a.Copy? <==> |Select(files, s)| == 1)
      && (a.Copy? ==> a.source == Select(files, s)[0])
      && (a.Merge? ==> a.sources == Select(files, s))
  {
    var gs := SortFile(files);
    SortFileSpec(files);
    FilesOfAt(gs, k);
  }
}

=== FILE: move_file.dfy ===
/**
 move_file.py: every input file is moved to a directory (its own one, or
 the one given with `--path`) under a new name in which its old prefix, the
 text of its name before the first dot, is replaced by a new prefix.
 */
module MoveFile {
  import opened Text

  /** `file.strip().split('/')`: the components of the stripped path. */
  function Components(file: string): (cs: seq<string>)
    ensures |cs| >= 1
  {
    Split(Strip(file), "/")
  }

  /** The components rejoined with `/` give the stripped path back, and none holds a `/`. */
  lemma {:induction false} ComponentsJoin(file: string)
    ensures Join(Components(file), "/") == Strip(file)
    ensures forall k :: 0 <= k < |Components(file)| ==> !Contains(Components(file)[k], "/")
  {
    JoinSplit(Strip(file), "/");
    SplitPieces(Strip(file), "/");
  }

  /** `name.split('.')[0]`: the name up to its first dot. */
  function OldPrefix(name: string): (p: string)
    ensures StartsWith(name, p) && !Contains(p, ".")
    ensures p == name || (|p| < |name| && name[|p|] == '.')
  {
    SplitHead(name, ".");
    SplitPieces(name, ".");
    var f := Find(name, ".");
    assert f.Some? ==> name[f.value..f.value + 1][0] == name[f.value];
    Split(name, ".")[0]
  }

  /** `name.replace(oldp, prefix)`: every occurrence of the old prefix replaced by the new one. */
  function Rename(name: string, prefix: string): string {
    Replace(name, OldPrefix(name), prefix)
  }

  /** The new file name: the last component of the stripped path, renamed. */
  function NewName(file: string, prefix: string): string {
    Rename(LastComponent(Strip(file)), prefix)
  }

  /** The destination directory: the parent components rejoined with `/`, unless a path is given. */
  function Directory(file: string, path: string): string {
    if path == "" then
      var cs := Components(file);
      Join(cs[..|cs| - 1], "/")
    else path
  }

  /**
   What `r` holds before `b` is `a` itself or `a` with one `/` added; it is
   empty or ends in `/`; and nothing is added when `a` already qualifies.
   */
  predicate DirectoryPart(r: string, a: string, b: string) {
    |b| <= |r| &&
    var d := r[..|r| - |b|];
    (d == a || d == a + "/")
    && (d == "" || EndsWith(d, "/"))
    && ((a == "" || EndsWith(a, "/")) ==> d == a)
  }

  /** `os.path.join(a, b)` for two parts. */
  function PathJoin(a: string, b: string): (r: string)
    ensures EndsWith(r, b)
    ensures StartsWith(b, "/") ==> r == b
    ensures !StartsWith(b, "/") ==> StartsWith(r, a)
    ensures !StartsWith(b, "/") ==> DirectoryPart(r, a, b)
  {
    if StartsWith(b, "/") then b
    else if a == "" || EndsWith(a, "/") then a + b
    else a + "/" + b
  }

  /** The target `move_files` computes for one file, before `os.path.abspath` resolves its directory. */
  function Destination(file: string, path: string, prefix: string): string {
    PathJoin(Directory(file, path), NewName(file, prefix))
  }

  /** One `shutil.move(file, nfile)` call. */
  datatype Move = Move(source: string, target: string)

  /** The moves made, and whether `check_path` raised on the next file. */
  datatype MoveRun = MoveRun(moves: seq<Move>, failed: bool)

  /**
   The loop of `move_files` for any readiness test and target: each file in
   turn is moved to its target, and the loop stops with an exception at the
   first file that is not ready.
   */
  function Run(files: seq<string>, ready: string -> bool, target: string -> string): (run: MoveRun)
    ensures |run.moves| <= |files|
  {
    if |files| == 0 then MoveRun([], false)
    else if !ready(files[0]) then MoveRun([], true)
    else
      var rest := Run(files[1..], ready, target);
      MoveRun([Move(files[0], target(files[0]))] + rest.moves, rest.failed)
  }

  /**
   `move_files`: the target is the destination, and `check_path` raises for
   a file whose directory is not in `existing`.
   */
  function MoveFiles(files: seq<string>, path: string, prefix: string, existing: set<string>): MoveRun {
    Run(files, f => Directory(f, path) in existing, f => Destination(f, path, prefix))
  }

  /**
   The loop moves a prefix of the files, each to its own target and each
   one ready, and fails exactly when it stops short, at a file not ready.
   */
  lemma {:induction false} RunSpec(files: seq<string>, ready: string -> bool, target: string -> string)
    ensures var run := Run(files, ready, target);
      && (forall i :: 0 <= i < |run.moves| ==> run.moves[i] == Move(files[i], target(files[i])))
      && (forall i :: 0 <= i < |run.moves| ==> ready(files[i]))
      && (run.failed <==> |run.moves| < |files|)
      && (run.failed ==> !ready(files[|run.moves|]))
    decreases |files|
  {
    if |files| > 0 && ready(files[0]) {
      var tail := files[1..];
      RunSpec(tail, ready, target);
      var rest := Run(tail, ready, target);
      var run := Run(files, ready, target);
      assert run.moves == [Move(files[0], target(files[0]))] + rest.moves;
      forall i | 1 <= i < |run.moves|
        ensures run.moves[i] == Move(files[i], target(files[i])) && ready(files[i])
      {
        assert run.moves[i] == rest.moves[i - 1] && files[i] == tail[i - 1];
      }
      if run.failed {
        assert files[|run.moves|] == tail[|rest.moves|];
      }
    }
  }

  /** For `move_files`: each file moved is moved to its destination, into an existing directory, up to the first missing one. */
  lemma {:induction false} MoveFilesSpec(files: seq<string>, path: string, prefix: string, existing: set<string>)
    ensures var run := MoveFiles(files, path, prefix, existing);
      && |run.moves| <= |files|
      && (forall i :: 0 <= i < |run.moves| ==> run.moves[i] == Move(files[i], Destination(files[i], path, prefix)))
      && (forall i :: 0 <= i < |run.moves| ==> Directory(files[i], path) in existing)
      && (run.failed <==> |run.moves| < |files|)
      && (run.failed ==> Directory(files[|run.moves|], path) !in existing)
  {
    RunSpec(files, f => Directory(f, path) in existing, f => Destination(f, path, prefix));
  }

  // ----- the directory -----

  lemma {:induction false} JoinSnoc(ps: seq<string>, x: string, sep: string)
    requires |ps| >= 1
    ensures Join(ps + [x], sep) == Join(ps, sep) + sep + x
    decreases |ps|
  {
    if |ps| > 1 {
      assert (ps + [x])[1..] == ps[1..] + [x];
      JoinSnoc(ps[1..], x, sep);
    }
  }

  lemma {:induction false} SplitMore(s: string, sep: string)
    requires |sep| > 0 && Contains(s, sep)
    ensures |Split(s, sep)| >= 2
  {
  }

  /** The parts before the last of a split of `d/n`, `n` without `/`, rejoin to `d`. */
  lemma {:induction false} JoinInit(d: string, n: string)
    requires NoChar(n, '/')
    ensures var cs := Split(d + "/" + n, "/"); |cs| >= 2 && Join(cs[..|cs| - 1], "/") == d
  {
    var s := d + "/" + n;
    assert OccursAt(s, "/", |d|) by {
      assert s[|d|..|d| + 1] == "/";
    }
    SplitMore(s, "/");
    LastComponentAfter(d, n);
    var cs := Split(s, "/");
    JoinSplit(s, "/");
    var init := cs[..|cs| - 1];
    assert cs == init + [n];
    JoinSnoc(init, n, "/");
    var j := Join(init, "/");
    assert j + "/" + n == s;
    assert |j| == |d|;
    assert j == s[..|d|];
  }

  /** With no `--path`, a file `d/n` is moved within `d`. */
  lemma {:induction false} DirectoryInPlace(d: string, n: string)
    requires Trimmed(d + "/" + n) && NoChar(n, '/')
    ensures Directory(d + "/" + n, "") == d
    ensures LastComponent(Strip(d + "/" + n)) == n
  {
    assert Strip(d + "/" + n) == d + "/" + n;
    JoinInit(d, n);
    LastComponentAfter(d, n);
  }

  /** With no `--path`, a file without any `/` is moved within the working directory. */
  lemma {:induction false} DirectoryBare(n: string)
    requires Trimmed(n) && NoChar(n, '/')
    ensures Directory(n, "") == ""
    ensures LastComponent(Strip(n)) == n
  {
    SplitAbsent(n, '/');
    LastComponentPlain(n);
  }

  /** A relative file name joined to a directory is the last component of the result. */
  lemma {:induction false} PathJoinLast(a: string, b: string)
    requires NoChar(b, '/') && b != ""
    ensures LastComponent(PathJoin(a, b)) == b
  {
    assert !StartsWith(b, "/") by {
      assert b[0] != '/';
    }
    if a == "" {
      LastComponentPlain(b);
    } else if EndsWith(a, "/") {
      var d := a[..|a| - 1];
      assert a + b == d + "/" + b;
      LastComponentAfter(d, b);
    } else {
      LastComponentAfter(a, b);
    }
  }

  /** A file `d/n` moved with no `--path` lands at `d/` followed by its new name. */
  lemma {:induction false} DestinationInPlace(d: string, n: string, prefix: string)
    requires Trimmed(d + "/" + n) && NoChar(n, '/')
    requires d != "" && !EndsWith(d, "/") && !StartsWith(Rename(n, prefix), "/")
    ensures Destination(d + "/" + n, "", prefix) == d + "/" + Rename(n, prefix)
  {
    DirectoryInPlace(d, n);
  }

  /** The target's last component is the new name, whichever directory is chosen. */
  lemma {:induction false} DestinationName(file: string, path: string, prefix: string)
    requires NoChar(NewName(file, prefix), '/') && NewName(file, prefix) != ""
    ensures LastComponent(Destination(file, path, prefix)) == NewName(file, prefix)
  {
    PathJoinLast(Directory(file, path), NewName(file, prefix));
  }

  // ----- the new name -----

  /** The old prefix of `p.r` is `p` when `p` holds no dot. */
  lemma {:induction false} OldPrefixOf(p: string, r: string)
    requires NoChar(p, '.')
    ensures OldPrefix(p + "." + r) == p
  {
    var name := p + "." + r;
    assert OccursAt(name, ".", |p|) by {
      assert name[|p|..|p| + 1] == ".";
    }
    FindFirst(name, ".", |p|);
    SplitFirst(name, ".", |p|);
    assert name[..|p|] == p;
  }

  lemma {:induction false} NotAfterDot(p: string, r: string)
    requires p != "" && NoChar(p, '.') && !Contains(r, p)
    ensures !Contains("." + r, p)
  {
    var s := "." + r;
    forall j | 0 <= j <= |s| ensures !OccursAt(s, p, j) {
      if j == 0 {
        if |p| <= |s| {
          assert s[0..|p|][0] == '.' != p[0];
        }
      } else if j + |p| <= |s| {
        assert r[j - 1..j - 1 + |p|] == s[j..j + |p|];
        assert !OccursAt(r, p, j - 1);
      }
    }
  }

  /** `p.r` with `p` nowhere in `r` is renamed to `q.r`. */
  lemma {:induction false} RenameFront(p: string, r: string, q: string)
    requires p != "" && NoChar(p, '.') && !Contains(r, p)
    ensures Rename(p + "." + r, q) == q + "." + r
  {
    var t := "." + r;
    assert p + "." + r == p + t;
    OldPrefixOf(p, r);
    assert Rename(p + t, q) == Replace(p + t, p, q);
    ReplaceFront(p, t, q);
    NotAfterDot(p, r);
    ReplaceAbsent(t, p, q);
    assert q + t == q + "." + r;
  }

  /** Renaming to `q` and back to `p` restores the name when neither prefix occurs after the dot. */
  lemma {:induction false} RenameBack(p: string, r: string, q: string)
    requires p != "" && NoChar(p, '.') && !Contains(r, p)
    requires q != "" && NoChar(q, '.') && !Contains(r, q)
    ensures Rename(Rename(p + "." + r, q), p) == p + "." + r
  {
    RenameFront(p, r, q);
    RenameFront(q, r, p);
  }

  /** A name without a dot is its own old prefix, so it is replaced by the new prefix outright. */
  lemma {:induction false} RenameWhole(n: string, q: string)
    requires n != "" && NoChar(n, '.')
    ensures Rename(n, q) == q
  {
    SplitAbsent(n, '.');
    assert n + "" == n;
    ReplaceFront(n, "", q);
    assert Find("", n) == None;
  }

  /**
   A name starting with a dot has an empty old prefix, and Python's
   `replace("", q)` puts `q` before every character and at the end.
   */
  lemma {:induction false} RenameHidden(r: string, q: string)
    ensures Rename("." + r, q) == InsertAround("." + r, q)
  {
    var name := "." + r;
    assert OccursAt(name, ".", 0) by {
      assert name[0..1] == ".";
    }
    FindFirst(name, ".", 0);
    SplitFirst(name, ".", 0);
  }

  // ----- the run -----

  /** Files are handled one at a time: a run over `a + b` that gets through `a` goes on with `b` alone. */
  lemma {:induction false} RunAppend(a: seq<string>, b: seq<string>, ready: string -> bool, target: string -> string)
    requires !Run(a, ready, target).failed
    ensures Run(a + b, ready, target) ==
      MoveRun(Run(a, ready, target).moves + Run(b, ready, target).moves, Run(b, ready, target).failed)
    decreases |a|
  {
    if |a| > 0 {
      assert (a + b)[0] == a[0];
      assert (a + b)[1..] == a[1..] + b;
      RunAppend(a[1..], b, ready, target);
    } else {
      assert a + b == b;
    }
  }

  /** What `move_files` does with one file does not depend on the files before it, once they are moved. */
  lemma {:induction false} MoveFilesAppend(a: seq<string>, b: seq<string>, path: string, prefix: string, existing: set<string>)
    requires !MoveFiles(a, path, prefix, existing).failed
    ensures MoveFiles(a + b, path, prefix, existing) ==
      MoveRun(MoveFiles(a, path, prefix, existing).moves + MoveFiles(b, path, prefix, existing).moves,
              MoveFiles(b, path, prefix, existing).failed)
  {
    RunAppend(a, b, f => Directory(f, path) in existing, f => Destination(f, path, prefix));
  }
}

=== FILE: plot_read_length.dfy ===
/**
 plot_read_length.py: its FASTA and FASTQ readers (copied into
 add_assembly_edge.py, there without closing the file), the per-record
 length list `stat_length` and the `n50` statistic.
 */
module PlotReadLength {
  import opened Text
  import opened Records

  // ----- read_fasta -----

  /**
   The text accumulated so far: nothing yet, a record in progress, or `Raised`
   once `split()[0]` failed on a line taken for a header.
   */
  datatype FastaState = Empty | Open(id: string, body: string) | Raised

  /** At the end, `seq.split('\n')` has two parts exactly when some line was read. */
  function FastaFlush(st: FastaState): seq<Record> {
    if st.Open? then [Record(st.id, st.body)] else []
  }

  /**
   One stripped line. The first non-blank line is a header whether or not it
   starts with `>`. A later `>` line takes its id first (raising, if it has
   none, before anything is yielded) and then yields the record in progress.
   */
  function FastaStep(st: FastaState, l: Line): (seq<Record>, FastaState) {
    if st.Raised? || l.Blank? then ([], st)
    else if st.Empty? || l.header then
      match IdOf(l.text, '>')
      case None => ([], Raised)
      case Some(id) => (FastaFlush(st), Open(id, ""))
    else ([], Open(st.id, st.body + l.text))
  }

  function ScanFasta(st: FastaState, ls: seq<Line>): (seq<Record>, FastaState)
    decreases |ls|
  {
    if |ls| == 0 then ([], st)
    else
      var first := FastaStep(st, ls[0]);
      var rest := ScanFasta(first.1, ls[1..]);
      (first.0 + rest.0, rest.1)
  }

  function FastaEnd(run: (seq<Record>, FastaState)): Parse {
    if run.1.Raised? then Parse(run.0, true) else Parse(run.0 + FastaFlush(run.1), false)
  }

  function ReadFasta(raw: seq<string>): Parse
    requires IsLineStream(raw)
  {
    FastaEnd(ScanFasta(Empty, Lines(raw, '>')))
  }

  lemma {:induction false} ScanFastaAppend(st: FastaState, a: seq<Line>, b: seq<Line>)
    ensures ScanFasta(st, a + b).0 == ScanFasta(st, a).0 + ScanFasta(ScanFasta(st, a).1, b).0
    ensures ScanFasta(st, a + b).1 == ScanFasta(ScanFasta(st, a).1, b).1
    decreases |a|
  {
    if |a| > 0 {
      assert (a + b)[0] == a[0];
      assert (a + b)[1..] == a[1..] + b;
      ScanFastaAppend(FastaStep(st, a[0]).1, a[1..], b);
    } else {
      assert a + b == b;
    }
  }

  lemma {:induction false} ScanFastaRaised(ls: seq<Line>)
    ensures ScanFasta(Raised, ls).0 == [] && ScanFasta(Raised, ls).1 == Raised
    decreases |ls|
  {
    if |ls| > 0 {
      ScanFastaRaised(ls[1..]);
    }
  }

  predicate AllBlank(ls: seq<Line>) {
    forall i :: 0 <= i < |ls| ==> ls[i].Blank?
  }

  /** The reader is still empty after some lines exactly when it started empty and they were all blank. */
  lemma {:induction false} ScanFastaEmpty(st: FastaState, ls: seq<Line>)
    ensures ScanFasta(st, ls).1.Empty? <==> st.Empty? && AllBlank(ls)
    ensures st.Empty? && AllBlank(ls) ==> ScanFasta(st, ls).0 == []
    decreases |ls|
  {
    if |ls| > 0 {
      ScanFastaEmpty(FastaStep(st, ls[0]).1, ls[1..]);
      if AllBlank(ls[1..]) && ls[0].Blank? {
        assert AllBlank(ls) by {
          forall i | 1 <= i < |ls| ensures ls[i].Blank? { assert ls[i] == ls[1..][i - 1]; }
        }
      }
      if AllBlank(ls) {
        assert AllBlank(ls[1..]) by {
          forall i | 0 <= i < |ls| - 1 ensures ls[1..][i].Blank? { assert ls[1..][i] == ls[i + 1]; }
        }
      }
    }
  }

  /** Input without a non-blank line yields nothing. */
  lemma {:induction false} ReadFastaBlank(raw: seq<string>)
    requires IsLineStream(raw)
    requires forall i :: 0 <= i < |raw| ==> Strip(raw[i]) == ""
    ensures ReadFasta(raw) == Parse([], false)
  {
    var ls := Lines(raw, '>');
    assert AllBlank(ls);
    ScanFastaEmpty(Empty, ls);
  }

  lemma {:induction false} BodyScan(id: string, acc: string, ls: seq<Line>)
    requires CountHeaders(ls) == 0
    ensures ScanFasta(Open(id, acc), ls).0 == []
    ensures ScanFasta(Open(id, acc), ls).1 == Open(id, acc + Body(ls))
    decreases |ls|
  {
    if |ls| > 0 {
      var t := if ls[0].Text? then ls[0].text else "";
      assert FastaStep(Open(id, acc), ls[0]).1 == Open(id, acc + t) by {
        if ls[0].Blank? { assert acc + t == acc; }
      }
      BodyScan(id, acc + t, ls[1..]);
      assert acc + t + Body(ls[1..]) == acc + (t + Body(ls[1..]));
    } else {
      assert acc + Body(ls) == acc;
    }
  }

  /**
   The first line is taken for the header even without `>`; the following
   lines, `#` lines included, are concatenated into the sequence.
   */
  lemma {:induction false} ReadFastaBlock(h: string, body: seq<string>, id: string)
    requires IsLineStream([h] + body)
    requires Classify(h, '>').Text? && IdOf(Classify(h, '>').text, '>') == Some(id)
    requires CountHeaders(Lines(body, '>')) == 0
    ensures ReadFasta([h] + body) == Parse([Record(id, Body(Lines(body, '>')))], false)
  {
    var ls := Lines(body, '>');
    LinesAppend([h], body, '>');
    assert Lines([h] + body, '>') == [Classify(h, '>')] + ls;
    assert ([Classify(h, '>')] + ls)[1..] == ls;
    BodyScan(id, "", ls);
    assert "" + Body(ls) == Body(ls);
  }

  /** A `>` line with an id closes the open record, whatever it held, and restarts the reader. */
  lemma {:induction false} HeaderScan(id: string, body: string, ls: seq<Line>)
    requires |ls| > 0 && IsHeader(ls[0]) && IdOf(ls[0].text, '>').Some?
    ensures ScanFasta(Open(id, body), ls).0 == [Record(id, body)] + ScanFasta(Empty, ls).0
    ensures ScanFasta(Open(id, body), ls).1 == ScanFasta(Empty, ls).1
  {
    assert FastaStep(Open(id, body), ls[0]).1 == FastaStep(Empty, ls[0]).1;
  }

  lemma {:induction false} EndThen(ra: (seq<Record>, FastaState), rb: (seq<Record>, FastaState), whole: (seq<Record>, FastaState))
    requires ra.1.Open?
    requires whole.0 == ra.0 + (FastaFlush(ra.1) + rb.0) && whole.1 == rb.1
    ensures FastaEnd(whole) == Then(FastaEnd(ra), FastaEnd(rb))
  {
  }

  lemma {:induction false} SplitScan(la: seq<Line>, lb: seq<Line>)
    requires !AllBlank(la)
    requires |lb| > 0 && IsHeader(lb[0]) && IdOf(lb[0].text, '>').Some?
    ensures FastaEnd(ScanFasta(Empty, la + lb)) == Then(FastaEnd(ScanFasta(Empty, la)), FastaEnd(ScanFasta(Empty, lb)))
  {
    ScanFastaAppend(Empty, la, lb);
    ScanFastaEmpty(Empty, la);
    var ra, rb := ScanFasta(Empty, la), ScanFasta(Empty, lb);
    if ra.1.Raised? {
      ScanFastaRaised(lb);
    } else {
      HeaderScan(ra.1.id, ra.1.body, lb);
      EndThen(ra, rb, ScanFasta(Empty, la + lb));
    }
  }

  /** Once some line has been read, every `>` line with an id ends one record and starts the next. */
  lemma {:induction false} ReadFastaSplit(a: seq<string>, b: seq<string>)
    requires IsLineStream(a + b)
    requires exists i :: 0 <= i < |a| && Strip(a[i]) != ""
    requires |b| > 0 && IsHeader(Classify(b[0], '>')) && IdOf(Classify(b[0], '>').text, '>').Some?
    ensures IsLineStream(a) && IsLineStream(b)
    ensures ReadFasta(a + b) == Then(ReadFasta(a), ReadFasta(b))
  {
    LineStreamAppend(a, b);
    LinesAppend(a, b, '>');
    var i :| 0 <= i < |a| && Strip(a[i]) != "";
    assert !Lines(a, '>')[i].Blank?;
    SplitScan(Lines(a, '>'), Lines(b, '>'));
  }

  lemma {:induction false} AnonymousScan(l: Line, lb: seq<Line>, x: Line, lr: seq<Line>)
    requires l.Text? && IdOf(l.text, '>').Some?
    requires CountHeaders(lb) == 0 && Anonymous(x, '>')
    ensures FastaEnd(ScanFasta(Empty, [l] + (lb + ([x] + lr)))) == Parse([], true)
  {
    var id := IdOf(l.text, '>').value;
    assert ([l] + (lb + ([x] + lr)))[1..] == lb + ([x] + lr);
    ScanFastaAppend(Open(id, ""), lb, [x] + lr);
    BodyScan(id, "", lb);
    assert ([x] + lr)[1..] == lr;
    ScanFastaRaised(lr);
  }

  /** A `>` line without an id raises before the record in progress is yielded, so that record is lost. */
  lemma {:induction false} ReadFastaAnonymousLoses(h: string, body: seq<string>, x: string, rest: seq<string>)
    requires IsLineStream([h] + body + [x] + rest)
    requires Classify(h, '>').Text? && IdOf(Classify(h, '>').text, '>').Some?
    requires CountHeaders(Lines(body, '>')) == 0
    requires Anonymous(Classify(x, '>'), '>')
    ensures ReadFasta([h] + body + [x] + rest) == Parse([], true)
  {
    assert [h] + body + [x] + rest == [h] + (body + ([x] + rest));
    LinesAppend([h], body + ([x] + rest), '>');
    LinesAppend(body, [x] + rest, '>');
    LinesAppend([x], rest, '>');
    assert Lines([h], '>') == [Classify(h, '>')];
    assert Lines([x], '>') == [Classify(x, '>')];
    AnonymousScan(Classify(h, '>'), Lines(body, '>'), Classify(x, '>'), Lines(rest, '>'));
  }

  /**
   Two lines the FASTA reader cannot tell apart: both blank, or both text of
   the same kind with the same id and, off headers, the same text.
   */
  predicate Alike(a: Line, b: Line) {
    || (a.Blank? && b.Blank?)
    || (a.Text? && b.Text? && a.header == b.header && IdOf(a.text, '>') == IdOf(b.text, '>') && (a.header || a.text == b.text))
  }

  predicate AllAlike(a: seq<Line>, b: seq<Line>) {
    |a| == |b| && forall i :: 0 <= i < |a| ==> Alike(a[i], b[i])
  }

  lemma {:induction false} AllAlikeAppend(a1: seq<Line>, b1: seq<Line>, a2: seq<Line>, b2: seq<Line>)
    requires AllAlike(a1, b1) && AllAlike(a2, b2)
    ensures AllAlike(a1 + a2, b1 + b2)
  {
    forall i | 0 <= i < |a1 + a2| ensures Alike((a1 + a2)[i], (b1 + b2)[i]) {
      if i < |a1| {
        assert (a1 + a2)[i] == a1[i] && (b1 + b2)[i] == b1[i];
      } else {
        assert (a1 + a2)[i] == a2[i - |a1|] && (b1 + b2)[i] == b2[i - |a1|];
      }
    }
  }

  /** The reader's output depends on the lines only up to `Alike`. */
  lemma {:induction false} ScanFastaAlike(st: FastaState, a: seq<Line>, b: seq<Line>)
    requires AllAlike(a, b)
    ensures ScanFasta(st, a).0 == ScanFasta(st, b).0
    ensures ScanFasta(st, a).1 == ScanFasta(st, b).1
    decreases |a|
  {
    if |a| > 0 {
      assert FastaStep(st, a[0]) == FastaStep(st, b[0]);
      assert AllAlike(a[1..], b[1..]) by {
        forall i | 0 <= i < |a| - 1 ensures a[1..][i] == a[i + 1] && b[1..][i] == b[i + 1] { }
      }
      ScanFastaAlike(FastaStep(st, a[0]).1, a[1..], b[1..]);
    }
  }

  lemma {:induction false} RecordHeaderId(r: Record)
    requires WellFormedFasta([r])
    ensures IdOf(">" + r.id, '>') == Some(r.id)
  {
    assert [r][0] == r;
    HeaderLineRead(r.id, '>');
    assert ">" + r.id == ['>'] + r.id;
  }

  lemma {:induction false} RecordScan(st: FastaState, r: Record)
    requires WellFormedFasta([r]) && !st.Raised?
    ensures ScanFasta(st, RecordView(r)).0 == FastaFlush(st)
    ensures ScanFasta(st, RecordView(r)).1 == Open(r.id, r.sequence)
  {
    assert [r][0] == r;
    RecordHeaderId(r);
    var hd := RecordView(r);
    var s1 := FastaStep(st, hd[0]);
    assert s1.0 == FastaFlush(st) && s1.1 == Open(r.id, "");
    var s2 := FastaStep(s1.1, hd[1]);
    assert s2.0 == [] && s2.1 == Open(r.id, r.sequence) by {
      assert "" + r.sequence == r.sequence;
    }
    assert hd[1..] == [hd[1]];
    assert hd[1..][1..] == [];
    assert ScanFasta(s1.1, hd[1..]).0 == [] && ScanFasta(s1.1, hd[1..]).1 == s2.1;
  }

  lemma {:induction false} EndPrefix(pre: seq<Record>, x: (seq<Record>, FastaState), whole: (seq<Record>, FastaState))
    requires !x.1.Raised? && whole.0 == pre + x.0 && whole.1 == x.1
    ensures FastaEnd(whole) == Parse(pre + FastaEnd(x).records, false)
  {
  }

  lemma {:induction false} ScanFastaView(st: FastaState, rs: seq<Record>)
    requires WellFormedFasta(rs) && !st.Raised?
    ensures !ScanFasta(st, FastaView(rs)).1.Raised?
    ensures FastaEnd(ScanFasta(st, FastaView(rs))) == Parse(FastaFlush(st) + rs, false)
    decreases |rs|
  {
    if |rs| > 0 {
      var r := rs[0];
      WellFormedFastaSplit(rs);
      var next := Open(r.id, r.sequence);
      RecordScan(st, r);
      ScanFastaAppend(st, RecordView(r), FastaView(rs[1..]));
      ScanFastaView(next, rs[1..]);
      assert [r] + rs[1..] == rs;
      EndPrefix(FastaFlush(st), ScanFasta(next, FastaView(rs[1..])), ScanFasta(st, FastaView(rs)));
    } else {
      assert FastaView(rs) == [];
    }
  }

  /** Records written as `>id` and sequence lines read back unchanged, empty sequences included. */
  lemma {:induction false} ReadFastaRoundTrip(rs: seq<Record>)
    requires WellFormedFasta(rs)
    ensures IsLineStream(FastaLines(rs))
    ensures ReadFasta(FastaLines(rs)) == Parse(rs, false)
  {
    FastaLinesRead(rs);
    ScanFastaView(Empty, rs);
  }

  // ----- read_fastq -----

  /** Nothing read yet, a group (its id and the lines after the header), or `Halted` once `split()[0]` failed. */
  datatype FastqState = Start | Group(id: string, data: seq<string>) | Halted

  /** `seq.split('\n')[:2]` of a group: its id and its first line after the header, `""` if it has none. */
  function Yield(id: string, data: seq<string>): Record {
    Record(id, if |data| > 0 then data[0] else "")
  }

  /** What a later `@` line yields: the group in progress, whatever its size. */
  function FastqFlush(st: FastqState): seq<Record> {
    if st.Group? then [Yield(st.id, st.data)] else []
  }

  /** At the end a group is yielded only if `seq.split('\n')` has five parts: the header and three lines. */
  function FastqTail(st: FastqState): seq<Record> {
    if st.Group? && |st.data| == 3 then [Yield(st.id, st.data)] else []
  }

  /** One stripped line; the first non-blank line and every later `@` line start a group. */
  function FastqStep(st: FastqState, l: Line): (seq<Record>, FastqState) {
    if st.Halted? || l.Blank? then ([], st)
    else if st.Start? || l.header then
      match IdOf(l.text, '@')
      case None => ([], Halted)
      case Some(id) => (FastqFlush(st), Group(id, []))
    else ([], Group(st.id, st.data + [l.text]))
  }

  function ScanFastq(st: FastqState, ls: seq<Line>): (seq<Record>, FastqState)
    decreases |ls|
  {
    if |ls| == 0 then ([], st)
    else
      var first := FastqStep(st, ls[0]);
      var rest := ScanFastq(first.1, ls[1..]);
      (first.0 + rest.0, rest.1)
  }

  function FastqEnd(run: (seq<Record>, FastqState)): Parse {
    if run.1.Halted? then Parse(run.0, true) else Parse(run.0 + FastqTail(run.1), false)
  }

  function ReadFastq(raw: seq<string>): Parse
    requires IsLineStream(raw)
  {
    FastqEnd(ScanFastq(Start, Lines(raw, '@')))
  }

  lemma {:induction false} ScanFastqAppend(st: FastqState, a: seq<Line>, b: seq<Line>)
    ensures ScanFastq(st, a + b).0 == ScanFastq(st, a).0 + ScanFastq(ScanFastq(st, a).1, b).0
    ensures ScanFastq(st, a + b).1 == ScanFastq(ScanFastq(st, a).1, b).1
    decreases |a|
  {
    if |a| > 0 {
      assert (a + b)[0] == a[0];
      assert (a + b)[1..] == a[1..] + b;
      ScanFastqAppend(FastqStep(st, a[0]).1, a[1..], b);
    } else {
      assert a + b == b;
    }
  }

  lemma {:induction false} ScanFastqHalted(ls: seq<Line>)
    ensures ScanFastq(Halted, ls).0 == [] && ScanFastq(Halted, ls).1 == Halted
    decreases |ls|
  {
    if |ls| > 0 {
      ScanFastqHalted(ls[1..]);
    }
  }

  /** Lines that are neither blank nor `@` lines join the group as they are. */
  predicate DataLines(ls: seq<Line>) {
    forall i :: 0 <= i < |ls| ==> ls[i].Text? && !ls[i].header
  }

  lemma {:induction false} DataScan(id: string, d: seq<string>, ls: seq<Line>)
    requires DataLines(ls)
    ensures ScanFastq(Group(id, d), ls).0 == []
    ensures ScanFastq(Group(id, d), ls).1 == Group(id, d + Texts(ls))
    decreases |ls|
  {
    if |ls| > 0 {
      assert DataLines(ls[1..]) by {
        forall i | 0 <= i < |ls| - 1 ensures ls[1..][i] == ls[i + 1] { }
      }
      DataScan(id, d + [ls[0].text], ls[1..]);
      assert d + [ls[0].text] + Texts(ls[1..]) == d + Texts(ls);
    } else {
      assert d + Texts(ls) == d;
    }
  }

  /** A group started by line `l` and continued by data lines. */
  lemma {:induction false} GroupScan(st: FastqState, l: Line, id: string, ls: seq<Line>)
    requires !st.Halted? && l.Text? && (st.Start? || l.header) && IdOf(l.text, '@') == Some(id)
    requires DataLines(ls)
    ensures ScanFastq(st, [l] + ls).0 == FastqFlush(st)
    ensures ScanFastq(st, [l] + ls).1 == Group(id, Texts(ls))
  {
    assert ([l] + ls)[1..] == ls;
    DataScan(id, [], ls);
    assert [] + Texts(ls) == Texts(ls);
  }

  /** The first line of a data line list, stripped, or `""`. */
  function FirstData(data: seq<string>): string {
    if |data| > 0 then Strip(data[0]) else ""
  }

  lemma {:induction false} DataTexts(data: seq<string>)
    requires DataLines(Lines(data, '@'))
    ensures |Texts(Lines(data, '@'))| == |data|
    ensures |data| > 0 ==> Texts(Lines(data, '@'))[0] == Strip(data[0])
  {
  }

  /**
   A header, even one without `@`, and the lines after it up to the end: the
   record is yielded only if exactly three lines follow the header.
   */
  lemma {:induction false} ReadFastqBlock(h: string, data: seq<string>, id: string)
    requires IsLineStream([h] + data)
    requires Classify(h, '@').Text? && IdOf(Classify(h, '@').text, '@') == Some(id)
    requires DataLines(Lines(data, '@'))
    ensures ReadFastq([h] + data) == Parse(if |data| == 3 then [Record(id, FirstData(data))] else [], false)
  {
    LinesAppend([h], data, '@');
    assert Lines([h], '@') == [Classify(h, '@')];
    GroupScan(Start, Classify(h, '@'), id, Lines(data, '@'));
    DataTexts(data);
  }

  /** A later header with an id closes the group, yielding its first line whatever the group's size. */
  lemma {:induction false} ReadFastqBlockThen(h: string, data: seq<string>, b: seq<string>, id: string)
    requires IsLineStream([h] + data + b)
    requires Classify(h, '@').Text? && IdOf(Classify(h, '@').text, '@') == Some(id)
    requires DataLines(Lines(data, '@'))
    requires |b| > 0 && IsHeader(Classify(b[0], '@')) && IdOf(Classify(b[0], '@').text, '@').Some?
    ensures IsLineStream(b)
    ensures ReadFastq([h] + data + b) == Then(Parse([Record(id, FirstData(data))], false), ReadFastq(b))
  {
    LineStreamAppend([h] + data, b);
    LinesAppend([h] + data, b, '@');
    LinesAppend([h], data, '@');
    assert Lines([h], '@') == [Classify(h, '@')];
    var la, lb := [Classify(h, '@')] + Lines(data, '@'), Lines(b, '@');
    ScanFastqAppend(Start, la, lb);
    GroupScan(Start, Classify(h, '@'), id, Lines(data, '@'));
    DataTexts(data);
    var g := Group(id, Texts(Lines(data, '@')));
    GroupThen(g, lb);
    FastqEndPrefix(FastqFlush(g), ScanFastq(Start, lb), ScanFastq(Start, la + lb));
  }

  /** From a header with an id on, the output no longer depends on the state, apart from flushing it. */
  lemma {:induction false} GroupThen(st: FastqState, ls: seq<Line>)
    requires !st.Halted? && |ls| > 0 && IsHeader(ls[0]) && IdOf(ls[0].text, '@').Some?
    ensures ScanFastq(st, ls).0 == FastqFlush(st) + ScanFastq(Start, ls).0
    ensures ScanFastq(st, ls).1 == ScanFastq(Start, ls).1
  {
    assert FastqStep(st, ls[0]).1 == FastqStep(Start, ls[0]).1;
  }

  lemma {:induction false} FastqEndPrefix(pre: seq<Record>, x: (seq<Record>, FastqState), whole: (seq<Record>, FastqState))
    requires whole.0 == pre + x.0 && whole.1 == x.1
    ensures FastqEnd(whole) == Then(Parse(pre, false), FastqEnd(x))
  {
  }

  /** Entries this reader reads back: well formed, and no sequence or quality line starting with `@`. */
  predicate PlainFastq(es: seq<FastqEntry>) {
    && WellFormedFastq(es)
    && forall i :: 0 <= i < |es| ==> Unmarked(es[i].sequence, '@') && Unmarked(es[i].quality, '@')
  }

  lemma {:induction false} PlainFastqSplit(es: seq<FastqEntry>)
    requires |es| > 0 && PlainFastq(es)
    ensures PlainFastq([es[0]]) && PlainFastq(es[1..])
  {
    WellFormedFastqSplit(es);
    assert [es[0]][0] == es[0];
    forall i | 0 <= i < |es| - 1 ensures es[1..][i] == es[i + 1] { }
  }

  lemma {:induction false} EntryData(e: FastqEntry)
    requires PlainFastq([e])
    ensures DataLines(EntryView(e)[1..])
    ensures Texts(EntryView(e)[1..]) == [e.sequence, "+", e.quality]
  {
    assert [e][0] == e;
    var data := EntryView(e)[1..];
    assert data == [Text(e.sequence, false), Text("+", false), Text(e.quality, false)];
    assert data[1..] == [Text("+", false), Text(e.quality, false)];
    assert data[1..][1..] == [Text(e.quality, false)];
    assert data[1..][1..][1..] == [];
    assert Texts(data[1..][1..]) == [e.quality];
    assert Texts(data[1..]) == ["+", e.quality];
  }

  /** One entry read from a fresh reader or after a complete entry. */
  lemma {:induction false} EntryScan(st: FastqState, e: FastqEntry)
    requires st.Start? || (st.Group? && |st.data| == 3)
    requires PlainFastq([e])
    ensures ScanFastq(st, EntryView(e)).0 == FastqFlush(st)
    ensures ScanFastq(st, EntryView(e)).1 == Group(e.id, [e.sequence, "+", e.quality])
  {
    assert [e][0] == e;
    EntryHeaderRead(e);
    EntryData(e);
    var v := EntryView(e);
    assert v == [v[0]] + v[1..];
    GroupScan(st, v[0], e.id, v[1..]);
  }

  lemma {:induction false} EntryHeaderRead(e: FastqEntry)
    requires WellFormedId(e.id, '@')
    ensures IdOf("@" + e.id, '@') == Some(e.id)
  {
    HeaderLineRead(e.id, '@');
    assert "@" + e.id == ['@'] + e.id;
  }

  lemma {:induction false} ScanFastqView(st: FastqState, es: seq<FastqEntry>)
    requires st.Start? || (st.Group? && |st.data| == 3)
    requires PlainFastq(es)
    ensures FastqEnd(ScanFastq(st, FastqView(es))) == Parse(FastqFlush(st) + FastqRecords(es), false)
    decreases |es|
  {
    if |es| > 0 {
      var e, tail := es[0], es[1..];
      PlainFastqSplit(es);
      var g := Group(e.id, [e.sequence, "+", e.quality]);
      EntryScan(st, e);
      ScanFastqAppend(st, EntryView(e), FastqView(tail));
      ScanFastqView(g, tail);
      assert FastqRecords(es) == [Record(e.id, e.sequence)] + FastqRecords(tail);
      assert FastqFlush(g) == [Record(e.id, e.sequence)];
      FastqEndPrefix(FastqFlush(st), ScanFastq(g, FastqView(tail)), ScanFastq(st, FastqView(es)));
    } else {
      assert FastqView(es) == [];
    }
  }

  /** Four-line entries read back as their ids and sequences, provided no sequence or quality line starts with `@`. */
  lemma {:induction false} ReadFastqRoundTrip(es: seq<FastqEntry>)
    requires PlainFastq(es)
    ensures IsLineStream(FastqLines(es))
    ensures ReadFastq(FastqLines(es)) == Parse(FastqRecords(es), false)
  {
    FastqLinesRead(es);
    ScanFastqView(Start, es);
  }

  /** The first written line of a non-empty entry list is a header carrying the first id. */
  lemma {:induction false} FirstHeader(es: seq<FastqEntry>)
    requires |es| > 0 && WellFormedFastq(es)
    ensures IsHeader(Classify(FastqLines(es)[0], '@'))
    ensures IdOf(Classify(FastqLines(es)[0], '@').text, '@') == Some(es[0].id)
  {
    FastqLinesRead(es);
    WellFormedFastqSplit(es);
    assert Lines(FastqLines(es), '@')[0] == Classify(FastqLines(es)[0], '@');
    assert FastqView(es)[0] == EntryView(es[0])[0];
    assert [es[0]][0] == es[0];
    EntryHeaderRead(es[0]);
  }

  /** The sequence and `+` lines of an entry are data lines for this reader. */
  lemma {:induction false} MiddleLines(e: FastqEntry)
    requires WellFormedFastq([e]) && Unmarked(e.sequence, '@')
    ensures Lines([e.sequence + "\n", "+\n"], '@') == [Text(e.sequence, false), Text("+", false)]
    ensures DataLines(Lines([e.sequence + "\n", "+\n"], '@'))
    ensures FirstData([e.sequence + "\n", "+\n"]) == e.sequence
  {
    assert [e][0] == e;
    BodyLineRead(e.sequence, '@');
    BodyLineRead("+", '@');
    assert "+" + "\n" == "+\n";
    LinesPair(e.sequence + "\n", "+\n", '@');
    StripLine(e.sequence);
  }

  /**
   A quality line that starts with `@` is taken for a header: when another
   entry follows, the reader yields a spurious record named after the quality
   string, with an empty sequence.
   */
  lemma {:induction false} ReadFastqQualityHeader(e: FastqEntry, q: string, es: seq<FastqEntry>)
    requires WellFormedFastq([e]) && Unmarked(e.sequence, '@')
    requires !Unmarked(e.quality, '@') && IdOf(e.quality, '@') == Some(q)
    requires |es| > 0 && PlainFastq(es)
    ensures IsLineStream(EntryLines(e) + FastqLines(es))
    ensures ReadFastq(EntryLines(e) + FastqLines(es))
         == Parse([Record(e.id, e.sequence), Record(q, "")] + FastqRecords(es), false)
  {
    var h, mid, ql, fl := "@" + e.id + "\n", [e.sequence + "\n", "+\n"], e.quality + "\n", FastqLines(es);
    EntryHeadLines(e);
    QualityHeaderRead(e, q, es);
    LineStreamAppend([h] + mid, [ql] + fl);
    Regroup(h, mid[0], mid[1], ql, fl);
    assert ([ql] + fl)[0] == ql;
    ReadFastqBlockThen(h, mid, [ql] + fl, e.id);
    Regroup(Record(e.id, e.sequence), Record(q, ""), Record(q, ""), Record(q, ""), FastqRecords(es));
  }

  /** Regrouping a few leading elements. */
  lemma {:induction false} Regroup<T>(a: T, b: T, c: T, d: T, t: seq<T>)
    ensures [a, b, c, d] + t == [a] + [b, c] + ([d] + t)
    ensures [a] + ([b] + t) == [a, b] + t
  {
  }

  /** The header line of an entry opens a record named by its id, and the two lines after it are data. */
  lemma {:induction false} EntryHeadLines(e: FastqEntry)
    requires WellFormedFastq([e]) && Unmarked(e.sequence, '@')
    ensures Classify("@" + e.id + "\n", '@').Text?
    ensures IdOf(Classify("@" + e.id + "\n", '@').text, '@') == Some(e.id)
    ensures DataLines(Lines([e.sequence + "\n", "+\n"], '@'))
    ensures FirstData([e.sequence + "\n", "+\n"]) == e.sequence
    ensures IsLineStream(["@" + e.id + "\n", e.sequence + "\n", "+\n"])
  {
    assert [e][0] == e;
    EntryRead(e);
    LineStreamAppend(["@" + e.id + "\n", e.sequence + "\n", "+\n"], [e.quality + "\n"]);
    assert EntryLines(e) == ["@" + e.id + "\n", e.sequence + "\n", "+\n"] + [e.quality + "\n"];
    EntryHeaderRead(e);
    HeaderLineRead(e.id, '@');
    assert "@" + e.id + "\n" == ['@'] + e.id + "\n";
    MiddleLines(e);
  }

  /** The quality line taken for a header opens a record of its own, with no sequence line before the next header. */
  lemma {:induction false} QualityHeaderRead(e: FastqEntry, q: string, es: seq<FastqEntry>)
    requires WellFormedFastq([e])
    requires !Unmarked(e.quality, '@') && IdOf(e.quality, '@') == Some(q)
    requires |es| > 0 && PlainFastq(es)
    ensures IsLineStream([e.quality + "\n"] + FastqLines(es))
    ensures IsHeader(Classify(e.quality + "\n", '@'))
    ensures Classify(e.quality + "\n", '@').Text? && IdOf(Classify(e.quality + "\n", '@').text, '@') == Some(q)
    ensures ReadFastq([e.quality + "\n"] + FastqLines(es)) == Parse([Record(q, "")] + FastqRecords(es), false)
  {
    assert [e][0] == e;
    var ql, fl := e.quality + "\n", FastqLines(es);
    ReadFastqRoundTrip(es);
    BodyLineRead(e.quality, '@');
    LineStreamAppend([ql], fl);
    FirstHeader(es);
    NoData([ql], fl);
    ReadFastqBlockThen(ql, [], fl, q);
  }

  lemma {:induction false} NoData<T>(a: seq<T>, b: seq<T>)
    ensures a + [] + b == a + b
  {
  }

  // ----- stat_length -----

  /** The reader the suffix selects, applied to the lines. */
  function Source(file: string, raw: seq<string>): Parse
    requires IsLineStream(raw) && FormatOf(file).Some?
  {
    if FormatOf(file) == Some(Fasta) then ReadFasta(raw) else ReadFastq(raw)
  }

  function Lengths(rs: seq<Record>): (ns: seq<nat>)
    ensures |ns| == |rs|
    ensures forall i :: 0 <= i < |rs| ==> ns[i] == |rs[i].sequence|
  {
    if |rs| == 0 then [] else [|rs[0].sequence|] + Lengths(rs[1..])
  }

  /**
   `stat_length`: the sequence lengths in record order, or `None` where it
   raises (an unknown suffix, or a reader that raised part way).
   */
  function StatLength(file: string, raw: seq<string>): (r: Option<seq<nat>>)
    requires IsLineStream(raw)
    ensures r.Some? <==> FormatOf(file).Some? && !Source(file, raw).crashed
    ensures r.Some? ==> r.value == Lengths(Source(file, raw).records)
  {
    if FormatOf(file).None? then None
    else
      var p := Source(file, raw);
      if p.crashed then None else Some(Lengths(p.records))
  }

  /** The lengths of records written as FASTA under a FASTA name are their sequence lengths. */
  lemma {:induction false} StatLengthFasta(file: string, rs: seq<Record>)
    requires IsFastaName(file) && !IsFastqName(file) && WellFormedFasta(rs)
    ensures IsLineStream(FastaLines(rs))
    ensures StatLength(file, FastaLines(rs)) == Some(Lengths(rs))
  {
    ReadFastaRoundTrip(rs);
  }

  /** The same for FASTQ entries under a FASTQ name: one length per entry, that of its sequence line. */
  lemma {:induction false} StatLengthFastq(file: string, es: seq<FastqEntry>)
    requires IsFastqName(file) && PlainFastq(es)
    ensures IsLineStream(FastqLines(es))
    ensures StatLength(file, FastqLines(es)) == Some(Lengths(FastqRecords(es)))
  {
    ReadFastqRoundTrip(es);
  }

  // ----- n50 -----

  /** The sum of the values above `t`; `Mass(xs, -1)` is the plain sum. */
  function Mass(xs: seq<nat>, t: int): nat {
    if |xs| == 0 then 0 else (if xs[0] > t then xs[0] else 0) + Mass(xs[1..], t)
  }

  function Sum(xs: seq<nat>): nat {
    Mass(xs, -1)
  }

  /**
   The N50 of `xs`, stated without any sort: the values of at least `n` make
   up half the total or more, and (unless the total is zero) the values above
   `n` make up less than half.
   */
  predicate HalfPoint(xs: seq<nat>, n: nat) {
    && 2 * Mass(xs, n - 1) >= Sum(xs)
    && (Sum(xs) > 0 ==> 2 * Mass(xs, n) < Sum(xs))
  }

  lemma {:induction false} MassAppend(a: seq<nat>, b: seq<nat>, t: int)
    ensures Mass(a + b, t) == Mass(a, t) + Mass(b, t)
    decreases |a|
  {
    if |a| == 0 {
      assert a + b == b;
    } else {
      assert (a + b)[1..] == a[1..] + b;
      MassAppend(a[1..], b, t);
    }
  }

  /** A higher threshold never counts more. */
  lemma {:induction false} MassMono(xs: seq<nat>, s: int, t: int)
    requires s <= t
    ensures Mass(xs, t) <= Mass(xs, s)
    decreases |xs|
  {
    if |xs| > 0 {
      MassMono(xs[1..], s, t);
    }
  }

  lemma {:induction false} MassAll(xs: seq<nat>, t: int)
    requires forall i :: 0 <= i < |xs| ==> xs[i] > t
    ensures Mass(xs, t) == Sum(xs)
    decreases |xs|
  {
    if |xs| > 0 {
      MassAll(xs[1..], t);
    }
  }

  lemma {:induction false} MassNone(xs: seq<nat>, t: int)
    requires forall i :: 0 <= i < |xs| ==> xs[i] <= t
    ensures Mass(xs, t) == 0
    decreases |xs|
  {
    if |xs| > 0 {
      MassNone(xs[1..], t);
    }
  }

  predicate Descending(xs: seq<nat>) {
    forall i, j :: 0 <= i < j < |xs| ==> xs[i] >= xs[j]
  }

  /** Insertion into a descending list. */
  function Insert(x: nat, ys: seq<nat>): (r: seq<nat>)
    ensures multiset(r) == multiset(ys) + multiset{x}
    decreases |ys|
  {
    if |ys| == 0 || x >= ys[0] then [x] + ys
    else
      assert ys == [ys[0]] + ys[1..];
      [ys[0]] + Insert(x, ys[1..])
  }

  lemma {:induction false} InsertMass(x: nat, ys: seq<nat>, t: int)
    ensures Mass(Insert(x, ys), t) == Mass([x], t) + Mass(ys, t)
    decreases |ys|
  {
    if |ys| == 0 || x >= ys[0] {
      assert ([x] + ys)[1..] == ys;
    } else {
      InsertMass(x, ys[1..], t);
      assert ([ys[0]] + Insert(x, ys[1..]))[1..] == Insert(x, ys[1..]);
    }
  }

  lemma {:induction false} InsertDescending(x: nat, ys: seq<nat>)
    requires Descending(ys)
    ensures Descending(Insert(x, ys))
    decreases |ys|
  {
    if |ys| > 0 && x < ys[0] {
      InsertDescending(x, ys[1..]);
      var r := Insert(x, ys);
      assert r == [ys[0]] + Insert(x, ys[1..]);
      forall j | 0 < j < |r| ensures ys[0] >= r[j] {
        assert r[j] in multiset(Insert(x, ys[1..]));
        if r[j] != x {
          assert r[j] in multiset(ys[1..]);
          var k :| 0 <= k < |ys[1..]| && ys[1..][k] == r[j];
          assert ys[k + 1] == r[j];
        }
      }
    }
  }

  /** `sorted(xs, reverse=True)`, as insertion sort. */
  function SortDesc(xs: seq<nat>): (r: seq<nat>)
    ensures multiset(r) == multiset(xs) && |r| == |xs|
    decreases |xs|
  {
    if |xs| == 0 then []
    else
      assert xs == [xs[0]] + xs[1..];
      Insert(xs[0], SortDesc(xs[1..]))
  }

  /** Sorting keeps the weight above every threshold. */
  lemma {:induction false} SortMass(xs: seq<nat>, t: int)
    ensures Mass(SortDesc(xs), t) == Mass(xs, t)
    decreases |xs|
  {
    if |xs| > 0 {
      SortMass(xs[1..], t);
      InsertMass(xs[0], SortDesc(xs[1..]), t);
      assert xs == [xs[0]] + xs[1..];
      MassAppend([xs[0]], xs[1..], t);
    }
  }

  lemma {:induction false} SortDescending(xs: seq<nat>)
    ensures Descending(SortDesc(xs))
    decreases |xs|
  {
    if |xs| > 0 {
      SortDescending(xs[1..]);
      InsertDescending(xs[0], SortDesc(xs[1..]));
    }
  }

  /** In a descending list, the values of at least `ys[k]` weigh at least as much as the first `k + 1`. */
  lemma {:induction false} MassFrom(ys: seq<nat>, k: nat)
    requires Descending(ys) && k < |ys|
    ensures Mass(ys, ys[k] as int - 1) >= Sum(ys[..k + 1])
  {
    var t := ys[k] as int - 1;
    assert ys == ys[..k + 1] + ys[k + 1..];
    MassAppend(ys[..k + 1], ys[k + 1..], t);
    MassAll(ys[..k + 1], t);
  }

  /** In a descending list, the values above `ys[k]` weigh no more than the first `k`. */
  lemma {:induction false} MassAbove(ys: seq<nat>, k: nat)
    requires Descending(ys) && k < |ys|
    ensures Mass(ys, ys[k]) <= Sum(ys[..k])
  {
    var t := ys[k] as int;
    assert ys == ys[..k] + ys[k..];
    MassAppend(ys[..k], ys[k..], t);
    MassNone(ys[k..], t);
    MassMono(ys[..k], -1, t);
  }

  /** The value at which the running sum of the sorted list first reaches half the total is the half point. */
  lemma {:induction false} HalfPointAt(xs: seq<nat>, ys: seq<nat>, k: nat)
    requires ys == SortDesc(xs) && Descending(ys) && k < |ys|
    requires 2 * Sum(ys[..k + 1]) >= Sum(xs)
    requires k > 0 ==> 2 * Sum(ys[..k]) < Sum(xs)
    ensures ys[k] in xs
    ensures HalfPoint(xs, ys[k])
  {
    assert ys[k] in multiset(ys);
    MassFrom(ys, k);
    MassAbove(ys, k);
    SortMass(xs, ys[k] as int - 1);
    SortMass(xs, ys[k]);
    SortMass(xs, -1);
  }

  /**
   `n50`: walks the lengths in descending order and returns the first at which
   the running sum reaches half the total (compared as `2 * accu >= total`),
   or 0 for no lengths.
   */
  method N50(lengths: seq<nat>) returns (n: nat)
    ensures |lengths| == 0 ==> n == 0
    ensures |lengths| > 0 ==> n in lengths
    ensures HalfPoint(lengths, n)
  {
    var total := Sum(lengths);
    var ys := SortDesc(lengths);
    SortDescending(lengths);
    var found, k := HalfWalk(ys, total);
    if found {
      n := ys[k];
      HalfPointAt(lengths, ys, k);
    } else {
      n := 0;
      NeverReached(lengths, ys);
    }
  }

  /**
   The loop of `n50` over the sorted values: adds them up in order and stops
   at the first position where twice the running sum reaches `total`.
   */
  method HalfWalk(ys: seq<nat>, total: int) returns (found: bool, k: nat)
    ensures found ==> k < |ys| && 2 * Sum(ys[..k + 1]) >= total && (k > 0 ==> 2 * Sum(ys[..k]) < total)
    ensures !found ==> |ys| > 0 ==> 2 * Sum(ys[..|ys|]) < total
  {
    var accu := 0;
    var i := 0;
    while i < |ys|
      invariant i <= |ys|
      invariant accu == Sum(ys[..i])
      invariant i > 0 ==> 2 * accu < total
    {
      PrefixSum(ys, i);
      accu := accu + ys[i];
      if 2 * accu >= total {
        return true, i;
      }
      i := i + 1;
    }
    return false, 0;
  }

  lemma {:induction false} PrefixSum(ys: seq<nat>, i: nat)
    requires i < |ys|
    ensures Sum(ys[..i + 1]) == Sum(ys[..i]) + ys[i]
  {
    assert ys[..i + 1] == ys[..i] + [ys[i]];
    MassAppend(ys[..i], [ys[i]], -1);
    assert Sum([ys[i]]) == ys[i];
  }

  /** The running sum always reaches half the total by the last value, so only an empty list runs the loop out. */
  lemma {:induction false} NeverReached(xs: seq<nat>, ys: seq<nat>)
    requires ys == SortDesc(xs)
    requires |ys| > 0 ==> 2 * Sum(ys[..|ys|]) < Sum(xs)
    ensures |xs| == 0 && HalfPoint(xs, 0)
  {
    assert ys[..|ys|] == ys;
    SortMass(xs, -1);
  }

  /** The half point is unique when the total is positive, so any other way of finding it agrees with `N50`. */
  lemma {:induction false} HalfPointUnique(xs: seq<nat>, a: nat, b: nat)
    requires HalfPoint(xs, a) && HalfPoint(xs, b) && Sum(xs) > 0
    ensures a == b
  {
    if a < b {
      MassMono(xs, a, b - 1);
    } else if b < a {
      MassMono(xs, b, a - 1);
    }
  }
}

=== FILE: records.dfy ===
/**
 What every sequence reader in the scripts shares: the `(id, sequence)` record,
 the decoded line stream it is read from, the header conventions
 (`line.strip(marker).split()[0]`) and the suffix dispatch on the file name.
 */
module Records {
  import opened Text

  datatype Record = Record(id: string, sequence: string)

  /** The records a reader yielded, and whether it raised after yielding them. */
  datatype Parse = Parse(records: seq<Record>, crashed: bool)

  /** Reading on after `p`: nothing more once `p` has raised. */
  function Then(p: Parse, q: Parse): Parse {
    if p.crashed then p else Parse(p.records + q.records, q.crashed)
  }

  /** A raw line as file iteration hands it over: a line break can only be its last character. */
  predicate IsLine(raw: string) {
    forall j :: 0 <= j < |raw| - 1 ==> raw[j] != '\n'
  }

  predicate IsLineStream(lines: seq<string>) {
    forall i :: 0 <= i < |lines| ==> IsLine(lines[i])
  }

  lemma {:induction false} LineStreamAppend(a: seq<string>, b: seq<string>)
    ensures IsLineStream(a + b) <==> IsLineStream(a) && IsLineStream(b)
  {
    assert forall i :: 0 <= i < |a| ==> (a + b)[i] == a[i];
    assert forall i :: 0 <= i < |b| ==> (a + b)[|a| + i] == b[i];
  }

  /** A line after `strip()`, as the readers look at it: blank, or its text and whether it starts with the record marker. */
  datatype Line = Blank | Text(text: string, header: bool)

  function Kind(line: string, marker: char): Line {
    if line == "" then Blank else Text(line, line[0] == marker)
  }

  /** `text.strip(marker).split()[0]`, or `None` where that raises `IndexError`. */
  function IdOf(text: string, marker: char): Option<string> {
    Token(StripChar(text, marker))
  }

  function Classify(raw: string, marker: char): Line {
    Kind(Strip(raw), marker)
  }

  /** Every raw line classified. */
  function Lines(raw: seq<string>, marker: char): (ls: seq<Line>)
    ensures |ls| == |raw|
  {
    seq(|raw|, i requires 0 <= i < |raw| => Classify(raw[i], marker))
  }

  lemma {:induction false} LinesAppend(a: seq<string>, b: seq<string>, marker: char)
    ensures Lines(a + b, marker) == Lines(a, marker) + Lines(b, marker)
  {
    var l, r := Lines(a + b, marker), Lines(a, marker) + Lines(b, marker);
    assert |l| == |r|;
    forall i | 0 <= i < |l| ensures l[i] == r[i] {
      if i < |a| { assert (a + b)[i] == a[i]; } else { assert (a + b)[i] == b[i - |a|]; }
    }
  }

  /** A line that starts a record. */
  predicate IsHeader(l: Line) {
    l.Text? && l.header
  }

  /** A header whose `split()[0]` raises: nothing but markers and white space. */
  predicate Anonymous(l: Line, marker: char) {
    IsHeader(l) && IdOf(l.text, marker).None?
  }

  function CountHeaders(ls: seq<Line>): nat {
    if |ls| == 0 then 0 else (if IsHeader(ls[0]) then 1 else 0) + CountHeaders(ls[1..])
  }

  lemma {:induction false} CountAppend(a: seq<Line>, b: seq<Line>)
    ensures CountHeaders(a + b) == CountHeaders(a) + CountHeaders(b)
    decreases |a|
  {
    if |a| == 0 {
      assert a + b == b;
    } else {
      assert (a + b)[1..] == a[1..] + b;
      CountAppend(a[1..], b);
    }
  }

  /** The texts of the lines concatenated without separator; blank lines contribute nothing. */
  function Body(ls: seq<Line>): string {
    if |ls| == 0 then "" else (if ls[0].Text? then ls[0].text else "") + Body(ls[1..])
  }

  /** The texts of the lines, `""` for a blank one. */
  function Texts(ls: seq<Line>): (ts: seq<string>)
    ensures |ts| == |ls|
  {
    if |ls| == 0 then [] else [if ls[0].Text? then ls[0].text else ""] + Texts(ls[1..])
  }

  // ----- Format dispatch by file-name suffix -----

  datatype Format = Fasta | Fastq

  predicate IsFastqName(file: string) {
    EndsWith(file, ".fastq") || EndsWith(file, ".fq") || EndsWith(file, ".fastq.gz") || EndsWith(file, ".fq.gz")
  }

  predicate IsFastaName(file: string) {
    EndsWith(file, ".fasta") || EndsWith(file, ".fa") || EndsWith(file, ".fasta.gz") || EndsWith(file, ".fa.gz")
  }

  /** The suffix dispatch shared by the partitioner, the length statistics and the edge tool; `None` raises. */
  function FormatOf(file: string): (r: Option<Format>)
    ensures r == Some(Fastq) <==> IsFastqName(file)
    ensures r == Some(Fasta) <==> IsFastaName(file) && !IsFastqName(file)
    ensures r == None <==> !IsFastqName(file) && !IsFastaName(file)
  {
    if IsFastqName(file) then Some(Fastq)
    else if IsFastaName(file) then Some(Fasta)
    else None
  }

  // ----- Writing records back as text -----

  /** An id that survives being written after a marker and read back: a non-empty token not framed by the marker. */
  predicate WellFormedId(id: string, marker: char) {
    id != "" && NoSpace(id) && id[0] != marker && id[|id| - 1] != marker
  }

  /** A body line that `strip()` reads back verbatim: no white space at its ends, no line break inside. */
  predicate BodyText(s: string) {
    Trimmed(s) && forall j :: 0 <= j < |s| ==> s[j] != '\n'
  }

  /** A text that a reader does not take for a header. */
  predicate Unmarked(s: string, marker: char) {
    s == "" || s[0] != marker
  }

  /** Records that can be written as FASTA and read back: the sequence line is never taken for a header. */
  predicate WellFormedFasta(rs: seq<Record>) {
    forall i :: 0 <= i < |rs| ==>
      WellFormedId(rs[i].id, '>') && BodyText(rs[i].sequence) && Unmarked(rs[i].sequence, '>')
  }

  function RecordLines(r: Record): seq<string> {
    [">" + r.id + "\n", r.sequence + "\n"]
  }

  function RecordView(r: Record): seq<Line> {
    [Text(">" + r.id, true), Kind(r.sequence, '>')]
  }

  /** The lines of `">%s\n%s\n" % (id, seq)` for each record, the shard format of the partitioner. */
  function FastaLines(rs: seq<Record>): (lines: seq<string>)
    ensures |lines| == 2 * |rs|
  {
    if |rs| == 0 then []
    else RecordLines(rs[0]) + FastaLines(rs[1..])
  }

  /** Record `i` is written as lines `2i` (its header) and `2i + 1` (its sequence). */
  lemma {:induction false} FastaLinesAt(rs: seq<Record>)
    ensures forall i :: 0 <= i < |rs| ==>
      FastaLines(rs)[2 * i] == ">" + rs[i].id + "\n" && FastaLines(rs)[2 * i + 1] == rs[i].sequence + "\n"
    decreases |rs|
  {
    if |rs| > 0 {
      FastaLinesAt(rs[1..]);
      forall i | 1 <= i < |rs|
        ensures FastaLines(rs)[2 * i] == ">" + rs[i].id + "\n" && FastaLines(rs)[2 * i + 1] == rs[i].sequence + "\n"
      {
        assert FastaLines(rs)[2 * i] == FastaLines(rs[1..])[2 * (i - 1)];
        assert FastaLines(rs)[2 * i + 1] == FastaLines(rs[1..])[2 * (i - 1) + 1];
        assert rs[1..][i - 1] == rs[i];
      }
    }
  }

  /** How a reader classifies the written lines: a header with the id, then the sequence line. */
  function FastaView(rs: seq<Record>): (ls: seq<Line>)
    ensures |ls| == 2 * |rs|
  {
    if |rs| == 0 then []
    else RecordView(rs[0]) + FastaView(rs[1..])
  }

  lemma {:induction false} HeaderLineRead(id: string, marker: char)
    requires WellFormedId(id, marker) && !IsSpace(marker)
    ensures Classify([marker] + id + "\n", marker) == Text([marker] + id, true)
    ensures IdOf([marker] + id, marker) == Some(id)
    ensures IsLine([marker] + id + "\n")
  {
    StripLine([marker] + id);
    StripCharMarker(marker, id);
    FirstTokenWord(id);
    var line := [marker] + id + "\n";
    forall j | 0 <= j < |line| - 1 ensures line[j] != '\n' {
      if j > 0 { assert line[j] == id[j - 1]; assert !IsSpace(id[j - 1]); }
    }
  }

  lemma {:induction false} BodyLineRead(s: string, marker: char)
    requires BodyText(s)
    ensures Classify(s + "\n", marker) == Kind(s, marker)
    ensures IsLine(s + "\n")
  {
    StripLine(s);
  }

  lemma {:induction false} RecordRead(r: Record)
    requires WellFormedFasta([r])
    ensures IsLineStream(RecordLines(r))
    ensures Lines(RecordLines(r), '>') == RecordView(r)
  {
    assert [r][0] == r;
    HeaderLineRead(r.id, '>');
    assert ">" + r.id + "\n" == ['>'] + r.id + "\n";
    assert ">" + r.id == ['>'] + r.id;
    BodyLineRead(r.sequence, '>');
    LinesPair(">" + r.id + "\n", r.sequence + "\n", '>');
  }

  lemma {:induction false} LinesPair(x: string, y: string, marker: char)
    ensures Lines([x, y], marker) == [Classify(x, marker), Classify(y, marker)]
    ensures IsLineStream([x, y]) <==> IsLine(x) && IsLine(y)
  {
    assert [x, y][0] == x && [x, y][1] == y;
  }

  lemma {:induction false} WellFormedFastaSplit(rs: seq<Record>)
    requires |rs| > 0 && WellFormedFasta(rs)
    ensures WellFormedFasta([rs[0]]) && WellFormedFasta(rs[1..])
  {
    assert [rs[0]][0] == rs[0];
    forall i | 0 <= i < |rs| - 1 ensures rs[1..][i] == rs[i + 1] { }
  }

  /** The written lines form a line stream, classified record by record. */
  lemma {:induction false} FastaLinesRead(rs: seq<Record>)
    requires WellFormedFasta(rs)
    ensures IsLineStream(FastaLines(rs))
    ensures Lines(FastaLines(rs), '>') == FastaView(rs)
  {
    if |rs| > 0 {
      var r, tail := rs[0], rs[1..];
      WellFormedFastaSplit(rs);
      FastaLinesRead(tail);
      RecordRead(r);
      LinesAppend(RecordLines(r), FastaLines(tail), '>');
      LineStreamAppend(RecordLines(r), FastaLines(tail));
    }
  }

  /** A FASTQ entry as the scripts see it: header id, sequence line, `+` line, quality line. */
  datatype FastqEntry = FastqEntry(id: string, sequence: string, quality: string)

  /** Sequence and quality lines that are kept verbatim and are not blank. */
  predicate WellFormedFastq(es: seq<FastqEntry>) {
    forall i :: 0 <= i < |es| ==>
      && WellFormedId(es[i].id, '@')
      && BodyText(es[i].sequence) && es[i].sequence != ""
      && BodyText(es[i].quality) && es[i].quality != ""
  }

  function FastqLines(es: seq<FastqEntry>): (lines: seq<string>)
    ensures |lines| == 4 * |es|
  {
    if |es| == 0 then []
    else EntryLines(es[0]) + FastqLines(es[1..])
  }

  function EntryLines(e: FastqEntry): seq<string> {
    ["@" + e.id + "\n", e.sequence + "\n", "+\n", e.quality + "\n"]
  }

  function EntryView(e: FastqEntry): seq<Line> {
    [Text("@" + e.id, true), Kind(e.sequence, '@'), Kind("+", '@'), Kind(e.quality, '@')]
  }

  lemma {:induction false} EntryRead(e: FastqEntry)
    requires WellFormedFastq([e])
    ensures IsLineStream(EntryLines(e))
    ensures Lines(EntryLines(e), '@') == EntryView(e)
  {
    assert [e][0] == e;
    var a, b := ["@" + e.id + "\n", e.sequence + "\n"], ["+\n", e.quality + "\n"];
    EntryHeadRead(e);
    EntryTailRead(e);
    assert EntryLines(e) == a + b;
    LinesAppend(a, b, '@');
    LineStreamAppend(a, b);
    assert EntryView(e) == [Text("@" + e.id, true), Kind(e.sequence, '@')] + [Kind("+", '@'), Kind(e.quality, '@')];
  }

  lemma {:induction false} EntryHeadRead(e: FastqEntry)
    requires WellFormedId(e.id, '@') && BodyText(e.sequence)
    ensures IsLineStream(["@" + e.id + "\n", e.sequence + "\n"])
    ensures Lines(["@" + e.id + "\n", e.sequence + "\n"], '@') == [Text("@" + e.id, true), Kind(e.sequence, '@')]
  {
    HeaderLineRead(e.id, '@');
    assert "@" + e.id + "\n" == ['@'] + e.id + "\n";
    assert "@" + e.id == ['@'] + e.id;
    BodyLineRead(e.sequence, '@');
    LinesPair("@" + e.id + "\n", e.sequence + "\n", '@');
  }

  lemma {:induction false} EntryTailRead(e: FastqEntry)
    requires BodyText(e.quality)
    ensures IsLineStream(["+\n", e.quality + "\n"])
    ensures Lines(["+\n", e.quality + "\n"], '@') == [Kind("+", '@'), Kind(e.quality, '@')]
  {
    BodyLineRead("+", '@');
    assert "+" + "\n" == "+\n";
    BodyLineRead(e.quality, '@');
    LinesPair("+\n", e.quality + "\n", '@');
  }

  /** How a reader classifies the written lines. A sequence or quality line may well start with `@`. */
  function FastqView(es: seq<FastqEntry>): (ls: seq<Line>)
    ensures |ls| == 4 * |es|
  {
    if |es| == 0 then []
    else EntryView(es[0]) + FastqView(es[1..])
  }

  lemma {:induction false} WellFormedFastqSplit(es: seq<FastqEntry>)
    requires |es| > 0 && WellFormedFastq(es)
    ensures WellFormedFastq([es[0]]) && WellFormedFastq(es[1..])
  {
    assert [es[0]][0] == es[0];
    forall i | 0 <= i < |es| - 1 ensures es[1..][i] == es[i + 1] { }
  }

  lemma {:induction false} FastqLinesRead(es: seq<FastqEntry>)
    requires WellFormedFastq(es)
    ensures IsLineStream(FastqLines(es))
    ensures Lines(FastqLines(es), '@') == FastqView(es)
  {
    if |es| > 0 {
      var e, tail := es[0], es[1..];
      WellFormedFastqSplit(es);
      FastqLinesRead(tail);
      var head := EntryLines(e);
      EntryRead(e);
      LinesAppend(head, FastqLines(tail), '@');
      LineStreamAppend(head, FastqLines(tail));
    }
  }

  /** What a reader should return for written FASTQ entries: their ids and sequences. */
  function FastqRecords(es: seq<FastqEntry>): (rs: seq<Record>)
    ensures |rs| == |es|
    ensures forall i :: 0 <= i < |es| ==> rs[i] == Record(es[i].id, es[i].sequence)
  {
    if |es| == 0 then [] else [Record(es[0].id, es[0].sequence)] + FastqRecords(es[1..])
  }
}

=== FILE: text.dfy ===
/**
 Python string primitives the scripts rely on, written out over `seq<char>`:
 `strip()`, `strip(c)`, `split()[0]`, `split(sep)`, `sep.join(..)`,
 `str.replace`, `startswith`/`endswith` and `str(int)`.
 */
module Text {

  datatype Option<T> = None | Some(value: T)

  /** The characters for which Python's `str.isspace` holds. */
  const Whitespace: set<char> := {
    ' ', '\t', '\n', '\U{B}', '\U{C}', '\r', '\U{1C}', '\U{1D}', '\U{1E}', '\U{1F}',
    '\U{85}', '\U{A0}', '\U{1680}',
    '\U{2000}', '\U{2001}', '\U{2002}', '\U{2003}', '\U{2004}', '\U{2005}',
    '\U{2006}', '\U{2007}', '\U{2008}', '\U{2009}', '\U{200A}',
    '\U{2028}', '\U{2029}', '\U{202F}', '\U{205F}', '\U{3000}'
  }

  predicate IsSpace(c: char) {
    c in Whitespace
  }

  predicate NoSpace(s: string) {
    forall i :: 0 <= i < |s| ==> !IsSpace(s[i])
  }

  /** A string that `strip()` leaves unchanged: empty, or no white space at either end. */
  predicate Trimmed(s: string) {
    s == "" || (!IsSpace(s[0]) && !IsSpace(s[|s| - 1]))
  }

  function TrimLeft(s: string): (r: string)
    ensures |r| <= |s|
    ensures r == "" || !IsSpace(r[0])
  {
    if |s| > 0 && IsSpace(s[0]) then TrimLeft(s[1..]) else s
  }

  function TrimRight(s: string): (r: string)
    ensures |r| <= |s|
    ensures r == "" || !IsSpace(r[|r| - 1])
  {
    if |s| > 0 && IsSpace(s[|s| - 1]) then TrimRight(s[..|s| - 1]) else s
  }

  /** What `TrimLeft` keeps is a suffix of its argument, and what it drops is white space. */
  lemma {:induction false} TrimLeftSuffix(s: string)
    ensures TrimLeft(s) == s[|s| - |TrimLeft(s)|..]
    ensures forall i :: 0 <= i < |s| - |TrimLeft(s)| ==> IsSpace(s[i])
    decreases |s|
  {
    if |s| > 0 && IsSpace(s[0]) {
      TrimLeftSuffix(s[1..]);
    }
  }

  /** What `TrimRight` keeps is a prefix of its argument, and what it drops is white space. */
  lemma {:induction false} TrimRightPrefix(s: string)
    ensures TrimRight(s) == s[..|TrimRight(s)|]
    ensures forall i :: |TrimRight(s)| <= i < |s| ==> IsSpace(s[i])
    decreases |s|
  {
    if |s| > 0 && IsSpace(s[|s| - 1]) {
      TrimRightPrefix(s[..|s| - 1]);
    }
  }

  /** `r` stands in `s` at `i`, and everything of `s` around it is white space. */
  predicate PaddedAt(s: string, r: string, i: int) {
    0 <= i && i + |r| <= |s| && s[i..i + |r|] == r
    && (forall k :: 0 <= k < i ==> IsSpace(s[k]))
    && (forall k :: i + |r| <= k < |s| ==> IsSpace(s[k]))
  }

  /** Python `s.strip()`: the infix of `s` without white space at either end that only white space surrounds. */
  function Strip(s: string): (r: string)
    ensures Trimmed(r) && |r| <= |s|
    ensures Trimmed(s) ==> r == s
  {
    var t := TrimLeft(s);
    TrimRightPrefix(t);
    TrimRight(t)
  }

  /**
   What `Strip` keeps is a trimmed infix of its argument with only white
   space around it. Such an infix is unique (`PaddedUnique`), so this
   determines `strip()`.
   */
  lemma {:induction false} StripSpec(s: string)
    ensures Trimmed(Strip(s))
    ensures exists i :: PaddedAt(s, Strip(s), i)
  {
    var t := TrimLeft(s);
    TrimLeftSuffix(s);
    TrimRightPrefix(t);
    assert PaddedAt(s, Strip(s), |s| - |t|);
  }

  /** Two trimmed infixes of `s` with only white space around them are the same. */
  lemma {:induction false} PaddedUnique(s: string, r1: string, i1: int, r2: string, i2: int)
    requires Trimmed(r1) && PaddedAt(s, r1, i1)
    requires Trimmed(r2) && PaddedAt(s, r2, i2)
    ensures r1 == r2
  {
    PaddedEnds(s, r1, i1);
    PaddedEnds(s, r2, i2);
    if r1 != "" && r2 != "" {
      assert i1 == i2 && |r1| == |r2|;
    }
  }

  /** A non-empty padded infix starts and ends at non-space characters; an empty one leaves only white space. */
  lemma {:induction false} PaddedEnds(s: string, r: string, i: int)
    requires Trimmed(r) && PaddedAt(s, r, i)
    ensures r != "" ==> !IsSpace(s[i]) && !IsSpace(s[i + |r| - 1])
    ensures r == "" ==> forall k :: 0 <= k < |s| ==> IsSpace(s[k])
  {
    if r != "" {
      assert s[i] == r[0];
      assert s[i + |r| - 1] == r[|r| - 1];
    }
  }

  /** Writing a trimmed string followed by a line break and stripping it gives the string back. */
  lemma {:induction false} StripLine(s: string)
    requires Trimmed(s)
    ensures Strip(s + "\n") == s
  {
    if s == "" {
      assert TrimLeft("\n") == TrimLeft("");
    } else {
      var t := s + "\n";
      assert TrimLeft(t) == t;
      assert IsSpace(t[|t| - 1]);
      assert t[..|t| - 1] == s;
      assert TrimRight(t) == TrimRight(s);
    }
  }

  /** Python `s.strip(c)` for one character `c`. */
  function StripChar(s: string, c: char): (r: string)
    ensures |r| <= |s|
    ensures r == "" || (r[0] != c && r[|r| - 1] != c)
    decreases |s|
  {
    if |s| > 0 && s[0] == c then StripChar(s[1..], c)
    else if |s| > 0 && s[|s| - 1] == c then StripChar(s[..|s| - 1], c)
    else s
  }

  lemma {:induction false} StripCharMarker(c: char, s: string)
    requires s != "" && s[0] != c && s[|s| - 1] != c
    ensures StripChar([c] + s, c) == s
  {
    assert ([c] + s)[1..] == s;
  }

  /** The maximal prefix of `s` without white space. */
  function TakeWord(s: string): (r: string)
    ensures |r| <= |s| && r == s[..|r|] && NoSpace(r)
    ensures |r| < |s| ==> IsSpace(s[|r|])
  {
    if |s| == 0 || IsSpace(s[0]) then "" else [s[0]] + TakeWord(s[1..])
  }

  lemma {:induction false} TakeWordAll(s: string)
    requires NoSpace(s)
    ensures TakeWord(s) == s
  {
  }

  /** True when Python's `s.split()` is non-empty, so that `s.split()[0]` does not raise. */
  predicate HasToken(s: string) {
    TrimLeft(s) != ""
  }

  /** Python `s.split()[0]`, meaningful when `HasToken(s)`. */
  function FirstToken(s: string): (r: string)
    ensures NoSpace(r)
    ensures HasToken(s) <==> r != ""
  {
    TakeWord(TrimLeft(s))
  }

  /** `w` is a whole word of `s` starting at `i`, and only white space comes before it. */
  predicate FirstWordAt(s: string, w: string, i: int) {
    0 <= i && i + |w| <= |s| && s[i..i + |w|] == w
    && (forall k :: 0 <= k < i ==> IsSpace(s[k]))
    && (i + |w| == |s| || IsSpace(s[i + |w|]))
  }

  /** Python `s.split()[0]`, or `None` where it raises `IndexError` because `s` is all white space. */
  function Token(s: string): (r: Option<string>)
    ensures r.Some? <==> HasToken(s)
    ensures r.Some? ==> r.value != "" && NoSpace(r.value)
  {
    if HasToken(s) then Some(FirstToken(s)) else None
  }

  /**
   `split()[0]` raises exactly on an all-white-space string; otherwise it is
   a non-empty word that only white space precedes and that white space or
   the end follows. Such a word is unique (`FirstWordUnique`), so this
   determines it.
   */
  lemma {:induction false} TokenSpec(s: string)
    ensures Token(s).None? <==> forall k :: 0 <= k < |s| ==> IsSpace(s[k])
    ensures Token(s).Some? ==> exists i :: FirstWordAt(s, Token(s).value, i)
  {
    TrimLeftSuffix(s);
    var t := TrimLeft(s);
    if HasToken(s) {
      var w := FirstToken(s);
      assert t[..|w|] == s[|s| - |t|..][..|w|];
      assert FirstWordAt(s, w, |s| - |t|);
      assert !IsSpace(s[|s| - |t|]);
    } else {
      assert |t| == 0;
    }
  }

  /** A word standing in `s` at `i` is followed by white space at `i + n` only when it is `n` long or shorter. */
  lemma {:induction false} WordEnd(s: string, w: string, i: int, n: nat)
    requires NoSpace(w) && 0 <= i && i + |w| <= |s| && s[i..i + |w|] == w
    ensures n < |w| ==> i + n < |s| && !IsSpace(s[i + n])
  {
    if n < |w| {
      assert s[i + n] == w[n];
    }
  }

  /** Two non-empty words that only white space precedes and white space or the end follows are the same. */
  lemma {:induction false} FirstWordUnique(s: string, w1: string, i1: int, w2: string, i2: int)
    requires w1 != "" && NoSpace(w1) && FirstWordAt(s, w1, i1)
    requires w2 != "" && NoSpace(w2) && FirstWordAt(s, w2, i2)
    ensures w1 == w2
  {
    assert s[i1] == w1[0] && s[i2] == w2[0];
    assert i1 == i2;
    WordEnd(s, w1, i1, |w2|);
    WordEnd(s, w2, i2, |w1|);
  }

  lemma {:induction false} FirstTokenWord(s: string)
    requires s != "" && NoSpace(s)
    ensures HasToken(s) && FirstToken(s) == s
  {
    assert TrimLeft(s) == s;
    TakeWordAll(s);
  }

  /** The first token of a word followed by white space is the word. */
  lemma {:induction false} TakeWordPrefix(w: string, rest: string)
    requires NoSpace(w) && rest != "" && IsSpace(rest[0])
    ensures TakeWord(w + rest) == w
    decreases |w|
  {
    if |w| == 0 {
      assert w + rest == rest;
    } else {
      assert (w + rest)[1..] == w[1..] + rest;
      TakeWordPrefix(w[1..], rest);
    }
  }

  lemma {:induction false} FirstTokenPrefix(w: string, rest: string)
    requires w != "" && NoSpace(w) && rest != "" && IsSpace(rest[0])
    ensures HasToken(w + rest) && FirstToken(w + rest) == w
  {
    assert (w + rest)[0] == w[0];
    assert TrimLeft(w + rest) == w + rest;
    TakeWordPrefix(w, rest);
  }

  predicate StartsWith(s: string, p: string) {
    |p| <= |s| && s[..|p|] == p
  }

  predicate EndsWith(s: string, p: string) {
    |p| <= |s| && s[|s| - |p|..] == p
  }

  /** `sep` occurs in `s` at position `i`. */
  predicate OccursAt(s: string, sep: string, i: int) {
    0 <= i && i + |sep| <= |s| && s[i..i + |sep|] == sep
  }

  predicate Contains(s: string, sep: string) {
    exists i :: 0 <= i <= |s| && OccursAt(s, sep, i)
  }

  function FindFrom(s: string, sep: string, i: nat): (r: Option<nat>)
    requires |sep| > 0
    ensures r.Some? ==> i <= r.value && OccursAt(s, sep, r.value)
    ensures forall j :: i <= j && (r.None? || j < r.value) ==> !OccursAt(s, sep, j)
    decreases |s| - i
  {
    if i + |sep| > |s| then None
    else if s[i..i + |sep|] == sep then Some(i)
    else FindFrom(s, sep, i + 1)
  }

  /** Python `s.find(sep)`: the first position where `sep` occurs. */
  function Find(s: string, sep: string): (r: Option<nat>)
    requires |sep| > 0
    ensures r.Some? ==> OccursAt(s, sep, r.value)
    ensures r.Some? ==> forall j :: 0 <= j < r.value ==> !OccursAt(s, sep, j)
    ensures r.None? <==> !Contains(s, sep)
  {
    FindFrom(s, sep, 0)
  }

  /** Python `s.split(sep)` for a non-empty separator. */
  function Split(s: string, sep: string): (parts: seq<string>)
    requires |sep| > 0
    ensures |parts| >= 1
    decreases |s|
  {
    match Find(s, sep)
    case None => [s]
    case Some(i) => [s[..i]] + Split(s[i + |sep|..], sep)
  }

  /** No piece of a split holds the separator. */
  lemma {:induction false} SplitPieces(s: string, sep: string)
    requires |sep| > 0
    ensures forall k :: 0 <= k < |Split(s, sep)| ==> !Contains(Split(s, sep)[k], sep)
    decreases |s|
  {
    match Find(s, sep)
    case None =>
    case Some(i) =>
      var head := s[..i];
      assert !Contains(head, sep) by {
        forall j | 0 <= j <= |head| ensures !OccursAt(head, sep, j) {
          if j + |sep| <= |head| {
            assert s[j..j + |sep|] == head[j..j + |sep|];
            assert !OccursAt(s, sep, j);
          }
        }
      }
      var rest := s[i + |sep|..];
      SplitPieces(rest, sep);
      assert Split(s, sep) == [head] + Split(rest, sep);
  }

  /** Python `sep.join(parts)`. */
  function Join(parts: seq<string>, sep: string): string {
    if |parts| == 0 then ""
    else if |parts| == 1 then parts[0]
    else parts[0] + sep + Join(parts[1..], sep)
  }

  /** Joining the pieces of a split with the separator restores the string. */
  lemma {:induction false} JoinSplit(s: string, sep: string)
    requires |sep| > 0
    ensures Join(Split(s, sep), sep) == s
    decreases |s|
  {
    match Find(s, sep)
    case None =>
    case Some(i) =>
      var rest := s[i + |sep|..];
      var parts := Split(s, sep);
      assert parts == [s[..i]] + Split(rest, sep);
      assert parts[1..] == Split(rest, sep);
      JoinSplit(rest, sep);
      assert s == s[..i] + sep + rest;
  }

  /** The first piece of a split is the text before the first occurrence. */
  lemma {:induction false} SplitHead(s: string, sep: string)
    requires |sep| > 0
    ensures Split(s, sep)[0] == (match Find(s, sep) case None => s case Some(i) => s[..i])
  {
  }

  /** A separator found at `k` with no character before it that could start another occurrence is the first one. */
  lemma {:induction false} FindFirst(s: string, sep: string, k: nat)
    requires |sep| > 0 && OccursAt(s, sep, k)
    requires forall j :: 0 <= j < k ==> s[j] != sep[0]
    ensures Find(s, sep) == Some(k)
  {
    assert Contains(s, sep);
    var v := Find(s, sep).value;
    assert s[v..v + |sep|][0] == s[v];
  }

  /** Splitting at a first occurrence at `k`: the text before it, then the pieces of the text after it. */
  lemma {:induction false} SplitFirst(s: string, sep: string, k: nat)
    requires |sep| > 0 && Find(s, sep) == Some(k)
    ensures Split(s, sep) == [s[..k]] + Split(s[k + |sep|..], sep)
  {
  }

  /** No occurrence of `sep` before `k` when no character before `k` can start one. */
  lemma {:induction false} FindNotBefore(s: string, sep: string, k: nat)
    requires |sep| > 0
    requires forall j :: 0 <= j < k && j < |s| ==> s[j] != sep[0]
    ensures Split(s, sep)[0] == s || (k <= |Split(s, sep)[0]| && Split(s, sep)[0] == s[..|Split(s, sep)[0]|])
  {
    match Find(s, sep)
    case None =>
    case Some(i) =>
      assert s[i..i + |sep|][0] == s[i];
  }

  predicate NoChar(s: string, c: char) {
    forall k :: 0 <= k < |s| ==> s[k] != c
  }

  /** A string without the one-character separator is split into itself alone. */
  lemma {:induction false} SplitAbsent(s: string, c: char)
    requires NoChar(s, c)
    ensures Split(s, [c]) == [s]
  {
    forall j | 0 <= j <= |s| ensures !OccursAt(s, [c], j) {
      if j + 1 <= |s| {
        assert s[j..j + 1][0] == s[j];
      }
    }
  }

  /** The part after the last `/` of `d/n` is `n` when `n` holds no `/`. */
  lemma {:induction false} LastComponentAfter(d: string, n: string)
    requires NoChar(n, '/')
    ensures LastComponent(d + "/" + n) == n
    decreases |d|
  {
    var s := d + "/" + n;
    assert OccursAt(s, "/", |d|) by {
      assert s[|d|..|d| + 1] == "/";
    }
    assert Contains(s, "/");
    var i := Find(s, "/").value;
    SplitFirst(s, "/", i);
    var parts := Split(s, "/");
    if i == |d| {
      assert s[i + 1..] == n;
      SplitAbsent(n, '/');
    } else {
      assert s[i] == d[i] by {
        assert s[i..i + 1][0] == s[i];
      }
      var d' := d[i + 1..];
      assert s[i + 1..] == d' + "/" + n;
      LastComponentAfter(d', n);
    }
  }

  /** A path without `/` is its own last component. */
  lemma {:induction false} LastComponentPlain(n: string)
    requires NoChar(n, '/')
    ensures LastComponent(n) == n
  {
    SplitAbsent(n, '/');
  }

  /** Python `s.replace("", rep)`: `rep` before every character and at the end. */
  function InsertAround(s: string, rep: string): (r: string)
    ensures |r| == |s| + (|s| + 1) * |rep|
  {
    if |s| == 0 then rep else rep + [s[0]] + InsertAround(s[1..], rep)
  }

  /** Python `s.replace(pat, rep)`. */
  function Replace(s: string, pat: string, rep: string): string {
    if pat == "" then InsertAround(s, rep) else Join(Split(s, pat), rep)
  }

  /** Replacing a non-empty `pat` at the front of `pat + t` puts `rep` there and goes on with `t`. */
  lemma {:induction false} ReplaceFront(pat: string, t: string, rep: string)
    requires pat != ""
    ensures Replace(pat + t, pat, rep) == rep + Replace(t, pat, rep)
  {
    var s := pat + t;
    assert s[..|pat|] == pat;
    assert OccursAt(s, pat, 0);
    assert Find(s, pat) == Some(0);
    assert s[..0] == "" && s[|pat|..] == t;
    var rest := Split(t, pat);
    assert Split(s, pat) == [""] + rest;
    JoinFront(rest, rep);
  }

  /** Joining behind an empty first piece starts with the separator. */
  lemma {:induction false} JoinFront(rest: seq<string>, sep: string)
    requires |rest| >= 1
    ensures Join([""] + rest, sep) == sep + Join(rest, sep)
  {
    assert ([""] + rest)[0] == "" && ([""] + rest)[1..] == rest;
    assert "" + sep == sep;
  }

  lemma {:induction false} ReplaceAbsent(s: string, pat: string, rep: string)
    requires pat != "" && !Contains(s, pat)
    ensures Replace(s, pat, rep) == s
  {
  }

  function DigitChar(d: nat): char
    requires d < 10
  {
    "0123456789"[d]
  }

  function NatDigits(n: nat): (r: string)
    ensures |r| >= 1
    decreases n
  {
    if n < 10 then [DigitChar(n)] else NatDigits(n / 10) + [DigitChar(n % 10)]
  }

  /** Python `str(n)` for an integer. */
  function Decimal(n: int): string {
    if n < 0 then "-" + NatDigits(-n) else NatDigits(n)
  }

  /** Python `s.split('/')[-1]`: the text after the last `/`. */
  function LastComponent(s: string): string {
    var parts := Split(s, "/");
    parts[|parts| - 1]
  }
}
